=== FILE: README.md ===
# Blogify backend, modelled in Dafny

This project models the request-handling core of the Blogify blogging
backend, an Express/Mongoose service. It covers:

- user accounts with a one-time-code (OTP) e-mail verification;
- JWT session tokens;
- the role gate (`user`, `author`, `admin`);
- blog posts that move between draft and published;
- threaded comments with cascading deletion;
- user profiles with an avatar upload;
- the route tables that put token checks, role checks and the upload step
  in front of each controller.

Each MongoDB collection is a finite map from document id to an immutable
record. Each controller is a pure transition that returns the new
collection and an HTTP status. Where the controller's result is a sorted
query, or where recursion makes a method clearer, it is a method instead.

What lies outside the program becomes an input:

- The clock (`Date.now()`) is a number of milliseconds.
- Each random draw (`Math.random()`) is an integer in the range the source
  derives from it.
- The database's next id is a parameter that must be unused.
- Whether an e-mail was delivered is a boolean.
- Token signature checking is a function from token strings to optional
  claims.
- bcrypt is idealised as a collision-free digest of the salt and of what
  bcrypt reads of the password. bcryptjs appends a NUL byte to the UTF-8
  encoding (for the `2a`/`2b` salts `genSalt` makes), and the key schedule
  reads 72 bytes of that buffer, starting over whenever it runs out.
- The case-insensitive MongoDB `$regex` keyword match is a predicate
  parameter.

## Modules, one per file

| module | file | what it models |
|---|---|---|
| `Common` | common.dfy | roles, ids, statuses, JavaScript truthiness, partial updates |
| `Encoding` | encoding.dfy | JavaScript's UTF-16 `length` and the UTF-8 encoding bcrypt hashes |
| `Text` | text.dfy | `toLowerCase` (ASCII), `split` on one character, `trim`, decimal numerals |
| `Users` | users.dfy | the user schema: casting, validation, defaults, password hashing on save, lookup by e-mail |
| `Middleware` | middleware.dfy | `generateToken`, `verifyToken`, `authorizeRoles` |
| `AuthController` | auth.dfy | register, verify OTP, log in, resend OTP |
| `Ordering` | ordering.dfy | `find(filter).sort(key)` over a collection |
| `CommentTree` | comment_tree.dfy | the reply relation: ancestors, threads, acyclicity |
| `CommentController` | comments.dfy | create, list and recursively delete comments |
| `BlogController` | blogs.dfy | create, update, delete, publish toggle and the public queries |
| `ProfileController` | profiles.dfy | get, update and avatar upload for one's own or (for an admin) anyone's profile |
| `Upload` | upload.dfy | `path.extname`, the image file filter, the stored file name, `upload.single` |
| `Routes` | routes.dfy | the route tables, Express path matching, guard chains and whole-request dispatch |

The model follows the code. Where the code behaves in ways a reader of the
API might not expect, the contracts state what the code does:

- `resendOTP` re-issues a code for any account it finds, including an
  already verified one. That account is then blocked from logging in until
  the new code is verified.
- Resending saves the new code before the mail goes out, so a failed mail
  answers 500 with the new code stored. A login whose admin notification
  fails answers 500 after the profile was created. A comment whose
  notification fails answers 500 after the comment was stored.
- Registration stores whatever `role` the body names, `admin` included, as
  long as it is one of the three enum values.
- `updateBlog` passes the request body straight to the update, so an author
  can reassign their post's `author`, after which they are refused further
  changes.
- The upload step runs before `uploadProfileImage` checks access. A
  signed-in user who sends an image for somebody else's profile gets 403,
  yet the file is already stored.
- The password `minlength` counts UTF-16 code units, so three emoji make a
  long enough password. bcrypt reads only the first 72 bytes of the UTF-8
  encoding, so two long passwords that share those bytes match each other.
  Because bcryptjs terminates the password with a NUL byte and then repeats
  it, a password containing U+0000 can match a different one: "a" and
  "a\u0000a" match each other, and so do a 71-byte password and the same
  password followed by U+0000.
- A comment can be created as its own parent, and the collection then has
  a cycle. Deleting that comment would recurse without end, but every
  comment off the cycle is still deleted normally.
- Updates do not validate, but the toggle's `save()` does. A post whose
  title or content an update emptied answers 500 to every later toggle.
- A profile update with a field set to `null` clears that field.
- The `parent` of a new comment is stored unchecked. A client that sends
  the id the database assigns next creates a comment that is its own
  parent.

## Model

| member | source | states |
|---|---|---|
| `Common.ParseRole` | src/models/User.js:23-27 | a role string is accepted exactly when it is one of `user`, `author`, `admin`, and the accepted role prints back as the same string |
| `Users.FindByEmail` | src/models/User.js:11-16 | the lookup finds a user exactly when some stored user has the lowercased address, and then it returns that user |
| `Users.Create` | src/models/User.js:5-45 | creation succeeds exactly when the trimmed name is non-blank, the e-mail is non-empty, the password is at least 6 UTF-16 code units long and the role (if given) is in the enum; the record then has the trimmed name, the lowercased e-mail, role `user` by default, the given OTP fields, and a digest matched by exactly the passwords with the same bcrypt key |
| `Users.Save` | src/models/User.js:40-45 | a save changes nothing but the hash; the hash stays when no new password is set, and otherwise is matched by exactly the passwords with the new password's bcrypt key |
| `Users.FindCaller` | src/middleware/authMiddleware.js:28 | the request user exists exactly when the id is stored, and carries that record's id, role, name and e-mail (no password) |
| `Users.InsertKeepsUnique` | src/models/User.js:14 | adding a user under a fresh id with an unused e-mail keeps e-mails unique |
| `Users.UpdateKeepsUnique` | src/models/User.js:40-45 | saving a user without changing their e-mail keeps e-mails unique |
| `Text.Lower` | src/middleware/uploadMiddleware.js:20 | lowercasing keeps the length, maps each character independently and leaves no upper-case ASCII letter |
| `Text.Split` | src/middleware/authMiddleware.js:15 | splitting gives at least one piece, no piece holds the separator, and joining the pieces with it gives the string back |
| `Text.SplitJoin` | src/middleware/authMiddleware.js:15 | splitting undoes joining on separator-free pieces, so split and join are inverse |
| `Text.ContainsAt` | src/middleware/uploadMiddleware.js:19 | the unanchored substring test holds exactly when the pattern starts at some offset |
| `Text.Trim` | src/models/User.js:9 | the trimmed name is a slice of the name with only white space cut off either end; it neither starts nor ends with white space, and is empty exactly when the name is all white space |
| `Text.Decimal` | src/controllers/authController.js:91 | a number prints as a non-empty digit string with a leading zero only for 0 |
| `Text.DecimalRoundTrip` | src/controllers/authController.js:91 | reading a printed number back gives the number |
| `Text.DecimalLength` | src/controllers/authController.js:91 | a number with `k` digits prints with exactly `k` characters |
| `Middleware.GenerateToken` | src/controllers/authController.js:8-12 | the token carries the user's id and role, was issued in the current second and expires one hour after issue |
| `Middleware.ExtractBearer` | src/middleware/authMiddleware.js:11-20 | a token is found only in a header that starts with `Bearer`; it is non-empty, has no space and follows a space in the header |
| `Middleware.ExtractBearerOf` | src/middleware/authMiddleware.js:11-16 | a header starting with `Bearer` is split on single spaces: whatever follows `Bearer` up to the first space is ignored, the piece after that space is the token, and an empty piece means no token |
| `Middleware.VerifyToken` | src/middleware/authMiddleware.js:7-34 | 401 exactly when there is no token, the signature check fails, or the token has expired; otherwise the request proceeds with the user freshly read for the token's id, which is null when that user is gone |
| `Middleware.AuthorizeNoRoles` | src/middleware/authMiddleware.js:37-44 | with no allowed role the gate turns everybody away |
| `Middleware.StoredRoleDecides` | src/middleware/authMiddleware.js:24-41 | after a valid token, the role gate passes exactly when the token's user still exists and their stored role (not the token's claim) is allowed |
| `Middleware.TokenLifetimeWindow` | src/controllers/authController.js:8-12 | a token issued at `t` is accepted at `t` + 59 minutes and refused at `t` + 61 minutes |
| `AuthController.NewOtp` | src/controllers/authController.js:91 | every code is six decimal digits without a leading zero, with value `100000 + draw`, so within 100000..999999 |
| `AuthController.NewOtpInjective` | src/controllers/authController.js:247 | different draws give different codes |
| `AuthController.NewAccount` | src/controllers/authController.js:113-120 | the account built from a complete body is valid exactly when the schema accepts it, and then carries the body's data, the new code and an expiry ten minutes after now |
| `AuthController.Register` | src/controllers/authController.js:75-131 | 400 for missing fields or a taken e-mail and 500 for a failed mail or a schema error, all of these leaving the users as they were; otherwise exactly one new account; e-mails stay unique |
| `AuthController.VerifyOtp` | src/controllers/authController.js:136-168 | 400 when a field is missing, 404 for an unknown e-mail, "invalid" for a wrong code whatever its expiry, "expired" for the right code only when its expiry is strictly before now; success clears both OTP fields of that account and changes nothing else |
| `AuthController.Login` | src/controllers/authController.js:172-234 | a pending code blocks the login before the password is checked; accepted credentials give that user a profile only if they had none, and a token for their id and stored role when the notification went out; otherwise 500 |
| `AuthController.ResendOtp` | src/controllers/authController.js:237-268 | 404 for an unknown e-mail with nothing changed; otherwise that account, and only it, gets a fresh code and expiry, whether or not the mail goes out |
| `AuthController.RegisteredIsFound` | src/controllers/authController.js:85-120 | after a registration the e-mail finds exactly the new account |
| `AuthController.RegisteredCannotLogIn` | src/controllers/authController.js:188-190 | a freshly registered account cannot log in with any password |
| `AuthController.CodeWindow` | src/controllers/authController.js:150-156 | the mailed code verifies the new account up to and including its expiry instant and is refused as expired after it; any other code is invalid |
| `AuthController.RegisterVerifyLogin` | src/controllers/authController.js:75-234 | register, verify in time, then log in with the registered password: the login succeeds with a one-hour token for the new account and role, and the account has a profile |
| `AuthController.CodeIsSingleUse` | src/controllers/authController.js:159-161 | after a successful verification every further code is refused as invalid |
| `AuthController.ResendReplacesCode` | src/controllers/authController.js:247-252 | after a resend the previous code is invalid, and the account, even a verified one, is blocked from logging in |
| `AuthController.LoginTokenAuthenticates` | src/controllers/authController.js:199 | the token handed out at login lets its holder through the token check as that user for the next 59 minutes |
| `Ordering.SelectSorted` | src/controllers/commentController.js:39-42 | the query lists each kept document exactly once, nothing else, in ascending key order |
| `CommentTree.Children` | src/controllers/commentController.js:52 | the direct replies are exactly the stored comments whose parent is the given id |
| `CommentTree.NoCycle` | src/controllers/commentController.js:51-59 | in a ranked collection no comment is its own ancestor |
| `CommentTree.SiblingsDisjoint` | src/controllers/commentController.js:54-56 | the threads of two different replies to a comment that is not its own ancestor share no comment |
| `CommentTree.ThreadNotOwnAncestor` | src/controllers/commentController.js:51-59 | when a comment is not its own ancestor, no comment of its thread is: the recursion never meets a cycle |
| `CommentTree.ChildSubtreeSmaller` | src/controllers/commentController.js:54-56 | each recursive call deletes a strictly smaller thread than its caller |
| `CommentTree.AcyclicNotOwnAncestor` | src/models/Comment.js:7 | in an acyclic collection every comment can be deleted with its thread |
| `CommentTree.SubtreeInSubStore` | src/controllers/commentController.js:54-58 | a thread from which nothing was deleted is the same thread after other deletions |
| `CommentTree.InsertKeepsAcyclic` | src/models/Comment.js:7 | storing a new comment under a fresh id keeps the reply relation acyclic, whatever parent it names |
| `CommentTree.AcyclicNoSelfAncestor` | src/models/Comment.js:7 | in an acyclic collection no comment is its own ancestor |
| `CommentController.CreateComment` | src/controllers/commentController.js:5-32 | one comment by the caller, on the blog, with the content and time is stored; its parent is null for a missing or empty parent and otherwise the given id, unchecked; 201 only when the notification went out |
| `CommentController.GetComments` | src/controllers/commentController.js:35-48 | exactly the comments of the blog, each once, oldest first |
| `CommentController.DeleteCommentAndReplies` | src/controllers/commentController.js:51-59 | for a comment that is not its own ancestor (exactly when the recursion ends), exactly the comment's thread is removed and every other comment is untouched; the removal order lists each removed comment once and removes a comment only after its whole thread |
| `CommentController.DeleteComment` | src/controllers/commentController.js:62-80 | 404 for a missing comment and 403 for a caller who is neither its author nor an admin, both with nothing changed; 500 without a caller; otherwise exactly its thread is removed; only this permitted deletion needs the comment not to be its own ancestor, and an acyclic collection stays acyclic |
| `CommentController.CycleElsewhereDeletable` | src/controllers/commentController.js:51-80 | in a collection where one comment replies to itself, another comment still meets what its deletion needs |
| `BlogController.CreateBlog` | src/controllers/blogController.js:6-32 | 400 without a truthy title and content; otherwise one new post by the caller with the given fields, no tags and a draft unless the body says otherwise; the new post passes the schema's required checks |
| `BlogController.Refusal` | src/controllers/blogController.js:47-55 | update, delete and toggle go ahead exactly when the post exists and the caller wrote it or is an admin; a missing post is 404, a stranger 403 |
| `BlogController.UpdateBlog` | src/controllers/blogController.js:47-62 | a refused update changes nothing; otherwise exactly the supplied fields of that post change, the creation time stays and other posts are untouched |
| `BlogController.UpdateIdempotent` | src/controllers/blogController.js:57 | repeating a permitted update that keeps the caller entitled changes nothing more |
| `BlogController.UpdateCanHandOver` | src/controllers/blogController.js:53-57 | an author can hand their post to another user through an update and is then refused every further change to it |
| `BlogController.DeleteBlog` | src/controllers/blogController.js:65-79 | a refused delete changes nothing; otherwise exactly that post is removed |
| `BlogController.TogglePublish` | src/controllers/blogController.js:82-103 | a refused toggle changes nothing; a post whose title or content is empty fails `save()` validation with 500 and nothing changes; otherwise only that post's published flag changes, to its negation |
| `BlogController.ToggleInvolution` | src/controllers/blogController.js:92 | toggling twice restores the collection |
| `BlogController.GetPublishedBlogs` | src/controllers/blogController.js:106-120 | exactly the published posts, each once, newest first |
| `BlogController.SearchBlogs` | src/controllers/blogController.js:122-156 | exactly the posts the filter keeps, each once, newest first; all published, carrying the tag and by the author when those are given |
| `BlogController.SearchRefinesPublished` | src/controllers/blogController.js:127-142 | every search result is published, and a search without criteria keeps exactly the published posts |
| `BlogController.GetPublishedBlogById` | src/controllers/blogController.js:158-173 | the post is answered exactly when it exists and is published; a draft is 404 like a missing post |
| `BlogController.DraftUntilToggled` | src/models/Blog.js:21-24 | a post created without a publish flag is not publicly found until its author toggles it |
| `ProfileController.GetProfile` | src/controllers/profileController.js:5-30 | the target defaults to the caller; a missing profile is 404 before any access check; 500 without a caller; 500 when the profile exists but its user is gone (the populated reference is null); 403 when both exist and the caller is neither the owner nor an admin; the profile is returned exactly when it exists, its user exists and the caller is its owner or an admin |
| `ProfileController.UpdateProfile` | src/controllers/profileController.js:33-61 | the target is the route's user id, else the body's, else the caller; 500 with nothing written without a caller; 403 with nothing written when the caller is neither the target nor an admin; otherwise the target's profile, created if missing, gets the `$set` of the body's fields: a given value replaces, `null` clears, a left-out field stays |
| `ProfileController.UploadProfileImage` | src/controllers/profileController.js:64-96 | 500 without a caller; 403 comes before the missing-file 400; all three write nothing; otherwise only the target's avatar is set, to the stored file's public path, creating the profile if missing |
| `ProfileController.AvatarPath` | src/controllers/profileController.js:80 | the public path starts with `/uploads/` and the rest is exactly the stored file name |
| `ProfileController.UpdateAndUploadCommute` | src/controllers/profileController.js:44-86 | updating the text fields and setting the avatar commute on the same profile |
| `ProfileController.UpdateThenGet` | src/controllers/profileController.js:48-52 | reading one's profile back after an update gives each supplied value, no value for a `null` field, and the old value of a left-out field |
| `Upload.Extname` | src/middleware/uploadMiddleware.js:12 | an extension is empty or a dot followed by characters that are neither dots nor slashes |
| `Upload.ExtnameOf` | src/middleware/uploadMiddleware.js:12 | the name `stem.e` with a slash-free stem and a dot- and slash-free `e` has extension `.e` |
| `Upload.ExtnameNoDot` | src/middleware/uploadMiddleware.js:12 | a name without a dot has no extension |
| `Upload.FilterLooksAtLastExtension` | src/middleware/uploadMiddleware.js:18-28 | a file is accepted exactly when its lowercased last extension and its mimetype both match the image pattern; dots earlier in the name do not count |
| `Upload.MimetypeIsCaseSensitive` | src/middleware/uploadMiddleware.js:21 | a mimetype with no lower-case letter is refused whatever the file is called |
| `Upload.ExtensionCaseIgnored` | src/middleware/uploadMiddleware.js:20 | changing the case of the extension never changes the filter's verdict |
| `Upload.HasPng` | src/middleware/uploadMiddleware.js:19 | the pattern is unanchored: any string containing `png` matches it |
| `Upload.StoredFilenameParts` | src/middleware/uploadMiddleware.js:10-14 | the stored name splits on its dashes back into the field name, the timestamp and the random suffix with the extension, and the timestamp reads back as the clock value |
| `Upload.StoredKeepsExtension` | src/middleware/uploadMiddleware.js:12-13 | the stored name has the same extension as the original name |
| `Upload.Single` | src/middleware/uploadMiddleware.js:31-35 | no file means no upload; a file is stored exactly when it comes under the expected field, passes the filter and is at most 2 MiB, and then under the composed name; anything else is an error |
| `Routes.MatchPathAppend` | src/routes/blogRoutes.js:19 | a path matches a prefixed pattern exactly when its first segments match the prefix and the rest match the pattern; the bindings are those of both, the prefix's winning on a shared name |
| `Routes.MountFind` | src/app.js:27-29 | among mounted routes, a path whose first segments the mount point matches goes to the first route matching the remaining segments; any other path to none |
| `Routes.AppRoutesUniqueParams` | src/routes/commentRoutes.js:5-6 | no route pattern binds a name twice, so merging the parent router's parameters never overrides one |
| `Routes.MatchPath` | src/routes/profileRoutes.js:12-20 | a path matches exactly when it has as many segments as the pattern and each literal is equal and each parameter non-empty; the match binds exactly the pattern's parameter names |
| `Routes.FindRoute` | src/routes/blogRoutes.js:19-34 | the chosen route matches the request and no earlier one does; with no choice, no route matches |
| `Routes.MatchFill` | src/routes/blogRoutes.js:25 | filling a pattern with non-empty values gives a path that matches it and binds each parameter to its value |
| `Routes.FillMatch` | src/routes/blogRoutes.js:31-34 | a matched path is the pattern filled with what the match bound, so matching and filling are inverse |
| `Routes.RunGuards` | src/routes/blogRoutes.js:30-34 | guards stop a request only with 401, 403 or 500; a request let through after `verifyToken` carries the signed-in user and has passed every role check after it; the upload result is the upload step's |
| `Routes.BlogPolicy` | src/routes/blogRoutes.js:22-34 | every route that writes a post runs `verifyToken` then the author-or-admin gate, and the public reads run no guard |
| `Routes.CommentAndProfilePolicy` | src/routes/profileRoutes.js:12-20 | comment creation and deletion and every profile route need a valid token and no role; the upload routes store the file right after the token check |
| `Routes.GuardChains` | src/routes/blogRoutes.js:30-34 | every route runs one of four guard chains, each starting with `verifyToken` when it has a guard at all |
| `Routes.RoutesBindTheirParameters` | src/routes/commentRoutes.js:6 | every route binds the parameters its controller reads, the comment routes included, which see the mount point's `blogId` |
| `Routes.PublishRoute` | src/routes/blogRoutes.js:34 | `PUT /api/blogs/<id>/publish` reaches the toggle with `id` bound, not a comment route |
| `Routes.DeleteCommentRoute` | src/routes/commentRoutes.js:16 | `DELETE /api/blogs/<blogId>/comments/<id>` reaches the comment deletion with both parameters bound, not the post deletion |
| `Routes.StaffChain` | src/routes/blogRoutes.js:31 | the staff chain answers the token check's 401, then 403 unless the user is an author or admin, and otherwise passes the user on |
| `Routes.StaffChainRefuses` | src/routes/blogRoutes.js:30 | a bad token gets 401, a `user`-role account or a vanished user gets 403, and the chain passes exactly for signed-in authors and admins |
| `Routes.UploadChain` | src/routes/profileRoutes.js:19 | the upload chain answers the token check's 401, then 500 for a refused file, and otherwise passes the user and the upload step's result |
| `Routes.UploadStoredBeforeAccessCheck` | src/routes/profileRoutes.js:19-20 | an acceptable image sent by a signed-in user for someone else's profile is stored by the upload step, and the controller then answers 403 with the profiles unchanged |
| `Routes.ChainOutcome` | src/routes/blogRoutes.js:30-34 | a request the table's chains let through carries the signed-in user, the staff chain admits only authors and admins, and a stored file always went through a valid token and the upload step |
| `Routes.HandleComments` | src/routes/commentRoutes.js:9-16 | the answer and the collection are exactly the selected comment controller's: the stored reply and its status for a create, the blog's comments oldest first for a list, the deletion's 404, 500, 403 or removed thread for a delete; besides, the collection stays acyclic, new comments are the user's, only threads the user started (or anything for an admin) are removed, and 403 changes nothing |
| `Routes.HandleBlogs` | src/routes/blogRoutes.js:23-34 | the answer and the collection are exactly the selected blog controller's: the published or searched posts newest first, the published post or 404, or the create, update, delete or toggle result with its status; besides, only posts the user may edit change, new posts are the user's, only published posts are answered, and reads and 403 change nothing |
| `Routes.HandleProfiles` | src/routes/profileRoutes.js:12-20 | the profile controllers change only the user's own profile, or any for an admin; reads and 403 answers change nothing |
| `Routes.Control` | src/routes/blogRoutes.js:23-34 | the selected controller runs on its own collection, whose new value and answer are exactly that controller's, and every other collection, the users and the files stay as they were; posts change only on a post write, every write is backed by the user, and 403 changes nothing |
| `Routes.OutcomeKeepsAcyclic` | src/controllers/commentController.js:5-80 | whatever controller runs, comments that had no reply cycle still have none: a new comment replies to a stored one, a deletion removes whole threads, and the blog and profile controllers leave the comments alone |
| `Routes.Dispatch` | src/app.js:27-29 | a request no blog, comment or profile route matches is 404 with nothing changed; a matched request gets its first matching route's guard status with nothing changed, or that route's controller answer on the database plus the stored upload; every blog, comment and profile request leaves the accounts unchanged and the comments acyclic, answers only published posts, and writes only what the signed-in user may; posts change only for a signed-in author or admin; 401 changes nothing, and 403 changes nothing but the upload directory |
| `Encoding.Utf16Length` | src/models/User.js:20 | JavaScript's length is between the number of characters and twice it, and equals it exactly when no character lies outside the Basic Multilingual Plane |
| `Encoding.Utf8Char` | src/models/User.js:43 | a character encodes as one to four bytes: a lead byte announcing the length, continuation bytes, decoding back to the character |
| `Encoding.Utf8Injective` | src/models/User.js:43 | different strings have different UTF-8 encodings |
| `Users.KeyBuffer` | src/models/User.js:42-43 | bcryptjs keys Blowfish with the UTF-8 encoding followed by one zero byte |
| `Users.Cycle` | src/models/User.js:43 | the key schedule reads a fixed number of bytes, starting the buffer over when it runs out |
| `Users.CycleDouble` | src/models/User.js:43 | a buffer written twice is read like the buffer written once |
| `Users.BcryptKey` | src/models/User.js:42-43 | bcrypt reads 72 bytes: the first 72 of the terminated encoding when it is that long, otherwise the whole terminated encoding and then more of it from its start |
| `Encoding.Utf8NoZero` | src/models/User.js:43 | only U+0000 encodes to a zero byte |
| `Users.Hash` | src/models/User.js:39-50 | a stored digest is matched by exactly the passwords with the same bcrypt key as the hashed one |
| `Users.ShortPasswordExact` | src/models/User.js:48-50 | among passwords without U+0000, one shorter than 72 bytes is matched only by itself |
| `Users.NulAfter71Bytes` | src/models/User.js:48-50 | a 71-byte password is matched by itself followed by U+0000 and anything after |
| `Users.NulRepetitionCollides` | src/models/User.js:48-50 | a password is matched by itself, U+0000, itself again |
| `Users.LongPasswordsCollide` | src/models/User.js:43-49 | passwords that share their first 72 bytes match each other |
| `Users.AstralPasswordAccepted` | src/models/User.js:17-22 | a password of three emoji passes the six-unit `minlength` |
| `Middleware.NoSpaceNoBearer` | src/middleware/authMiddleware.js:11-20 | a header without a space carries no token |
| `Middleware.AuthorizeStaff` | src/middleware/authMiddleware.js:37-44 | `authorizeRoles('author', 'admin')` admits exactly a present user whose role is not `user` |
| `Middleware.ExpiredAtSecond` | src/middleware/authMiddleware.js:24 | a token is refused as expired exactly from the first millisecond of its `exp` second |
| `AuthController.PendingTruthiness` | src/controllers/authController.js:188-190 | the login gate holds an account back exactly when its code is a non-empty string or it has any expiry |
| `AuthController.CodeExpiredNullExpiry` | src/controllers/authController.js:154-156 | a code past its expiry is expired; without an expiry the comparison treats it as 0 |
| `BlogController.ApplyPatch` | src/controllers/blogController.js:57 | an update keeps the creation time, and leaves the post as it was exactly when every supplied field already has the supplied value |
| `BlogController.EmptiedTitleBlocksToggle` | src/controllers/blogController.js:57-93 | an update may empty the title, after which the toggle answers 500 and changes nothing |
| `ProfileController.SetField` | src/controllers/profileController.js:44-50 | in a `$set`, a left-out key keeps the stored value, `null` clears it, a value replaces it |
| `ProfileController.SetFieldsIdempotent` | src/controllers/profileController.js:48-52 | applying the same update twice is applying it once |
| `CommentController.SelfReplyIsCycle` | src/controllers/commentController.js:11-16 | a reply stored with the id it is about to receive as its parent makes the reply relation cyclic |
| `Routes.Serve` | src/routes/blogRoutes.js:30-34 | a request the guards stop gets the guard's status (401, 403, or 500 for a refused upload) with nothing changed; a request they let through gets exactly its controller's answer, run for the signed-in user on the database plus the stored upload; either way the accounts are unchanged, posts change only for a signed-in author or admin, every write and every stored file is backed by the signed-in user, 401 changes nothing, and 403 changes nothing but the upload directory |

## Left out

- Network, HTTP serialisation, JSON shaping, CORS, logging, static file
  serving, the database connection and the server start-up are I/O and are
  not modelled.
- Each body and query field has its schema type or is absent: a string,
  the `tags` list, the `isPublished` flag, the `socialLinks` record.
  Other JSON types, and Mongoose's casting of them, are not modelled:
  `tags: "x"` would be stored as `["x"]` and `isPublished: "true"` as
  `true`, a numeric `otp` always fails the strict `user.otp !== otp` test
  and answers "Invalid OTP", a repeated `?tag=` arrives as an array, and an
  object-valued field can reach a query as an operator.
- The mail transport is not modelled: delivery is a boolean input.
- JWT signing and bcrypt are foreign cryptography. Signature checking is a
  function parameter and hashing is a collision-free digest of the bytes
  bcrypt reads.
- `Math.random()` is not modelled. Its floating-point draw is replaced by
  the integer range the source rounds it to.
- The `$regex` keyword match of `searchBlogs` uses MongoDB regular
  expressions, which are not modelled. It is a predicate parameter.
- Ids are canonical strings. ObjectId casting, and the 500 a malformed id
  causes, are not modelled.
- `populate` and `select` projections change only the shape of replies, so
  they are not modelled. One exception: `getProfile` answers 500 when the
  profile's user is gone, and that is modelled.
- Concurrent requests are not modelled: each request is one atomic step.
  Examples are racing resends and overlapping deletions.
- The routes for authentication, the demo routes and `getBlogById` are left
  out. The authentication routes bind the controllers without any guard.
  The demo routes are not product behaviour. `getBlogById` is not routed.
- `AuthController.ResendOtp`: takes the e-mail as a given string. A request
  without an e-mail is not modelled.
- `Text.Lower`: lowercases ASCII letters only. Non-ASCII case mapping of
  `toLowerCase` is left out. It is exact for the image pattern, which is
  ASCII, but not for e-mail addresses, which the schema's `lowercase`
  setter also lowercases: "ÉMILE@x" and "émile@x" are one account in the
  source and two accounts in the model (`Users.FindByEmail`,
  `Users.Create`).
- `Users.FindByEmail`: assumes the schema's `lowercase` setter is applied to
  the query value as well as to stored documents.
- Express's case-insensitive matching, trailing-slash tolerance and URL
  decoding are not modelled. Paths arrive already split into decoded
  segments.
- Multer's stream handling, destination directory and partial writes are not
  modelled. A refused or oversized file is an error answered 500. A file
  under another field name is an error too.
- `CommentController.DeleteCommentAndReplies`: needs the deleted comment
  not to be its own ancestor, and so does `CommentController.DeleteComment`
  when it reaches the deletion, that is, for a caller who wrote the comment
  or is an admin. The 404, 403 and 500 answers come before the recursion
  and are modelled for every collection. The source never checks for a
  cycle, and a permitted deletion of a comment that is its own ancestor
  recurses without end; a request that never answers is not modelled. A cycle elsewhere in the
  collection does not matter (`CommentController.CycleElsewhereDeletable`).
- `Routes.Dispatch`: assumes the id the database assigns is unused and not
  yet referenced as a parent, which is what keeps the comments acyclic. A
  comment can be created as its own parent
  (`CommentController.SelfReplyIsCycle`), so the acyclicity that the
  dispatch keeps holds only for ids nobody has referenced yet. A
  collection that already has a cycle is outside the dispatch claims,
  though each deletion off the cycle is modelled on its own.
- `Routes.Dispatch`: covers the routes under `/api/blogs` and
  `/api/profile` only. Its claims about accounts do not extend to the
  authentication routes, which change accounts by design.
- `Routes.MatchPathAppend`: a parameter bound both by a mount point and by
  the nested route takes the mount point's value here, while Express with
  `mergeParams` gives the nested route's value. No route of the application
  binds a name twice (`Routes.AppRoutesUniqueParams`), so the two agree.
- `BlogController.UpdateBlog`: the body's fields are either left out or
  given a value. A `null` value, update operators such as `$unset`, and
  unknown fields are not modelled; unsetting `author` would make every
  later edit of the post answer 500.
- `ProfileController.UpdateProfile`: a left-out field is dropped from the
  `$set`, as Mongoose 7 and later do. Older Mongoose versions could write
  it as `null` instead. A stored `null` and a missing field are not told
  apart.

=== FILE: auth.dfy ===
/** The authentication controller (`src/controllers/authController.js`):
    registration with a one-time code mailed to the new user, verification
    of that code, login, and re-sending a fresh code. The clock, the random
    draw of a code, the id the database assigns, bcrypt's salt and whether a
    mail was delivered are parameters. */
module AuthController {
  import opened Common
  import opened Text
  import opened Encoding
  import opened Users
  import opened Middleware
  import opened ProfileController

  /** A one-time code is valid for ten minutes (milliseconds). */
  const OtpLifetimeMs: int := 10 * 60 * 1000

  /** The random part of a code, `Math.floor(Math.random() * 900000)`. */
  type OtpDraw = k: int | 0 <= k < 900000

  /** The code for a draw: `100000 + draw` in decimal, always six digits
      without a leading zero. */
  function NewOtp(draw: OtpDraw): (otp: string)
    ensures |otp| == 6 && otp[0] != '0'
    ensures forall i :: 0 <= i < |otp| ==> IsDigit(otp[i])
    ensures DecimalValue(otp) == 100000 + draw
  {
    assert Pow10(5) == 100000 && Pow10(6) == 1000000;
    DecimalLength(100000 + draw, 6);
    DecimalRoundTrip(100000 + draw);
    Decimal(100000 + draw)
  }

  /** Different draws give different codes. */
  lemma NewOtpInjective(d1: OtpDraw, d2: OtpDraw)
    requires d1 != d2
    ensures NewOtp(d1) != NewOtp(d2)
  {
  }

  /** The account still waits for its code: `user.otp || user.otpExpires`. */
  predicate Pending(u: User)
  {
    Present(u.otp) || u.otpExpires.Some?
  }

  /** `user.otpExpires < Date.now()`; a null expiry compares as 0. */
  predicate CodeExpired(u: User, now: int)
  {
    (if u.otpExpires.Some? then u.otpExpires.value else 0) < now
  }

  /** The login gate is JavaScript truthiness: an empty code with no
      expiry does not hold a login back, while any expiry does, whatever
      its value. */
  lemma PendingTruthiness(u: User)
    ensures u.otp == Some("") && u.otpExpires.None? ==> !Pending(u)
    ensures u.otpExpires.Some? ==> Pending(u)
    ensures Pending(u) <==> (u.otp.Some? && u.otp.value != "") || u.otpExpires.Some?
  {
  }

  /** Without an expiry the code counts as expired at every time after the
      epoch, and a stored expiry is passed exactly after it. */
  lemma CodeExpiredNullExpiry(u: User, now: int)
    ensures u.otpExpires.None? ==> (CodeExpired(u, now) <==> now > 0)
    ensures u.otpExpires.Some? ==> (CodeExpired(u, now) <==> now > u.otpExpires.value)
  {
  }

  /** The fields of an account no OTP operation touches. */
  predicate SameAccount(u: User, v: User)
  {
    u.name == v.name && u.email == v.email && u.password == v.password && u.role == v.role
  }

  /** The account with a fresh code that expires ten minutes after `now`. */
  function WithCode(u: User, draw: OtpDraw, now: int): User
  {
    u.(otp := Some(NewOtp(draw)), otpExpires := Some(now + OtpLifetimeMs))
  }

  /* ---------------- registration ---------------- */

  datatype RegisterBody = RegisterBody(name: Option<string>, email: Option<string>,
                                       password: Option<string>, role: Option<string>)

  datatype RegisterOutcome = RegisterMissing | AlreadyRegistered | CodeMailFailed | Invalid | Registered

  function RegisterStatus(o: RegisterOutcome): Status
  {
    match o
    case RegisterMissing => BadRequest
    case AlreadyRegistered => BadRequest
    case CodeMailFailed => ServerError
    case Invalid => ServerError
    case Registered => Created
  }

  /** All three required fields are truthy. */
  predicate Complete(b: RegisterBody)
  {
    Present(b.name) && Present(b.email) && Present(b.password)
  }

  /** The account `User.create` makes from a complete registration: the
      schema's casting and validation applied to the body, with the code and
      its expiry. `None` is a validation error. */
  function NewAccount(b: RegisterBody, draw: OtpDraw, now: int, salt: nat): (r: Option<User>)
    requires Complete(b)
    ensures r.Some? <==> Utf16Length(b.password.value) >= MinPasswordLength && !AllSpace(b.name.value)
                         && (b.role.None? || ParseRole(b.role.value).Some?)
    ensures r.Some? ==>
              && r.value.name == Trim(b.name.value)
              && r.value.email == Lower(b.email.value)
              && (forall e :: MatchPassword(r.value, e) <==> BcryptKey(e) == BcryptKey(b.password.value))
              && (b.role.None? ==> r.value.role == UserRole)
              && (b.role.Some? ==> RoleName(r.value.role) == b.role.value)
              && r.value.otp == Some(NewOtp(draw))
              && r.value.otpExpires == Some(now + OtpLifetimeMs)
  {
    Create(b.name.value, b.email.value, b.password.value, b.role,
           Some(NewOtp(draw)), Some(now + OtpLifetimeMs), salt)
  }

  /** `registerUser`. The code is mailed before the account is created, so
      a failed mail leaves no account behind, while a schema validation error
      (a short password, a blank name, a role outside the enum) comes after
      the mail and answers 500. The requested role is taken as given. */
  function Register(users: UserStore, b: RegisterBody, draw: OtpDraw, now: int, mailed: bool,
                    newId: Id, salt: nat): (r: (UserStore, RegisterOutcome))
    requires UniqueEmails(users) && newId !in users
    ensures UniqueEmails(r.0)
    ensures r.1 != Registered ==> r.0 == users
    ensures r.1 == RegisterMissing <==> !Complete(b)
    ensures r.1 == AlreadyRegistered <==> Complete(b) && FindByEmail(users, b.email.value).Some?
    ensures r.1 == CodeMailFailed <==> Complete(b) && FindByEmail(users, b.email.value).None? && !mailed
    ensures r.1 == Invalid <==> Complete(b) && FindByEmail(users, b.email.value).None? && mailed
                                && NewAccount(b, draw, now, salt).None?
    ensures r.1 == Registered ==>
              && Complete(b) && NewAccount(b, draw, now, salt).Some?
              && r.0 == users[newId := NewAccount(b, draw, now, salt).value]
  {
    if !Complete(b) then (users, RegisterMissing)
    else if FindByEmail(users, b.email.value).Some? then (users, AlreadyRegistered)
    else if !mailed then (users, CodeMailFailed)
    else
      match NewAccount(b, draw, now, salt)
      case None => (users, Invalid)
      case Some(u) =>
        InsertKeepsUnique(users, newId, u);
        (users[newId := u], Registered)
  }

  /* ---------------- verification ---------------- */

  datatype VerifyOutcome = VerifyMissing | VerifyNoUser | InvalidOtp | OtpExpired | Verified

  function VerifyStatus(o: VerifyOutcome): Status
  {
    match o
    case VerifyMissing => BadRequest
    case VerifyNoUser => NotFound
    case InvalidOtp => BadRequest
    case OtpExpired => BadRequest
    case Verified => Ok
  }

  /** `verifyOTP`. The code is compared before its expiry, and the expiry
      test is strict, so a code is still accepted at the very millisecond it
      expires. Success clears both fields and touches nothing else. */
  function VerifyOtp(users: UserStore, email: Option<string>, otp: Option<string>, now: int): (r: (UserStore, VerifyOutcome))
    requires UniqueEmails(users)
    ensures UniqueEmails(r.0)
    ensures r.0.Keys == users.Keys && forall x :: x in users ==> SameAccount(r.0[x], users[x])
    ensures r.1 != Verified ==> r.0 == users
    ensures r.1 == VerifyMissing <==> !Present(email) || !Present(otp)
    ensures r.1 == VerifyNoUser <==> Present(email) && Present(otp) && FindByEmail(users, email.value).None?
    ensures Present(email) && Present(otp) && FindByEmail(users, email.value).Some? ==>
              var id := FindByEmail(users, email.value).value;
              && (r.1 == InvalidOtp <==> users[id].otp != otp)
              && (r.1 == OtpExpired <==> users[id].otp == otp && CodeExpired(users[id], now))
              && (r.1 == Verified <==> users[id].otp == otp && !CodeExpired(users[id], now))
              && (r.1 == Verified ==> r.0 == users[id := users[id].(otp := None, otpExpires := None)])
  {
    if !Present(email) || !Present(otp) then (users, VerifyMissing)
    else match FindByEmail(users, email.value)
      case None => (users, VerifyNoUser)
      case Some(id) =>
        var u := users[id];
        if u.otp != otp then (users, InvalidOtp)
        else if CodeExpired(u, now) then (users, OtpExpired)
        else
          var v := Save(u.(otp := None, otpExpires := None), None, 0);
          UpdateKeepsUnique(users, id, v);
          (users[id := v], Verified)
  }

  /* ---------------- login ---------------- */

  datatype LoginOutcome =
    | LoginMissing | UnknownEmail | Unverified | WrongPassword | NotifyFailed
    | LoggedIn(token: Claims, user: Caller)

  function LoginStatus(o: LoginOutcome): Status
  {
    match o
    case LoginMissing => BadRequest
    case UnknownEmail => Unauthorized
    case Unverified => Unauthorized
    case WrongPassword => Unauthorized
    case NotifyFailed => ServerError
    case LoggedIn(_, _) => Ok
  }

  /** The credentials pass every check of `loginUser` up to the token: the
      account exists, has no pending code, and the password matches. */
  predicate Accepted(users: UserStore, email: Option<string>, password: Option<string>)
    requires UniqueEmails(users)
  {
    && Present(email) && Present(password)
    && FindByEmail(users, email.value).Some?
    && !Pending(users[FindByEmail(users, email.value).value])
    && MatchPassword(users[FindByEmail(users, email.value).value], password.value)
  }

  /** `loginUser`. A pending code blocks the login before the password is
      looked at. Once the credentials are accepted the user gets a profile
      if they had none, and the admin is notified; a failed notification
      answers 500 after the profile was created. The users are unchanged. */
  function Login(users: UserStore, profiles: ProfileStore, email: Option<string>, password: Option<string>,
                 now: int, mailed: bool): (r: (ProfileStore, LoginOutcome))
    requires UniqueEmails(users)
    ensures !Accepted(users, email, password) ==> r.0 == profiles
    ensures r.1 == LoginMissing <==> !Present(email) || !Present(password)
    ensures r.1 == UnknownEmail <==> Present(email) && Present(password) && FindByEmail(users, email.value).None?
    ensures r.1 == Unverified <==> Present(email) && Present(password) && FindByEmail(users, email.value).Some?
                                   && Pending(users[FindByEmail(users, email.value).value])
    ensures r.1.LoggedIn? <==> Accepted(users, email, password) && mailed
    ensures r.1 == NotifyFailed <==> Accepted(users, email, password) && !mailed
    ensures Accepted(users, email, password) ==>
              var id := FindByEmail(users, email.value).value;
              && r.0.Keys == profiles.Keys + {id}
              && (forall x :: x in profiles ==> r.0[x] == profiles[x])
              && (id !in profiles ==> r.0[id] == Initial)
    ensures r.1.LoggedIn? ==>
              var id := FindByEmail(users, email.value).value;
              && r.1.token == GenerateToken(id, users[id].role, now)
              && Some(r.1.user) == FindCaller(users, id)
  {
    if !Present(email) || !Present(password) then (profiles, LoginMissing)
    else match FindByEmail(users, email.value)
      case None => (profiles, UnknownEmail)
      case Some(id) =>
        var u := users[id];
        if Pending(u) then (profiles, Unverified)
        else if !MatchPassword(u, password.value) then (profiles, WrongPassword)
        else
          var token := GenerateToken(id, u.role, now);
          var p := if id in profiles then profiles else profiles[id := Initial];
          if !mailed then (p, NotifyFailed)
          else (p, LoggedIn(token, FindCaller(users, id).value))
  }

  /* ---------------- re-sending a code ---------------- */

  datatype ResendOutcome = ResendNoUser | Resent | ResendMailFailed

  function ResendStatus(o: ResendOutcome): Status
  {
    match o
    case ResendNoUser => NotFound
    case Resent => Ok
    case ResendMailFailed => ServerError
  }

  /** `resendOTP`. Any account found gets a fresh code, saved before the
      mail goes out, so a failed mail answers 500 with the new code stored;
      nothing stops this for an account that was already verified. */
  function ResendOtp(users: UserStore, email: string, draw: OtpDraw, now: int, mailed: bool): (r: (UserStore, ResendOutcome))
    requires UniqueEmails(users)
    ensures UniqueEmails(r.0)
    ensures r.0.Keys == users.Keys && forall x :: x in users ==> SameAccount(r.0[x], users[x])
    ensures r.1 == ResendNoUser <==> FindByEmail(users, email).None?
    ensures r.1 == Resent <==> FindByEmail(users, email).Some? && mailed
    ensures r.1 == ResendNoUser ==> r.0 == users
    ensures r.1 != ResendNoUser ==>
              var id := FindByEmail(users, email).value;
              && r.0 == users[id := WithCode(users[id], draw, now)]
  {
    match FindByEmail(users, email)
    case None => (users, ResendNoUser)
    case Some(id) =>
      var v := Save(WithCode(users[id], draw, now), None, 0);
      UpdateKeepsUnique(users, id, v);
      (users[id := v], if mailed then Resent else ResendMailFailed)
  }

  /* ---------------- the account lifecycle ---------------- */

  /** The account registered under `newId` is the one found by its email. */
  lemma RegisteredIsFound(users: UserStore, b: RegisterBody, draw: OtpDraw, now: int, mailed: bool,
                          newId: Id, salt: nat)
    requires UniqueEmails(users) && newId !in users
    requires Register(users, b, draw, now, mailed, newId, salt).1 == Registered
    ensures FindByEmail(Register(users, b, draw, now, mailed, newId, salt).0, b.email.value) == Some(newId)
  {
    var users' := Register(users, b, draw, now, mailed, newId, salt).0;
    assert users'[newId].email == Lower(b.email.value);
    var found := FindByEmail(users', b.email.value);
    assert found.Some? && users'[found.value].email == users'[newId].email;
  }

  /** A freshly registered account cannot log in, whatever password is
      offered, until its code is verified. */
  lemma RegisteredCannotLogIn(users: UserStore, profiles: ProfileStore, b: RegisterBody, draw: OtpDraw,
                              now: int, newId: Id, salt: nat, password: string, later: int, mailed: bool)
    requires UniqueEmails(users) && newId !in users
    requires Register(users, b, draw, now, true, newId, salt).1 == Registered
    requires password != ""
    ensures var (users', _) := Register(users, b, draw, now, true, newId, salt);
            Login(users', profiles, b.email, Some(password), later, mailed).1 == Unverified
  {
    RegisteredIsFound(users, b, draw, now, true, newId, salt);
  }

  /** The mailed code verifies the new account up to and including the
      moment it expires, and is refused as expired from the next
      millisecond on; any other code is refused as invalid. */
  lemma CodeWindow(users: UserStore, b: RegisterBody, draw: OtpDraw, now: int, newId: Id, salt: nat,
                   code: string, later: int)
    requires UniqueEmails(users) && newId !in users
    requires Register(users, b, draw, now, true, newId, salt).1 == Registered
    requires code != ""
    ensures var (users', _) := Register(users, b, draw, now, true, newId, salt);
            var v := VerifyOtp(users', b.email, Some(code), later).1;
            && (code != NewOtp(draw) ==> v == InvalidOtp)
            && (code == NewOtp(draw) && later <= now + OtpLifetimeMs ==> v == Verified)
            && (code == NewOtp(draw) && later > now + OtpLifetimeMs ==> v == OtpExpired)
  {
    RegisteredIsFound(users, b, draw, now, true, newId, salt);
  }

  /** Register, verify within ten minutes, log in with the registered
      password: the login succeeds with a token for the new account and its
      registered role, and the account now has a profile. */
  lemma RegisterVerifyLogin(users: UserStore, profiles: ProfileStore, b: RegisterBody, draw: OtpDraw,
                            now: int, newId: Id, salt: nat, later: int, loginAt: int)
    requires UniqueEmails(users) && newId !in users
    requires Register(users, b, draw, now, true, newId, salt).1 == Registered
    requires later <= now + OtpLifetimeMs
    ensures var (u1, _) := Register(users, b, draw, now, true, newId, salt);
            var (u2, v) := VerifyOtp(u1, b.email, Some(NewOtp(draw)), later);
            var (p, l) := Login(u2, profiles, b.email, b.password, loginAt, true);
            && v == Verified
            && l.LoggedIn? && l.token.id == newId && l.token.role == u1[newId].role
            && l.token.exp == loginAt / 1000 + TokenLifetime
            && newId in p
  {
    var (u1, _) := Register(users, b, draw, now, true, newId, salt);
    RegisteredIsFound(users, b, draw, now, true, newId, salt);
    var (u2, v) := VerifyOtp(u1, b.email, Some(NewOtp(draw)), later);
    assert v == Verified;
    assert u2 == u1[newId := u1[newId].(otp := None, otpExpires := None)];
    assert FindByEmail(u2, b.email.value) == Some(newId);
  }

  /** A code works once: after a successful verification every further
      verification of the account is refused as invalid. */
  lemma CodeIsSingleUse(users: UserStore, email: string, otp: string, now: int, code: string, later: int)
    requires UniqueEmails(users) && email != "" && code != ""
    requires VerifyOtp(users, Some(email), Some(otp), now).1 == Verified
    ensures var (users', _) := VerifyOtp(users, Some(email), Some(otp), now);
            VerifyOtp(users', Some(email), Some(code), later).1 == InvalidOtp
  {
  }

  /** Re-sending replaces the code: the previous code stops working (when
      the new draw differs), and the account, even one already verified, is
      blocked from logging in again until the new code is verified. */
  lemma ResendReplacesCode(users: UserStore, profiles: ProfileStore, email: string, previous: OtpDraw,
                           draw: OtpDraw, now: int, mailed: bool, later: int, password: string, mailed2: bool)
    requires UniqueEmails(users) && email != "" && password != ""
    requires FindByEmail(users, email).Some?
    requires previous != draw
    ensures var (users', _) := ResendOtp(users, email, draw, now, mailed);
            && VerifyOtp(users', Some(email), Some(NewOtp(previous)), later).1 == InvalidOtp
            && Login(users', profiles, Some(email), Some(password), later, mailed2).1 == Unverified
  {
    NewOtpInjective(previous, draw);
  }

  /** A token handed out at login authenticates its holder as the logged-in
      account for the next 59 minutes, provided signing and checking agree. */
  lemma LoginTokenAuthenticates(users: UserStore, profiles: ProfileStore, email: Option<string>,
                                password: Option<string>, now: int, sign: Claims -> string,
                                decode: string -> Option<Claims>)
    requires UniqueEmails(users)
    requires Login(users, profiles, email, password, now, true).1.LoggedIn?
    requires var c := Login(users, profiles, email, password, now, true).1.token;
             decode(sign(c)) == Some(c) && sign(c) != "" && ' ' !in sign(c)
    ensures var l := Login(users, profiles, email, password, now, true).1;
            VerifyToken(Some("Bearer " + sign(l.token)), decode, now + 59 * 60 * 1000, users) == Proceed(Some(l.user))
  {
    var l := Login(users, profiles, email, password, now, true).1;
    ExtractBearerOf("", sign(l.token), "");
    assert "Bearer" + "" + " " + sign(l.token) + "" == "Bearer " + sign(l.token);
    assert (now + 59 * 60 * 1000) / 1000 == now / 1000 + 3540;
  }
}

=== FILE: blogs.dfy ===
/** The blog record of `src/models/Blog.js` and the blog controller
    (`src/controllers/blogController.js`): creating a post, the
    owner-or-admin edits (update, delete, publish toggle), and the public
    queries that only ever show published posts. */
module BlogController {
  import opened Common
  import opened Users
  import Ordering

  /** A blog document. `createdAt` is the creation timestamp (milliseconds)
      the schema's timestamps add; it never changes afterwards. */
  datatype Blog = Blog(title: string, content: string, author: Id, tags: seq<string>,
                       isPublished: bool, createdAt: int)

  /** The blog collection, by document id. */
  type BlogStore = map<Id, Blog>

  /** The schema's `required` validators on the two strings, which
      `save()` runs on the whole document: an empty string fails them. */
  predicate Valid(b: Blog)
  {
    b.title != "" && b.content != ""
  }

  /** The body of a create request. */
  datatype BlogInput = BlogInput(title: Option<string>, content: Option<string>,
                                 tags: Option<seq<string>>, isPublished: Option<bool>)

  /** `createBlog`. 400 without a truthy title and content; otherwise the
      post is stored with the caller as author, no tags and unpublished
      unless the body says otherwise. With no caller (the token's user no
      longer exists) reading the caller's id fails and the answer is 500. */
  function CreateBlog(blogs: BlogStore, caller: Option<Caller>, input: BlogInput, newId: Id, now: int): (r: (BlogStore, Status))
    requires newId !in blogs
    ensures r.1 == Created <==> Present(input.title) && Present(input.content) && caller.Some?
    ensures !Present(input.title) || !Present(input.content) ==> r.1 == BadRequest
    ensures r.1 != Created ==> r.0 == blogs
    ensures r.1 == Created ==>
              && r.0.Keys == blogs.Keys + {newId}
              && (forall x :: x in blogs ==> r.0[x] == blogs[x])
              && r.0[newId].title == input.title.value && r.0[newId].content == input.content.value
              && r.0[newId].author == caller.value.id
              && r.0[newId].tags == Override(input.tags, [])
              && r.0[newId].isPublished == (input.isPublished == Some(true))
              && r.0[newId].createdAt == now
    ensures r.1 == Created ==> Valid(r.0[newId])
  {
    if !Present(input.title) || !Present(input.content) then (blogs, BadRequest)
    else if caller.None? then (blogs, ServerError)
    else
      var b := Blog(input.title.value, input.content.value, caller.value.id,
                    Override(input.tags, []), Override(input.isPublished, false), now);
      (blogs[newId := b], Created)
  }

  /** The caller may change the post: they wrote it, or they are an admin. */
  predicate MayEdit(c: Caller, b: Blog)
  {
    b.author == c.id || IsAdmin(c)
  }

  /** The checks shared by update, delete and toggle, in the order they are
      made: 404 for a missing post, 500 with no caller, 403 unless the caller
      may edit. `None` when the change may go ahead. */
  function Refusal(blogs: BlogStore, id: Id, caller: Option<Caller>): (r: Option<Status>)
    ensures r.None? <==> id in blogs && caller.Some? && MayEdit(caller.value, blogs[id])
    ensures id !in blogs ==> r == Some(NotFound)
    ensures id in blogs && caller.Some? && !MayEdit(caller.value, blogs[id]) ==> r == Some(Forbidden)
    ensures r.Some? ==> r.value != Ok
  {
    if id !in blogs then Some(NotFound)
    else if caller.None? then Some(ServerError)
    else if !MayEdit(caller.value, blogs[id]) then Some(Forbidden)
    else None
  }

  /** The fields of an update body that the schema knows; any of them may be
      absent. Nothing is validated on update. */
  datatype BlogPatch = BlogPatch(title: Option<string>, content: Option<string>, author: Option<Id>,
                                 tags: Option<seq<string>>, isPublished: Option<bool>)

  /** `findByIdAndUpdate(id, body)`: the supplied fields replace the stored
      ones; the creation time stays. */
  function ApplyPatch(b: Blog, p: BlogPatch): (r: Blog)
    ensures r.createdAt == b.createdAt
    ensures r == b <==> && (p.title.None? || p.title.value == b.title)
                        && (p.content.None? || p.content.value == b.content)
                        && (p.author.None? || p.author.value == b.author)
                        && (p.tags.None? || p.tags.value == b.tags)
                        && (p.isPublished.None? || p.isPublished.value == b.isPublished)
  {
    Blog(Override(p.title, b.title), Override(p.content, b.content), Override(p.author, b.author),
         Override(p.tags, b.tags), Override(p.isPublished, b.isPublished), b.createdAt)
  }

  /** `updateBlog`: refused posts stay as they were; otherwise exactly the
      supplied fields of that one post change. */
  function UpdateBlog(blogs: BlogStore, id: Id, caller: Option<Caller>, p: BlogPatch): (r: (BlogStore, Status))
    ensures Refusal(blogs, id, caller).Some? ==> r == (blogs, Refusal(blogs, id, caller).value)
    ensures Refusal(blogs, id, caller).None? ==>
              && r.1 == Ok && r.0.Keys == blogs.Keys
              && (forall x :: x in blogs && x != id ==> r.0[x] == blogs[x])
              && (p.title.Some? ==> r.0[id].title == p.title.value)
              && (p.title.None? ==> r.0[id].title == blogs[id].title)
              && (p.content.Some? ==> r.0[id].content == p.content.value)
              && (p.content.None? ==> r.0[id].content == blogs[id].content)
              && (p.author.Some? ==> r.0[id].author == p.author.value)
              && (p.author.None? ==> r.0[id].author == blogs[id].author)
              && (p.tags.Some? ==> r.0[id].tags == p.tags.value)
              && (p.tags.None? ==> r.0[id].tags == blogs[id].tags)
              && (p.isPublished.Some? ==> r.0[id].isPublished == p.isPublished.value)
              && (p.isPublished.None? ==> r.0[id].isPublished == blogs[id].isPublished)
              && r.0[id].createdAt == blogs[id].createdAt
  {
    match Refusal(blogs, id, caller)
    case Some(st) => (blogs, st)
    case None => (blogs[id := ApplyPatch(blogs[id], p)], Ok)
  }

  /** Repeating an update changes nothing more, as long as the patch does not
      hand the post to another author (after which the caller, unless an
      admin, is refused). */
  lemma UpdateIdempotent(blogs: BlogStore, id: Id, c: Caller, p: BlogPatch)
    requires Refusal(blogs, id, Some(c)).None?
    requires p.author.None? || p.author == Some(c.id) || IsAdmin(c)
    ensures var (once, _) := UpdateBlog(blogs, id, Some(c), p);
            UpdateBlog(once, id, Some(c), p) == (once, Ok)
  {
    var (once, _) := UpdateBlog(blogs, id, Some(c), p);
    assert Refusal(once, id, Some(c)).None?;
    assert ApplyPatch(once[id], p) == once[id];
    assert once[id := once[id]] == once;
  }

  /** The update body is not filtered, so an author can hand their post to
      somebody else, and is refused any further change to it. */
  lemma UpdateCanHandOver(blogs: BlogStore, id: Id, c: Caller, other: Id, p: BlogPatch)
    requires id in blogs && blogs[id].author == c.id && !IsAdmin(c) && other != c.id
    ensures var (t, st) := UpdateBlog(blogs, id, Some(c), BlogPatch(None, None, Some(other), None, None));
            st == Ok && t[id].author == other && UpdateBlog(t, id, Some(c), p) == (t, Forbidden)
  {
  }

  /** `deleteBlog`: refused posts stay; otherwise exactly that post is
      removed. Replies stored for the post are not touched (they live in
      another collection this operation does not see). */
  function DeleteBlog(blogs: BlogStore, id: Id, caller: Option<Caller>): (r: (BlogStore, Status))
    ensures Refusal(blogs, id, caller).Some? ==> r == (blogs, Refusal(blogs, id, caller).value)
    ensures Refusal(blogs, id, caller).None? ==>
              r.1 == Ok && r.0.Keys == blogs.Keys - {id} && forall x :: x in r.0 ==> r.0[x] == blogs[x]
  {
    match Refusal(blogs, id, caller)
    case Some(st) => (blogs, st)
    case None => (blogs - {id}, Ok)
  }

  /** `togglePublish`: refused posts stay; otherwise that post's published
      flag is negated and nothing else changes. The change is written with
      `save()`, whose validation fails with 500, writing nothing, when an
      earlier update (which does not validate) left the title or content
      empty. */
  function TogglePublish(blogs: BlogStore, id: Id, caller: Option<Caller>): (r: (BlogStore, Status))
    ensures Refusal(blogs, id, caller).Some? ==> r == (blogs, Refusal(blogs, id, caller).value)
    ensures Refusal(blogs, id, caller).None? && !Valid(blogs[id]) ==> r == (blogs, ServerError)
    ensures r.1 == Ok <==> Refusal(blogs, id, caller).None? && Valid(blogs[id])
    ensures r.1 == Ok ==>
              && r.0.Keys == blogs.Keys
              && r.0[id].isPublished == !blogs[id].isPublished
              && r.0[id].(isPublished := blogs[id].isPublished) == blogs[id]
              && (forall x :: x in blogs && x != id ==> r.0[x] == blogs[x])
  {
    match Refusal(blogs, id, caller)
    case Some(st) => (blogs, st)
    case None =>
      if !Valid(blogs[id]) then (blogs, ServerError)
      else (blogs[id := blogs[id].(isPublished := !blogs[id].isPublished)], Ok)
  }

  /** An update may empty the title, since updates are not validated; the
      post can then no longer be toggled: the toggle answers 500 and
      changes nothing. */
  lemma EmptiedTitleBlocksToggle(blogs: BlogStore, id: Id, c: Caller)
    requires Refusal(blogs, id, Some(c)).None?
    ensures var (t, st) := UpdateBlog(blogs, id, Some(c), BlogPatch(Some(""), None, None, None, None));
            && st == Ok && t[id].title == ""
            && TogglePublish(t, id, Some(c)) == (t, ServerError)
  {
  }

  /** Toggling twice, by whoever may toggle once, restores the collection. */
  lemma ToggleInvolution(blogs: BlogStore, id: Id, caller: Option<Caller>)
    ensures var (once, _) := TogglePublish(blogs, id, caller);
            TogglePublish(once, id, caller).0 == blogs
  {
    var (once, _) := TogglePublish(blogs, id, caller);
    if Refusal(blogs, id, caller).None? && Valid(blogs[id]) {
      assert Refusal(once, id, caller).None? && Valid(once[id]);
      var (twice, _) := TogglePublish(once, id, caller);
      assert twice.Keys == blogs.Keys;
      assert twice[id] == blogs[id];
    }
  }

  /** Newest first: `sort({ createdAt: -1 })`. */
  function NewestFirst(b: Blog): int
  {
    -b.createdAt
  }

  /** `getPublishedBlogs`: exactly the published posts, each once, newest
      first. */
  method GetPublishedBlogs(blogs: BlogStore) returns (r: seq<Id>)
    ensures forall id :: multiset(r)[id] == (if id in blogs && blogs[id].isPublished then 1 else 0)
    ensures forall i :: 0 <= i < |r| ==> r[i] in blogs && blogs[r[i]].isPublished
    ensures forall i, j :: 0 <= i < j < |r| ==> blogs[r[i]].createdAt >= blogs[r[j]].createdAt
  {
    r := Ordering.SelectSorted(blogs, (b: Blog) => b.isPublished, NewestFirst);
    forall i | 0 <= i < |r|
      ensures blogs[r[i]].isPublished
    {
      assert multiset(r)[r[i]] > 0;
    }
  }

  /** The query string of a search; each criterion is applied only when it
      is truthy. */
  datatype SearchQuery = SearchQuery(keyword: Option<string>, tag: Option<string>, author: Option<string>)

  /** The filter `searchBlogs` builds. `matches(pattern, text)` stands for a
      case-insensitive MongoDB regular-expression match. */
  predicate SearchMatch(q: SearchQuery, matches: (string, string) -> bool, b: Blog)
  {
    && b.isPublished
    && (Present(q.keyword) ==> matches(q.keyword.value, b.title) || matches(q.keyword.value, b.content))
    && (Present(q.tag) ==> q.tag.value in b.tags)
    && (Present(q.author) ==> b.author == q.author.value)
  }

  /** `searchBlogs`: exactly the posts the filter keeps, each once, newest
      first. */
  method SearchBlogs(blogs: BlogStore, q: SearchQuery, matches: (string, string) -> bool) returns (r: seq<Id>)
    ensures forall id :: multiset(r)[id] == (if id in blogs && SearchMatch(q, matches, blogs[id]) then 1 else 0)
    ensures forall i :: 0 <= i < |r| ==> r[i] in blogs && blogs[r[i]].isPublished
    ensures forall i :: 0 <= i < |r| && Present(q.tag) ==> q.tag.value in blogs[r[i]].tags
    ensures forall i :: 0 <= i < |r| && Present(q.author) ==> blogs[r[i]].author == q.author.value
    ensures forall i, j :: 0 <= i < j < |r| ==> blogs[r[i]].createdAt >= blogs[r[j]].createdAt
  {
    r := Ordering.SelectSorted(blogs, (b: Blog) => SearchMatch(q, matches, b), NewestFirst);
    forall i | 0 <= i < |r|
      ensures SearchMatch(q, matches, blogs[r[i]])
    {
      assert multiset(r)[r[i]] > 0;
    }
  }

  /** A search with no criteria keeps exactly the published posts, and every
      search keeps a subset of them. */
  lemma SearchRefinesPublished(q: SearchQuery, matches: (string, string) -> bool, b: Blog)
    ensures SearchMatch(q, matches, b) ==> b.isPublished
    ensures !Present(q.keyword) && !Present(q.tag) && !Present(q.author) ==>
              (SearchMatch(q, matches, b) <==> b.isPublished)
  {
  }

  /** `getPublishedBlogById`: the post when it exists and is published, 404
      otherwise, even for an existing draft. */
  function GetPublishedBlogById(blogs: BlogStore, id: Id): (r: (Status, Option<Blog>))
    ensures r.0 == Ok <==> id in blogs && blogs[id].isPublished
    ensures r.0 != Ok ==> r == (NotFound, None)
    ensures r.0 == Ok ==> r.1 == Some(blogs[id])
  {
    if id in blogs && blogs[id].isPublished then (Ok, Some(blogs[id])) else (NotFound, None)
  }

  /** A post created without a publish flag is a draft: the public lookup
      does not find it until its author toggles it. */
  lemma DraftUntilToggled(blogs: BlogStore, c: Caller, title: string, content: string, newId: Id, now: int)
    requires newId !in blogs && title != "" && content != ""
    ensures var (b1, _) := CreateBlog(blogs, Some(c), BlogInput(Some(title), Some(content), None, None), newId, now);
            && GetPublishedBlogById(b1, newId).0 == NotFound
            && var (b2, st) := TogglePublish(b1, newId, Some(c));
               st == Ok && GetPublishedBlogById(b2, newId).0 == Ok
  {
  }
}

=== FILE: comment_tree.dfy ===
/** The comment record of `src/models/Comment.js` and the reply structure
    its `parent` references form over a comment collection: ancestors,
    subtrees, and the acyclicity the recursive deletion needs. */
module CommentTree {
  import opened Common

  /** A comment document. `parent` is a bare reference: nothing checks that
      it names an existing comment, or one on the same blog. `createdAt` is
      the creation timestamp (milliseconds) the schema's timestamps add. */
  datatype Comment = Comment(content: string, author: Id, blog: Id, parent: Option<Id>, createdAt: int)

  /** The comment collection, by document id. */
  type Store = map<Id, Comment>

  /** The comment `x` replies to, when `x` is stored and has a parent. */
  function ParentOf(s: Store, x: Id): Option<Id>
  {
    if x in s then s[x].parent else None
  }

  /** The ancestor reached from `x` after `n` parent steps (`x` itself for
      `n == 0`). */
  function Up(s: Store, x: Id, n: nat): Option<Id>
    decreases n
  {
    if n == 0 then Some(x)
    else match ParentOf(s, x)
      case None => None
      case Some(p) => Up(s, p, n - 1)
  }

  /** `x` is a stored comment and `a` is `x` or one of its ancestors. */
  ghost predicate Below(s: Store, x: Id, a: Id)
  {
    x in s && exists n :: Up(s, x, n) == Some(a)
  }

  /** The stored comments of the thread rooted at `a`: `a` and all its
      transitive replies. */
  ghost function Subtree(s: Store, a: Id): set<Id>
  {
    set x | x in s.Keys && Below(s, x, a)
  }

  /** The direct replies to `a`: the result of `Comment.find({ parent: a })`. */
  function Children(s: Store, a: Id): (r: set<Id>)
    ensures forall k :: k in r <==> k in s && s[k].parent == Some(a)
  {
    set k | k in s.Keys && s[k].parent == Some(a)
  }

  /** `rank` witnesses that following parents always climbs: every stored
      comment whose parent is stored has a smaller rank than its parent. */
  ghost predicate RankedBy(s: Store, rank: map<Id, nat>)
  {
    && s.Keys <= rank.Keys
    && forall x :: x in s && s[x].parent.Some? && s[x].parent.value in s ==> rank[x] < rank[s[x].parent.value]
  }

  /** The reply relation has no cycle. The source never checks this; the
      recursive deletion only terminates on collections that satisfy it. */
  ghost predicate Acyclic(s: Store)
  {
    exists rank :: RankedBy(s, rank)
  }

  /** Following parents from `x` never comes back to `x`. This is exactly
      what the recursive deletion of `x`'s thread needs to terminate; a cycle
      elsewhere in the collection does not matter to it. */
  ghost predicate NotOwnAncestor(s: Store, x: Id)
  {
    forall n: nat :: n > 0 ==> Up(s, x, n) != Some(x)
  }

  /** `t` is `s` with some documents removed and the others untouched. */
  ghost predicate SubStore(t: Store, s: Store)
  {
    t.Keys <= s.Keys && forall x :: x in t ==> t[x] == s[x]
  }

  /** No document occurs twice. */
  ghost predicate Distinct(xs: seq<Id>)
  {
    forall i, j :: 0 <= i < j < |xs| ==> xs[i] != xs[j]
  }

  /** Post-order with respect to the threads of `s`: when a document's turn
      comes, everything in its thread is already listed (or is itself). */
  ghost predicate PostOrdered(s: Store, xs: seq<Id>)
  {
    forall i :: 0 <= i < |xs| ==> forall x :: x in Subtree(s, xs[i]) ==> x in xs[..i + 1]
  }

  /* ---------------- ancestry ---------------- */

  /** One more step up is the parent of the `n`-th ancestor. */
  lemma {:induction false} UpStep(s: Store, x: Id, n: nat)
    ensures Up(s, x, n + 1) == (match Up(s, x, n) case None => None case Some(y) => ParentOf(s, y))
    decreases n
  {
    if n > 0 {
      match ParentOf(s, x)
      case None =>
      case Some(p) => UpStep(s, p, n - 1);
    }
  }

  /** Walking `n` steps and then `m` more is walking `n + m` steps. */
  lemma {:induction false} UpAdd(s: Store, x: Id, n: nat, m: nat)
    requires Up(s, x, n).Some?
    ensures Up(s, x, n + m) == Up(s, Up(s, x, n).value, m)
    decreases n
  {
    if n > 0 {
      UpAdd(s, ParentOf(s, x).value, n - 1, m);
    }
  }

  /** Ranks strictly grow along every chain of parents that ends at a
      stored comment. */
  lemma {:induction false} UpRank(s: Store, rank: map<Id, nat>, x: Id, n: nat)
    requires RankedBy(s, rank)
    requires n > 0 && Up(s, x, n).Some? && Up(s, x, n).value in s
    ensures x in s && rank[x] < rank[Up(s, x, n).value]
    decreases n
  {
    var p := ParentOf(s, x).value;
    if n > 1 {
      UpRank(s, rank, p, n - 1);
    }
  }

  /** In a ranked collection no comment is its own ancestor. */
  lemma NoCycle(s: Store, rank: map<Id, nat>, x: Id, n: nat)
    requires RankedBy(s, rank)
    requires x in s && n > 0
    ensures Up(s, x, n) != Some(x)
  {
    if Up(s, x, n) == Some(x) {
      UpRank(s, rank, x, n);
    }
  }

  /** Being in a thread is transitive. */
  lemma SubtreeTrans(s: Store, a: Id, y: Id, x: Id)
    requires y in Subtree(s, a) && x in Subtree(s, y)
    ensures x in Subtree(s, a) && Subtree(s, y) <= Subtree(s, a)
  {
    forall z | z in Subtree(s, y)
      ensures z in Subtree(s, a)
    {
      var n :| Up(s, z, n) == Some(y);
      var m :| Up(s, y, m) == Some(a);
      UpAdd(s, z, n, m);
    }
  }

  /** A stored comment belongs to its own thread. */
  lemma SubtreeRoot(s: Store, a: Id)
    requires a in s
    ensures a in Subtree(s, a)
  {
    assert Up(s, a, 0) == Some(a);
  }

  /** The thread of `a` is `a` together with the threads of its replies. */
  lemma SubtreeSplit(s: Store, a: Id, x: Id)
    requires x in Subtree(s, a) && x != a
    ensures exists k :: k in Children(s, a) && x in Subtree(s, k)
  {
    var n: nat :| Up(s, x, n) == Some(a);
    assert n > 0;
    UpStep(s, x, n - 1);
    var k := Up(s, x, n - 1).value;
    assert k in Children(s, a);
    assert x in Subtree(s, k);
  }

  /** The thread of a reply lies in the thread of the comment replied to. */
  lemma ChildSubtree(s: Store, a: Id, k: Id)
    requires k in Children(s, a)
    ensures Subtree(s, k) <= Subtree(s, a)
  {
    forall x | x in Subtree(s, k)
      ensures x in Subtree(s, a)
    {
      var n :| Up(s, x, n) == Some(k);
      UpAdd(s, x, n, 1);
    }
  }

  /** A comment that is not its own ancestor never lies in the thread of
      one of its replies. */
  lemma RootNotInChildSubtree(s: Store, a: Id, k: Id)
    requires NotOwnAncestor(s, a)
    requires k in Children(s, a)
    ensures a !in Subtree(s, k)
  {
    if a in Subtree(s, k) {
      var n: nat :| Up(s, a, n) == Some(k);
      ReplyAbove(s, a, k, n);
    }
  }

  /** When a reply to `a` is above `a`, `a` is its own ancestor. */
  lemma ReplyAbove(s: Store, a: Id, k: Id, n: nat)
    requires k in Children(s, a) && Up(s, a, n) == Some(k)
    ensures Up(s, a, n + 1) == Some(a)
  {
    UpAdd(s, a, n, 1);
  }

  /** The threads of two different replies to the same comment are
      disjoint, as long as that comment is not its own ancestor. */
  lemma SiblingsDisjoint(s: Store, a: Id, k1: Id, k2: Id)
    requires NotOwnAncestor(s, a)
    requires k1 in Children(s, a) && k2 in Children(s, a)
    ensures k1 == k2 || Subtree(s, k1) !! Subtree(s, k2)
  {
    if x :| x in Subtree(s, k1) && x in Subtree(s, k2) {
      var n1: nat :| Up(s, x, n1) == Some(k1);
      var n2: nat :| Up(s, x, n2) == Some(k2);
      if n1 <= n2 {
        SiblingClash(s, a, x, k1, k2, n1, n2);
      } else {
        SiblingClash(s, a, x, k2, k1, n2, n1);
      }
    }
  }

  /** Two replies to `a` above the same comment are the same reply. */
  lemma SiblingClash(s: Store, a: Id, x: Id, k1: Id, k2: Id, n1: nat, n2: nat)
    requires NotOwnAncestor(s, a)
    requires k1 in Children(s, a) && k2 in Children(s, a)
    requires n1 <= n2 && Up(s, x, n1) == Some(k1) && Up(s, x, n2) == Some(k2)
    ensures k1 == k2
  {
    UpAdd(s, x, n1, n2 - n1);
    if n1 < n2 {
      SiblingsLoop(s, a, x, k1, k2, n1, n2);
    }
  }

  /** Were one reply to `a` above another, `a` would be its own ancestor. */
  lemma SiblingsLoop(s: Store, a: Id, x: Id, k1: Id, k2: Id, n1: nat, n2: nat)
    requires k1 in Children(s, a) && k2 in Children(s, a)
    requires n1 < n2 && Up(s, x, n1) == Some(k1) && Up(s, x, n2) == Some(k2)
    ensures Up(s, a, n2 - n1) == Some(a)
  {
    UpAdd(s, x, n1, n2 - n1);
    var d := n2 - n1;
    assert Up(s, k1, d) == Some(k2);
    UpAdd(s, k1, d, 1);
    assert Up(s, k1, d + 1) == Some(a);
    UpAdd(s, k1, 1, d);
  }

  /** A cycle through a member of the thread of `a` would pass through `a`:
      when `a` is not its own ancestor, neither is anything in its thread. */
  lemma ThreadNotOwnAncestor(s: Store, a: Id, x: Id)
    requires NotOwnAncestor(s, a) && x in Subtree(s, a)
    ensures NotOwnAncestor(s, x)
  {
    forall n: nat | n > 0
      ensures Up(s, x, n) != Some(x)
    {
      if Up(s, x, n) == Some(x) {
        CycleThroughRoot(s, a, x, n);
      }
    }
  }

  /** A cycle through a member of the thread of `a` passes through `a`. */
  lemma CycleThroughRoot(s: Store, a: Id, x: Id, n: nat)
    requires x in Subtree(s, a) && Up(s, x, n) == Some(x)
    ensures Up(s, a, n) == Some(a)
  {
    var d: nat :| Up(s, x, d) == Some(a);
    UpAdd(s, x, d, n);
    UpAdd(s, x, n, d);
  }

  /** The thread of a reply is strictly smaller than the thread of the
      comment it replies to, which the reply's thread does not contain. */
  lemma ChildSubtreeSmaller(s: Store, a: Id, k: Id)
    requires NotOwnAncestor(s, a) && a in s
    requires k in Children(s, a)
    ensures |Subtree(s, k)| < |Subtree(s, a)|
  {
    ChildSubtree(s, a, k);
    SubtreeRoot(s, a);
    RootNotInChildSubtree(s, a, k);
    var small, big := Subtree(s, k), Subtree(s, a);
    assert big == small + (big - small);
    assert a in big - small;
  }

  /* ---------------- sub-collections ---------------- */

  /** Removing documents keeps a collection ranked. */
  lemma SubStoreRanked(t: Store, s: Store, rank: map<Id, nat>)
    requires SubStore(t, s) && RankedBy(s, rank)
    ensures RankedBy(t, rank)
  {
  }

  lemma {:induction false} UpInSubStore(t: Store, s: Store, x: Id, n: nat)
    requires SubStore(t, s) && Up(t, x, n).Some?
    ensures Up(s, x, n) == Up(t, x, n)
    decreases n
  {
    if n > 0 {
      UpInSubStore(t, s, ParentOf(t, x).value, n - 1);
    }
  }

  lemma {:induction false} UpInSuperStore(t: Store, s: Store, k: Id, x: Id, n: nat)
    requires SubStore(t, s) && Subtree(s, k) <= t.Keys
    requires x in s && Up(s, x, n) == Some(k)
    ensures Up(t, x, n) == Some(k)
    decreases n
  {
    if n > 0 {
      assert x in Subtree(s, k);
      var p := ParentOf(s, x).value;
      if n > 1 {
        assert p in s;
        UpInSuperStore(t, s, k, p, n - 1);
      }
    }
  }

  /** A thread none of whose comments was removed is the same thread in the
      smaller collection. */
  lemma SubtreeInSubStore(t: Store, s: Store, k: Id)
    requires SubStore(t, s) && Subtree(s, k) <= t.Keys
    ensures Subtree(t, k) == Subtree(s, k)
  {
    forall x | x in Subtree(t, k)
      ensures x in Subtree(s, k)
    {
      var n :| Up(t, x, n) == Some(k);
      UpInSubStore(t, s, x, n);
    }
    forall x | x in Subtree(s, k)
      ensures x in Subtree(t, k)
    {
      var n :| Up(s, x, n) == Some(k);
      UpInSuperStore(t, s, k, x, n);
    }
  }

  /* ---------------- insertion ---------------- */

  /** Adding a comment under a fresh id that no stored comment refers to
      keeps the collection acyclic, whatever parent it names. */
  lemma InsertKeepsAcyclic(s: Store, id: Id, c: Comment)
    requires Acyclic(s)
    requires id !in s
    requires forall x :: x in s ==> s[x].parent != Some(id)
    requires c.parent != Some(id)
    ensures Acyclic(s[id := c])
  {
    var rank :| RankedBy(s, rank);
    var t := s[id := c];
    var rank' := map x | x in t.Keys :: if x == id then 0 else rank[x] + 1;
    forall x | x in t && t[x].parent.Some? && t[x].parent.value in t
      ensures rank'[x] < rank'[t[x].parent.value]
    {
      var p := t[x].parent.value;
      assert p != id;
      if x != id {
        assert s[x] == t[x];
      }
    }
    assert RankedBy(t, rank');
  }

  /** In an acyclic collection every comment can be deleted with its
      thread. */
  lemma AcyclicNotOwnAncestor(s: Store, x: Id)
    requires Acyclic(s)
    ensures NotOwnAncestor(s, x)
  {
    forall n: nat | n > 0
      ensures Up(s, x, n) != Some(x)
    {
      if x in s {
        AcyclicNoSelfAncestor(s, x, n);
      }
    }
  }

  /** Acyclicity rules out every cycle: no comment is its own ancestor. */
  lemma AcyclicNoSelfAncestor(s: Store, x: Id, n: nat)
    requires Acyclic(s) && x in s && n > 0
    ensures Up(s, x, n) != Some(x)
  {
    var rank :| RankedBy(s, rank);
    NoCycle(s, rank, x, n);
  }
}

=== FILE: comments.dfy ===
/** The comment controller (`src/controllers/commentController.js`):
    creating a reply, listing a blog's comments oldest first, and deleting a
    comment together with every transitive reply. */
module CommentController {
  import opened Common
  import opened CommentTree
  import opened Users
  import Ordering

  /** `createComment`. `newId` is the id the database assigns, `now` the
      clock, `mailed` whether the admin notification was delivered. The
      reply is stored before the notification is sent, so a failed
      notification answers 500 with the comment already created. */
  function CreateComment(s: Store, blogId: Id, caller: Option<Caller>, content: Option<string>,
                         parent: Option<string>, newId: Id, now: int, mailed: bool): (r: (Store, Status))
    requires newId !in s
    ensures r.1 == Created <==> caller.Some? && Present(content) && mailed
    ensures caller.None? || !Present(content) ==> r.0 == s && r.1 == ServerError
    ensures caller.Some? && Present(content) ==>
              && r.0.Keys == s.Keys + {newId}
              && (forall x :: x in s ==> r.0[x] == s[x])
              && r.0[newId].author == caller.value.id
              && r.0[newId].blog == blogId
              && r.0[newId].content == content.value
              && r.0[newId].createdAt == now
              && (r.0[newId].parent.Some? <==> Present(parent))
              && (Present(parent) ==> r.0[newId].parent.value == parent.value)
  {
    if caller.None? then (s, ServerError)
    else if !Present(content) then (s, ServerError)
    else
      var c := Comment(content.value, caller.value.id, blogId,
                       if Present(parent) then Some(parent.value) else None, now);
      var t := s[newId := c];
      (t, if mailed then Created else ServerError)
  }

  /** The `parent` of a new reply is stored as sent, without checking that
      it names an existing comment. A client that sends the id the database
      is about to assign (MongoDB ids are predictable) makes the reply its
      own parent, and the collection is no longer acyclic. */
  lemma SelfReplyIsCycle(s: Store, blogId: Id, c: Caller, content: string, newId: Id, now: int, mailed: bool)
    requires newId !in s && newId != "" && content != ""
    ensures !Acyclic(CreateComment(s, blogId, Some(c), Some(content), Some(newId), newId, now, mailed).0)
  {
    var t := CreateComment(s, blogId, Some(c), Some(content), Some(newId), newId, now, mailed).0;
    assert t[newId].parent == Some(newId);
    assert ParentOf(t, newId) == Some(newId);
    assert Up(t, newId, 1) == Up(t, newId, 0) == Some(newId);
    if Acyclic(t) {
      AcyclicNoSelfAncestor(t, newId, 1);
    }
  }

  /** `getComments`: exactly the comments of the blog, each once, oldest
      first. */
  method GetComments(s: Store, blogId: Id) returns (r: seq<Id>)
    ensures forall id :: multiset(r)[id] == (if id in s && s[id].blog == blogId then 1 else 0)
    ensures forall i :: 0 <= i < |r| ==> r[i] in s && s[r[i]].blog == blogId
    ensures forall i, j :: 0 <= i < j < |r| ==> s[r[i]].createdAt <= s[r[j]].createdAt
  {
    r := Ordering.SelectSorted(s, (c: Comment) => c.blog == blogId, (c: Comment) => c.createdAt);
    forall i | 0 <= i < |r|
      ensures s[r[i]].blog == blogId
    {
      assert multiset(r)[r[i]] > 0;
    }
  }

  /** `deleteCommentAndReplies`: the replies found by `Comment.find({ parent:
      id })` are deleted recursively, in whatever order the query returns
      them, and then the comment itself. The result is the collection
      without the thread of `id`, everything else untouched; `deleted` lists
      the documents in the order they are removed, each exactly once, and
      every document is removed only after its whole thread (post-order).
      The recursion terminates exactly when `id` is not its own ancestor;
      each call works on a strictly smaller thread. */
  method DeleteCommentAndReplies(s: Store, id: Id) returns (t: Store, deleted: seq<Id>)
    requires id in s && NotOwnAncestor(s, id)
    ensures t.Keys == s.Keys - Subtree(s, id)
    ensures forall x :: x in t ==> t[x] == s[x]
    ensures forall x :: x in deleted <==> x in Subtree(s, id)
    ensures Distinct(deleted)
    ensures PostOrdered(s, deleted)
    decreases |Subtree(s, id)|
  {
    var kids := Children(s, id);
    var todo := kids;
    ghost var gone: set<Id> := {};
    t := s;
    deleted := [];
    while todo != {}
      invariant DeletionLoop(s, id, kids, todo, gone, t, deleted)
      decreases |todo|
    {
      var k :| k in todo;
      LoopEntry(s, id, kids, todo, gone, t, deleted, k);
      var t', d := DeleteCommentAndReplies(t, k);
      LoopStep(s, id, kids, todo, gone, t, deleted, k, t', d);
      gone := gone + Subtree(s, k);
      t := t';
      deleted := deleted + d;
      todo := todo - {k};
    }
    LoopExit(s, id, kids, gone, t, deleted);
    t := t - {id};
    deleted := deleted + [id];
  }

  /** The state of the loop over the replies of `id`: `gone` is what was
      removed so far, exactly the threads of the replies already handled. */
  ghost predicate DeletionLoop(s: Store, id: Id, kids: set<Id>, todo: set<Id>, gone: set<Id>, t: Store, deleted: seq<Id>)
  {
    && todo <= kids
    && t.Keys == s.Keys - gone && SubStore(t, s)
    && gone <= Subtree(s, id) - {id}
    && (forall k :: k in kids - todo ==> Subtree(s, k) <= gone)
    && (forall k :: k in todo ==> Subtree(s, k) !! gone)
    && (forall x :: x in deleted <==> x in gone)
    && Distinct(deleted)
    && PostOrdered(s, deleted)
  }

  /** The next reply is still stored, its thread is the same in the
      shrunken collection as in the original one and smaller than the thread
      of `id`, and it is not its own ancestor. */
  lemma LoopEntry(s: Store, id: Id, kids: set<Id>, todo: set<Id>, gone: set<Id>,
                  t: Store, deleted: seq<Id>, k: Id)
    requires NotOwnAncestor(s, id) && id in s && kids == Children(s, id)
    requires DeletionLoop(s, id, kids, todo, gone, t, deleted) && k in todo
    ensures k in t && NotOwnAncestor(t, k)
    ensures Subtree(t, k) == Subtree(s, k)
    ensures |Subtree(t, k)| < |Subtree(s, id)|
  {
    SubtreeRoot(s, k);
    SubtreeInSubStore(t, s, k);
    ChildSubtreeSmaller(s, id, k);
    ChildSubtree(s, id, k);
    ThreadNotOwnAncestor(s, id, k);
    forall n: nat | n > 0
      ensures Up(t, k, n) != Some(k)
    {
      if Up(t, k, n) == Some(k) {
        UpInSubStore(t, s, k, n);
      }
    }
  }

  /** Deleting the thread of the next reply re-establishes the loop state. */
  lemma LoopStep(s: Store, id: Id, kids: set<Id>, todo: set<Id>, gone: set<Id>,
                 t: Store, deleted: seq<Id>, k: Id, t': Store, d: seq<Id>)
    requires NotOwnAncestor(s, id) && id in s && kids == Children(s, id)
    requires DeletionLoop(s, id, kids, todo, gone, t, deleted) && k in todo
    requires Subtree(t, k) == Subtree(s, k)
    requires t'.Keys == t.Keys - Subtree(t, k) && forall x :: x in t' ==> t'[x] == t[x]
    requires forall x :: x in d <==> x in Subtree(t, k)
    requires Distinct(d) && PostOrdered(t, d)
    ensures DeletionLoop(s, id, kids, todo - {k}, gone + Subtree(s, k), t', deleted + d)
  {
    ChildSubtree(s, id, k);
    RootNotInChildSubtree(s, id, k);
    forall k' | k' in todo - {k}
      ensures Subtree(s, k') !! Subtree(s, k)
    {
      SiblingsDisjoint(s, id, k', k);
    }
    AppendDistinct(deleted, d);
    AppendPostOrdered(s, t, k, deleted, d);
  }

  /** Appending a list disjoint from a duplicate-free list keeps it free of
      duplicates. */
  lemma AppendDistinct(xs: seq<Id>, ys: seq<Id>)
    requires Distinct(xs) && Distinct(ys)
    requires forall x :: x in xs ==> x !in ys
    ensures Distinct(xs + ys)
  {
    var zs := xs + ys;
    forall i, j | 0 <= i < j < |zs|
      ensures zs[i] != zs[j]
    {
      if i < |xs| <= j {
        assert zs[i] in xs && zs[j] == ys[j - |xs|];
      }
    }
  }

  /** Appending the post-order list of one thread, still whole in `t`, to
      a post-ordered list keeps it post-ordered. */
  lemma AppendPostOrdered(s: Store, t: Store, k: Id, deleted: seq<Id>, d: seq<Id>)
    requires SubStore(t, s) && Subtree(s, k) <= t.Keys && Subtree(t, k) == Subtree(s, k)
    requires forall x :: x in d ==> x in Subtree(t, k)
    requires PostOrdered(s, deleted) && PostOrdered(t, d)
    ensures PostOrdered(s, deleted + d)
  {
    var xs := deleted + d;
    forall i | 0 <= i < |xs|
      ensures forall x :: x in Subtree(s, xs[i]) ==> x in xs[..i + 1]
    {
      if i < |deleted| {
        assert xs[..i + 1] == deleted[..i + 1];
      } else {
        var j := i - |deleted|;
        ThreadInSubStore(s, t, k, d[j]);
        assert xs[..i + 1] == deleted + d[..j + 1];
      }
    }
  }

  /** A reply inside a thread that is whole in `t` has the same thread in
      `t` as in `s`. */
  lemma ThreadInSubStore(s: Store, t: Store, k: Id, y: Id)
    requires SubStore(t, s) && Subtree(s, k) <= t.Keys && Subtree(t, k) == Subtree(s, k)
    requires y in Subtree(t, k)
    ensures Subtree(s, y) == Subtree(t, y)
  {
    SubtreeRoot(s, y);
    SubtreeTrans(s, k, y, y);
    SubtreeInSubStore(t, s, y);
  }

  /** After every reply's thread is gone, the thread of `id` is exactly what
      was removed plus `id` itself, which is still stored. */
  lemma LoopExit(s: Store, id: Id, kids: set<Id>, gone: set<Id>, t: Store, deleted: seq<Id>)
    requires id in s && kids == Children(s, id)
    requires DeletionLoop(s, id, kids, {}, gone, t, deleted)
    ensures id in t && Subtree(s, id) == gone + {id}
    ensures (t - {id}).Keys == s.Keys - Subtree(s, id)
    ensures forall x :: x in deleted + [id] <==> x in Subtree(s, id)
    ensures Distinct(deleted + [id])
    ensures PostOrdered(s, deleted + [id])
  {
    SubtreeRoot(s, id);
    forall x | x in Subtree(s, id) && x != id
      ensures x in gone
    {
      SubtreeSplit(s, id, x);
    }
    AppendRoot(s, id, deleted);
  }

  /** Listing the root after the rest of its thread keeps the list
      duplicate-free and post-ordered. */
  lemma AppendRoot(s: Store, id: Id, deleted: seq<Id>)
    requires Distinct(deleted) && PostOrdered(s, deleted)
    requires forall x :: x in Subtree(s, id) ==> x == id || x in deleted
    requires id !in deleted
    ensures Distinct(deleted + [id])
    ensures PostOrdered(s, deleted + [id])
  {
    var xs := deleted + [id];
    forall i | 0 <= i < |xs|
      ensures forall x :: x in Subtree(s, xs[i]) ==> x in xs[..i + 1]
    {
      if i < |deleted| {
        assert xs[..i + 1] == deleted[..i + 1];
      } else {
        assert xs[..i + 1] == xs;
      }
    }
  }

  /** `deleteComment`: 404 for a missing comment and 403 unless the caller
      wrote it or is an admin, both leaving the collection as it was;
      otherwise the comment's whole thread is removed and nothing else.
      With no caller (the token's user no longer exists) reading the
      caller's role fails and the answer is 500. Only a permitted deletion
      recurses, and it needs only that the comment is not its own ancestor;
      a cycle elsewhere in the collection is harmless, and an acyclic
      collection stays acyclic. */
  method DeleteComment(s: Store, id: Id, caller: Option<Caller>) returns (t: Store, status: Status)
    requires id in s && caller.Some? && (IsAdmin(caller.value) || s[id].author == caller.value.id) ==>
               NotOwnAncestor(s, id)
    ensures id !in s ==> status == NotFound && t == s
    ensures id in s && caller.None? ==> status == ServerError && t == s
    ensures id in s && caller.Some? && !IsAdmin(caller.value) && s[id].author != caller.value.id ==>
              status == Forbidden && t == s
    ensures id in s && caller.Some? && (IsAdmin(caller.value) || s[id].author == caller.value.id) ==>
              && status == Ok
              && t.Keys == s.Keys - Subtree(s, id)
              && (forall x :: x in t ==> t[x] == s[x])
    ensures Acyclic(s) ==> Acyclic(t)
  {
    if id !in s {
      return s, NotFound;
    }
    if caller.None? {
      return s, ServerError;
    }
    if !IsAdmin(caller.value) && s[id].author != caller.value.id {
      return s, Forbidden;
    }
    var deleted;
    t, deleted := DeleteCommentAndReplies(s, id);
    if Acyclic(s) {
      ghost var rank :| RankedBy(s, rank);
      SubStoreRanked(t, s, rank);
    }
    status := Ok;
  }

  /** A cycle elsewhere does not stop a deletion: in a collection where `a`
      replies to itself, `b` still satisfies what `DeleteComment` needs. */
  lemma CycleElsewhereDeletable(a: Id, b: Id, ca: Comment, cb: Comment)
    requires a != b && ca.parent == Some(a) && cb.parent.None?
    ensures var s := map[a := ca, b := cb];
            !Acyclic(s) && NotOwnAncestor(s, b)
  {
    var s := map[a := ca, b := cb];
    assert Up(s, a, 1) == Some(a);
    if Acyclic(s) {
      AcyclicNoSelfAncestor(s, a, 1);
    }
  }
}

=== FILE: common.dfy ===
/** Shared vocabulary of the blogging backend: optional values, document
    identifiers, account roles, JavaScript truthiness of request fields and
    the HTTP status codes the controllers answer with. */
module Common {

  /** A value that may be absent (`undefined` or `null` in the source). */
  datatype Option<+T> = None | Some(value: T)

  /** Document identifiers (MongoDB ObjectIds in their canonical hex form). */
  type Id = string

  /** The `role` enum of the user schema. */
  datatype Role = UserRole | AuthorRole | AdminRole

  /** The string stored in the `role` field for each role. */
  function RoleName(r: Role): string
  {
    match r
    case UserRole => "user"
    case AuthorRole => "author"
    case AdminRole => "admin"
  }

  /** Casting a request-supplied role string through the schema enum:
      only the three enum values are accepted. */
  function ParseRole(s: string): (r: Option<Role>)
    ensures r.Some? <==> s in {"user", "author", "admin"}
    ensures r.Some? ==> RoleName(r.value) == s
  {
    if s == "user" then Some(UserRole)
    else if s == "author" then Some(AuthorRole)
    else if s == "admin" then Some(AdminRole)
    else None
  }

  /** JavaScript truthiness of an optional string field: both a missing
      field and the empty string are falsy. */
  predicate Present(o: Option<string>)
  {
    o.Some? && o.value != ""
  }

  /** The expression `a || b` where `a` is an optional string field. */
  function OrElse(a: Option<string>, b: string): string
  {
    if Present(a) then a.value else b
  }

  /** The field a partial update leaves behind: the supplied value when
      there is one (an `undefined` field is dropped from the update), the
      old one otherwise. */
  function Override<T>(supplied: Option<T>, current: T): T
  {
    if supplied.Some? then supplied.value else current
  }

  /** The HTTP statuses the controllers and middleware answer with. */
  datatype Status = Ok | Created | BadRequest | Unauthorized | Forbidden | NotFound | ServerError
}

=== FILE: encoding.dfy ===
/** How JavaScript strings meet bytes and lengths: a JavaScript `length`
    counts UTF-16 code units, and `bcryptjs` hashes the UTF-8 encoding of a
    password. Dafny's `char` is a Unicode scalar value. */
module Encoding {

  /* ---------------- UTF-16 length ---------------- */

  /** A character outside the Basic Multilingual Plane, which UTF-16 writes
      as a surrogate pair. */
  predicate Astral(c: char)
  {
    c as int > 0xFFFF
  }

  /** JavaScript's `length`: one code unit per character, two for an
      astral one. It equals the number of characters exactly when there is
      no astral character. */
  function Utf16Length(s: string): (n: nat)
    ensures |s| <= n <= 2 * |s|
    ensures n == |s| <==> forall i :: 0 <= i < |s| ==> !Astral(s[i])
    decreases |s|
  {
    if s == [] then 0
    else
      var rest := Utf16Length(s[1..]);
      assert forall i :: 1 <= i < |s| ==> s[i] == s[1..][i - 1];
      (if Astral(s[0]) then 2 else 1) + rest
  }

  /* ---------------- UTF-8 ---------------- */

  newtype Byte = x: int | 0 <= x < 256

  /** The length of a UTF-8 sequence, read off its lead byte. */
  function LeadLength(b: Byte): nat
  {
    if b < 0x80 then 1 else if b < 0xE0 then 2 else if b < 0xF0 then 3 else 4
  }

  /** A continuation byte `10xxxxxx`. */
  predicate Continuation(b: Byte)
  {
    0x80 <= b < 0xC0
  }

  /** The scalar value a well-formed sequence of one to four bytes
      encodes. */
  function Utf8Value(r: seq<Byte>): int
    requires 1 <= |r| <= 4
  {
    if |r| == 1 then r[0] as int
    else if |r| == 2 then (r[0] as int - 0xC0) * 64 + (r[1] as int - 0x80)
    else if |r| == 3 then (r[0] as int - 0xE0) * 4096 + (r[1] as int - 0x80) * 64 + (r[2] as int - 0x80)
    else (r[0] as int - 0xF0) * 262144 + (r[1] as int - 0x80) * 4096 + (r[2] as int - 0x80) * 64
         + (r[3] as int - 0x80)
  }

  /** The UTF-8 encoding of one character: its lead byte announces its
      length, the other bytes are continuation bytes, and decoding gives
      the character back. */
  function Utf8Char(c: char): (r: seq<Byte>)
    ensures 1 <= |r| <= 4
    ensures LeadLength(r[0]) == |r|
    ensures forall i :: 1 <= i < |r| ==> Continuation(r[i])
    ensures Utf8Value(r) == c as int
  {
    var n := c as int;
    if n < 0x80 then [n as Byte]
    else if n < 0x800 then
      Split64(n);
      [(0xC0 + n / 64) as Byte, (0x80 + n % 64) as Byte]
    else if n < 0x10000 then
      Split4096(n);
      [(0xE0 + n / 4096) as Byte, (0x80 + (n / 64) % 64) as Byte, (0x80 + n % 64) as Byte]
    else
      Split262144(n);
      [(0xF0 + n / 262144) as Byte, (0x80 + (n / 4096) % 64) as Byte,
       (0x80 + (n / 64) % 64) as Byte, (0x80 + n % 64) as Byte]
  }

  lemma Split64(n: nat)
    ensures n == (n / 64) * 64 + n % 64 && 0 <= n % 64 < 64
  {
  }

  lemma Split4096(n: nat)
    ensures n / 4096 == (n / 64) / 64
    ensures n == (n / 4096) * 4096 + ((n / 64) % 64) * 64 + n % 64
  {
    Split64(n);
    Split64(n / 64);
  }

  lemma Split262144(n: nat)
    ensures n / 262144 == (n / 4096) / 64
    ensures n == (n / 262144) * 262144 + ((n / 4096) % 64) * 4096 + ((n / 64) % 64) * 64 + n % 64
  {
    Split4096(n);
    Split64(n / 4096);
  }

  /** The UTF-8 encoding of a string, character by character. */
  function Utf8(s: string): (r: seq<Byte>)
    ensures |s| <= |r| <= 4 * |s|
    decreases |s|
  {
    if s == [] then [] else Utf8Char(s[0]) + Utf8(s[1..])
  }

  /** Encoding a concatenation concatenates the encodings. */
  lemma {:induction false} Utf8Append(a: string, b: string)
    ensures Utf8(a + b) == Utf8(a) + Utf8(b)
    decreases |a|
  {
    if a == [] {
      assert a + b == b;
    } else {
      assert (a + b)[0] == a[0] && (a + b)[1..] == a[1..] + b;
      Utf8Append(a[1..], b);
    }
  }

  /** Different strings have different encodings. */
  lemma {:induction false} Utf8Injective(s: string, t: string)
    requires Utf8(s) == Utf8(t)
    ensures s == t
    decreases |s|
  {
    if s != [] && t != [] {
      var e, f := Utf8Char(s[0]), Utf8Char(t[0]);
      assert Utf8(s) == e + Utf8(s[1..]) && Utf8(t) == f + Utf8(t[1..]);
      assert e[0] == Utf8(s)[0] == f[0];
      assert e == Utf8(s)[..|e|] == f;
      assert s[0] as int == t[0] as int;
      assert Utf8(s[1..]) == Utf8(s)[|e|..] == Utf8(t[1..]);
      Utf8Injective(s[1..], t[1..]);
      assert s == [s[0]] + s[1..] && t == [t[0]] + t[1..];
    }
  }

  /** No character of `s` is U+0000. */
  predicate NulFree(s: string)
  {
    forall i :: 0 <= i < |s| ==> s[i] != '\0'
  }

  /** Only U+0000 encodes to a zero byte. */
  lemma {:induction false} Utf8NoZero(s: string)
    requires NulFree(s)
    ensures forall i :: 0 <= i < |Utf8(s)| ==> Utf8(s)[i] != 0
    decreases |s|
  {
    if s != [] {
      var e := Utf8Char(s[0]);
      assert forall i :: 0 <= i < |e| ==> e[i] != 0 by {
        if |e| > 1 {
          assert e[0] >= 0x80;
        }
      }
      assert NulFree(s[1..]) by {
        assert forall i :: 0 <= i < |s[1..]| ==> s[1..][i] == s[i + 1];
      }
      Utf8NoZero(s[1..]);
      assert Utf8(s) == e + Utf8(s[1..]);
    }
  }
}

=== FILE: middleware.dfy ===
/** Session tokens and the authentication middleware
    (`src/middleware/authMiddleware.js`, and `generateToken` of
    `src/controllers/authController.js`). Signing and signature checking are
    foreign cryptography: a token string is produced by a `sign` oracle and
    read back by a `decode` oracle that answers `None` for a malformed or
    badly signed token. The expiry check of `jwt.verify` is modelled. */
module Middleware {
  import opened Common
  import opened Text
  import opened Users

  /** Token lifetime: `expiresIn: '1h'`, in seconds. */
  const TokenLifetime: int := 3600

  /** The claims of a session token; `iat` and `exp` are in seconds. */
  datatype Claims = Claims(id: Id, role: Role, iat: int, exp: int)

  /** `generateToken(id, role)` at clock `nowMs` (milliseconds). */
  function GenerateToken(id: Id, role: Role, nowMs: int): (c: Claims)
    ensures c.id == id && c.role == role
    ensures c.iat * 1000 <= nowMs < c.iat * 1000 + 1000
    ensures c.exp == c.iat + TokenLifetime
  {
    Claims(id, role, nowMs / 1000, nowMs / 1000 + TokenLifetime)
  }

  /** The expiry test of `jwt.verify`: a token is expired once the clock,
      in whole seconds, has reached `exp`. */
  predicate Expired(c: Claims, nowMs: int)
  {
    nowMs / 1000 >= c.exp
  }

  /** On the millisecond clock, a token expires at the first millisecond
      of its `exp` second. */
  lemma ExpiredAtSecond(c: Claims, nowMs: int)
    ensures Expired(c, nowMs) <==> nowMs >= c.exp * 1000
  {
    assert nowMs == (nowMs / 1000) * 1000 + nowMs % 1000;
    if nowMs / 1000 >= c.exp {
      assert (nowMs / 1000) * 1000 >= c.exp * 1000;
    } else {
      assert (nowMs / 1000) * 1000 <= (c.exp - 1) * 1000;
    }
  }

  /** The token of an `Authorization` header: the header must be present
      and non-empty and start with `Bearer`; the token is the second piece
      of the header split on single spaces, and a missing or empty piece
      means there is no token. */
  function ExtractBearer(header: Option<string>): (r: Option<string>)
    ensures r.Some? ==> header.Some? && StartsWith(header.value, "Bearer")
    ensures r.Some? ==> r.value != "" && ' ' !in r.value
    ensures r.Some? ==> Contains(header.value, [' '] + r.value)
  {
    if header.None? || header.value == "" || !StartsWith(header.value, "Bearer") then None
    else
      var pieces := Split(header.value, ' ');
      if |pieces| < 2 || pieces[1] == "" then None
      else
        BearerInHeader(header.value, pieces);
        Some(pieces[1])
  }

  lemma BearerInHeader(h: string, pieces: seq<string>)
    requires pieces == Split(h, ' ') && |pieces| >= 2
    ensures Contains(h, [' '] + pieces[1])
  {
    var tail := if |pieces| == 2 then "" else [' '] + Join(pieces[2..], ' ');
    assert Join(pieces[1..], ' ') == pieces[1] + tail;
    assert h == pieces[0] + ([' '] + pieces[1]) + tail;
    ContainsInfix(pieces[0], [' '] + pieces[1], tail);
  }

  /** Every header that starts with `Bearer` and has a space is `Bearer`,
      a space-free word `w`, a space, a space-free piece `token` and a rest
      that is empty or starts with a space. Its token is that piece, and an
      empty piece (two spaces in a row) means there is none. */
  lemma {:induction false} ExtractBearerOf(w: string, token: string, rest: string)
    requires ' ' !in w && ' ' !in token
    requires rest == "" || rest[0] == ' '
    ensures ExtractBearer(Some("Bearer" + w + " " + token + rest)) == if token == "" then None else Some(token)
  {
    var h := "Bearer" + w + " " + token + rest;
    assert h[..6] == "Bearer";
    assert h == ("Bearer" + w) + [' '] + (token + rest);
    assert ' ' !in "Bearer" + w;
    SplitCons("Bearer" + w, ' ', token + rest);
    if rest == "" {
      assert token + rest == token;
      SplitSingle(token, ' ');
    } else {
      assert token + rest == token + [' '] + rest[1..];
      SplitCons(token, ' ', rest[1..]);
    }
  }

  /** A header without a space carries no token. */
  lemma NoSpaceNoBearer(header: string)
    requires ' ' !in header
    ensures ExtractBearer(Some(header)) == None
  {
    if header != "" && StartsWith(header, "Bearer") {
      SplitSingle(header, ' ');
    }
  }

  /** What `verifyToken` does with a request: answer 401, or let it
      through with `req.user` set to the freshly read stored user, which is
      null when the token's user no longer exists. */
  datatype Gate = Reject(status: Status) | Proceed(user: Option<Caller>)

  /** `verifyToken`. `decode` is the signature check of `jwt.verify`. */
  function VerifyToken(header: Option<string>, decode: string -> Option<Claims>, nowMs: int,
                       users: UserStore): (r: Gate)
    ensures r.Reject? <==> (ExtractBearer(header).None?
                            || decode(ExtractBearer(header).value).None?
                            || Expired(decode(ExtractBearer(header).value).value, nowMs))
    ensures r.Reject? ==> r.status == Unauthorized
    ensures r.Proceed? ==> r.user == FindCaller(users, decode(ExtractBearer(header).value).value.id)
  {
    match ExtractBearer(header)
    case None => Reject(Unauthorized)
    case Some(token) =>
      match decode(token)
      case None => Reject(Unauthorized)
      case Some(claims) =>
        if Expired(claims, nowMs) then Reject(Unauthorized)
        else Proceed(FindCaller(users, claims.id))
  }

  /** `authorizeRoles(...allowed)`: lets the request through exactly when
      there is a user and its stored role is one of `allowed`. */
  predicate AuthorizeRoles(allowed: seq<Role>, user: Option<Caller>)
  {
    user.Some? && user.value.role in allowed
  }

  /** `authorizeRoles('author', 'admin')` turns away exactly the requests
      without a user and those of `user`-role accounts. */
  lemma AuthorizeStaff(user: Option<Caller>)
    ensures AuthorizeRoles([AuthorRole, AdminRole], user) <==> user.Some? && user.value.role != UserRole
  {
  }

  /** With no allowed role, `authorizeRoles` turns everybody away. */
  lemma AuthorizeNoRoles(user: Option<Caller>)
    ensures !AuthorizeRoles([], user)
  {
  }

  /** Authorization reads the role stored now, not the one in the token:
      a token minted for an admin whose stored role has since become `user`
      no longer passes an admin-only gate. */
  lemma StoredRoleDecides(header: Option<string>, decode: string -> Option<Claims>, nowMs: int,
                          users: UserStore, allowed: seq<Role>)
    requires VerifyToken(header, decode, nowMs, users).Proceed?
    ensures var g := VerifyToken(header, decode, nowMs, users);
            var id := decode(ExtractBearer(header).value).value.id;
            AuthorizeRoles(allowed, g.user) <==> id in users && users[id].role in allowed
  {
  }

  /** A token issued at `t` is accepted 59 minutes later and refused 61
      minutes later. */
  lemma TokenLifetimeWindow(id: Id, role: Role, t: int, sign: Claims -> string,
                            decode: string -> Option<Claims>, users: UserStore)
    requires var c := GenerateToken(id, role, t);
             decode(sign(c)) == Some(c) && sign(c) != "" && ' ' !in sign(c)
    ensures VerifyToken(Some("Bearer " + sign(GenerateToken(id, role, t))), decode, t + 59 * 60 * 1000, users).Proceed?
    ensures VerifyToken(Some("Bearer " + sign(GenerateToken(id, role, t))), decode, t + 61 * 60 * 1000, users).Reject?
  {
    var c := GenerateToken(id, role, t);
    ExtractBearerOf("", sign(c), "");
    assert "Bearer" + "" + " " + sign(c) + "" == "Bearer " + sign(c);
    assert (t + 59 * 60 * 1000) / 1000 == t / 1000 + 3540;
    assert (t + 61 * 60 * 1000) / 1000 == t / 1000 + 3660;
  }
}

=== FILE: ordering.dfy ===
/** Sorted queries over a collection: the shape shared by
    `Comment.find(...).sort({ createdAt: 1 })` and
    `Blog.find(...).sort({ createdAt: -1 })`. The order among documents with
    equal sort keys is not specified by the database, so the contracts leave
    it open. */
module Ordering {
  import opened Common

  /** `xs` is in non-decreasing order of `key`. */
  ghost predicate Ascending<T>(xs: seq<T>, key: T -> int)
  {
    forall i, j :: 0 <= i < j < |xs| ==> key(xs[i]) <= key(xs[j])
  }

  /** Insert `x` into a sorted sequence, keeping it sorted. */
  function InsertByKey<T>(x: T, xs: seq<T>, key: T -> int): (r: seq<T>)
    requires Ascending(xs, key)
    ensures Ascending(r, key)
    ensures multiset(r) == multiset(xs) + multiset{x}
    ensures forall i :: 0 <= i < |r| ==> r[i] == x || r[i] in xs
    decreases |xs|
  {
    if |xs| == 0 || key(x) <= key(xs[0]) then [x] + xs
    else
      var rest := InsertByKey(x, xs[1..], key);
      assert xs == [xs[0]] + xs[1..];
      HeadBeforeRest(xs[0], x, xs[1..], rest, key);
      [xs[0]] + rest
  }

  /** A head no later than the rest of its sorted sequence, and than `x`,
      stays in front once `x` joins the rest. */
  lemma HeadBeforeRest<T>(h: T, x: T, tail: seq<T>, rest: seq<T>, key: T -> int)
    requires Ascending([h] + tail, key) && Ascending(rest, key)
    requires key(h) <= key(x)
    requires forall i :: 0 <= i < |rest| ==> rest[i] == x || rest[i] in tail
    ensures Ascending([h] + rest, key)
  {
    var r := [h] + rest;
    forall i, j | 0 <= i < j < |r|
      ensures key(r[i]) <= key(r[j])
    {
      if i > 0 {
        assert r[i] == rest[i - 1] && r[j] == rest[j - 1];
      } else if r[j] != x {
        var k :| 0 <= k < |tail| && tail[k] == r[j];
        assert ([h] + tail)[0] == h && ([h] + tail)[k + 1] == r[j];
      }
    }
  }

  /** The query `find(keep).sort(key ascending)` over a collection keyed by
      document id: every kept document appears exactly once, nothing else
      appears, and the ids come in ascending order of their key. */
  method SelectSorted<V>(m: map<Id, V>, keep: V -> bool, key: V -> int) returns (r: seq<Id>)
    ensures forall id :: multiset(r)[id] == (if id in m && keep(m[id]) then 1 else 0)
    ensures forall i :: 0 <= i < |r| ==> r[i] in m
    ensures forall i, j :: 0 <= i < j < |r| ==> key(m[r[i]]) <= key(m[r[j]])
  {
    var k := (id: Id) => if id in m then key(m[id]) else 0;
    var rest := m.Keys;
    r := [];
    while rest != {}
      invariant rest <= m.Keys
      invariant forall id :: multiset(r)[id] == (if id in m && keep(m[id]) && id !in rest then 1 else 0)
      invariant forall i :: 0 <= i < |r| ==> r[i] in m
      invariant Ascending(r, k)
      decreases |rest|
    {
      var id :| id in rest;
      rest := rest - {id};
      if keep(m[id]) {
        r := InsertByKey(id, r, k);
      }
    }
    forall i, j | 0 <= i < j < |r|
      ensures key(m[r[i]]) <= key(m[r[j]])
    {
      assert k(r[i]) <= k(r[j]);
    }
  }
}

=== FILE: profiles.dfy ===
/** The profile controller (`src/controllers/profileController.js`) over
    the profile collection of `src/models/Profile.js`: reading, updating and
    setting the avatar of the profile of oneself, or of anybody for an
    admin. */
module ProfileController {
  import opened Common
  import opened Users

  /** The `socialLinks` sub-document. */
  datatype SocialLinks = SocialLinks(twitter: Option<string>, github: Option<string>,
                                     linkedin: Option<string>, instagram: Option<string>)

  /** A profile document; every field is optional and has no default. */
  datatype Profile = Profile(bio: Option<string>, website: Option<string>, location: Option<string>,
                             socialLinks: Option<SocialLinks>, avatar: Option<string>)

  /** The profile collection, keyed by the id of the owning user. A user has
      at most one profile: every write goes through an upsert keyed on the
      user, or through the login-time creation that first checks for one. */
  type ProfileStore = map<Id, Profile>

  /** A document freshly created by an upsert, before the update applies. */
  const Blank: Profile := Profile(None, None, None, None, None)

  /** The profile the first successful login creates. */
  const Initial: Profile := Profile(Some(""), None, Some(""), None, Some(""))

  /** A field of a JSON body: left out, `null`, or a value. */
  datatype Field<T> = Absent | Null | Given(value: T)

  /** The profile fields an update may set. */
  datatype ProfileFields = ProfileFields(bio: Field<string>, website: Field<string>,
                                         location: Field<string>, socialLinks: Field<SocialLinks>)

  /** The caller may act on the profile of `target`: it is their own, or
      they are an admin. */
  predicate MayAccess(c: Caller, target: Id)
  {
    target == c.id || IsAdmin(c)
  }

  /** One key of a `$set`: a left-out key is dropped from the update and
      keeps the stored value, `null` clears it, a value replaces it. */
  function SetField<T>(f: Field<T>, current: Option<T>): (r: Option<T>)
    ensures f.Absent? ==> r == current
    ensures f.Null? ==> r.None?
    ensures f.Given? ==> r == Some(f.value)
  {
    match f
    case Absent => current
    case Null => None
    case Given(v) => Some(v)
  }

  /** `$set` of the body's fields on `p`; the avatar is not one of them. */
  function SetFields(p: Profile, f: ProfileFields): (r: Profile)
    ensures r.avatar == p.avatar
    ensures r.bio == SetField(f.bio, p.bio) && r.website == SetField(f.website, p.website)
    ensures r.location == SetField(f.location, p.location)
    ensures r.socialLinks == SetField(f.socialLinks, p.socialLinks)
  {
    Profile(SetField(f.bio, p.bio), SetField(f.website, p.website), SetField(f.location, p.location),
            SetField(f.socialLinks, p.socialLinks), p.avatar)
  }

  /** Applying the same fields twice is applying them once. */
  lemma SetFieldsIdempotent(p: Profile, f: ProfileFields)
    ensures SetFields(SetFields(p, f), f) == SetFields(p, f)
  {
  }

  /** The stored profile of `target`, or a blank one when an upsert would
      create it. */
  function Existing(profiles: ProfileStore, target: Id): Profile
  {
    if target in profiles then profiles[target] else Blank
  }

  /** `getProfile`. The target is the `userId` parameter, else the caller.
      404 when the target has no profile; 500 when the profile's user no
      longer exists (the populated reference is null) or there is no caller;
      403 unless the caller may access the target's profile. */
  function GetProfile(profiles: ProfileStore, users: UserStore, caller: Option<Caller>,
                      userId: Option<string>): (r: (Status, Option<Profile>))
    ensures r.1.Some? <==> r.0 == Ok
    ensures r.0 == Ok <==> caller.Some? && OrElse(userId, caller.value.id) in profiles
                           && OrElse(userId, caller.value.id) in users
                           && MayAccess(caller.value, OrElse(userId, caller.value.id))
    ensures r.0 == Ok ==> r.1.value == profiles[OrElse(userId, caller.value.id)]
    ensures caller.None? ==> r == (ServerError, None)
    ensures caller.Some? && OrElse(userId, caller.value.id) !in profiles ==> r.0 == NotFound
    ensures caller.Some? ==>
              var target := OrElse(userId, caller.value.id);
              target in profiles && target !in users ==> r.0 == ServerError
    ensures caller.Some? ==>
              var target := OrElse(userId, caller.value.id);
              target in profiles && target in users && !MayAccess(caller.value, target) ==> r.0 == Forbidden
  {
    if caller.None? then (ServerError, None)
    else
      var target := OrElse(userId, caller.value.id);
      if target !in profiles then (NotFound, None)
      else if target !in users then (ServerError, None)
      else if !MayAccess(caller.value, target) then (Forbidden, None)
      else (Ok, Some(profiles[target]))
  }

  /** `updateProfile`. The target is the `userId` parameter, else the
      body's `userId`, else the caller. Refused with 403 before anything is
      written unless the caller may access the target; otherwise the target's
      profile, created if missing, gets the supplied fields and nothing else
      changes. */
  function UpdateProfile(profiles: ProfileStore, caller: Option<Caller>, userId: Option<string>,
                         bodyUserId: Option<string>, f: ProfileFields): (r: (ProfileStore, Status))
    ensures r.1 == Ok <==> caller.Some? && MayAccess(caller.value, OrElse(userId, OrElse(bodyUserId, caller.value.id)))
    ensures r.1 != Ok ==> r.0 == profiles
    ensures caller.None? ==> r == (profiles, ServerError)
    ensures caller.Some? ==>
              !MayAccess(caller.value, OrElse(userId, OrElse(bodyUserId, caller.value.id))) ==> r.1 == Forbidden
    ensures r.1 == Ok ==>
              var target := OrElse(userId, OrElse(bodyUserId, caller.value.id));
              && r.0.Keys == profiles.Keys + {target}
              && (forall u :: u in profiles && u != target ==> r.0[u] == profiles[u])
              && r.0[target] == SetFields(Existing(profiles, target), f)
  {
    if caller.None? then (profiles, ServerError)
    else
      var target := OrElse(userId, OrElse(bodyUserId, caller.value.id));
      if !MayAccess(caller.value, target) then (profiles, Forbidden)
      else (profiles[target := SetFields(Existing(profiles, target), f)], Ok)
  }

  /** The public path of a stored upload. */
  function AvatarPath(filename: string): (r: string)
    ensures |r| == |"/uploads/"| + |filename|
    ensures r[..|"/uploads/"|] == "/uploads/" && r[|"/uploads/"|..] == filename
  {
    "/uploads/" + filename
  }

  /** `uploadProfileImage`, given the name under which the upload step
      stored the file (`None` when no file came). The access check comes
      before the missing-file check; on success the target's profile, created
      if missing, points its avatar at the stored file and keeps every other
      field. */
  function UploadProfileImage(profiles: ProfileStore, caller: Option<Caller>, userId: Option<string>,
                              stored: Option<string>): (r: (ProfileStore, Status))
    ensures r.1 != Ok ==> r.0 == profiles
    ensures caller.None? ==> r == (profiles, ServerError)
    ensures caller.Some? && !MayAccess(caller.value, OrElse(userId, caller.value.id)) ==> r.1 == Forbidden
    ensures caller.Some? && MayAccess(caller.value, OrElse(userId, caller.value.id)) && stored.None? ==> r.1 == BadRequest
    ensures r.1 == Ok <==> caller.Some? && MayAccess(caller.value, OrElse(userId, caller.value.id)) && stored.Some?
    ensures r.1 == Ok ==>
              var target := OrElse(userId, caller.value.id);
              && r.0.Keys == profiles.Keys + {target}
              && (forall u :: u in profiles && u != target ==> r.0[u] == profiles[u])
              && r.0[target] == Existing(profiles, target).(avatar := Some(AvatarPath(stored.value)))
  {
    if caller.None? then (profiles, ServerError)
    else
      var target := OrElse(userId, caller.value.id);
      if !MayAccess(caller.value, target) then (profiles, Forbidden)
      else if stored.None? then (profiles, BadRequest)
      else (profiles[target := Existing(profiles, target).(avatar := Some(AvatarPath(stored.value)))], Ok)
  }

  /** Setting the avatar leaves the profile's text fields as they were, and
      updating the text fields leaves the avatar as it was: the two writes
      commute on the same profile. */
  lemma UpdateAndUploadCommute(profiles: ProfileStore, c: Caller, f: ProfileFields, filename: string)
    ensures var (p1, _) := UpdateProfile(profiles, Some(c), None, None, f);
            var (p2, _) := UploadProfileImage(p1, Some(c), None, Some(filename));
            var (q1, _) := UploadProfileImage(profiles, Some(c), None, Some(filename));
            var (q2, _) := UpdateProfile(q1, Some(c), None, None, f);
            p2 == q2
  {
    var (p1, _) := UpdateProfile(profiles, Some(c), None, None, f);
    var (q1, _) := UploadProfileImage(profiles, Some(c), None, Some(filename));
    var (p2, _) := UploadProfileImage(p1, Some(c), None, Some(filename));
    var (q2, _) := UpdateProfile(q1, Some(c), None, None, f);
    assert p2.Keys == q2.Keys;
    assert p2[c.id] == q2[c.id];
  }

  /** An update and a later read of the profile agree: a supplied field is
      read back, a `null` one is gone, a left-out one is what it was. */
  lemma UpdateThenGet(profiles: ProfileStore, users: UserStore, c: Caller, f: ProfileFields)
    requires c.id in users
    ensures var (p, st) := UpdateProfile(profiles, Some(c), None, None, f);
            && st == Ok
            && var (st2, got) := GetProfile(p, users, Some(c), None);
               && st2 == Ok
               && (f.bio.Given? ==> got.value.bio == Some(f.bio.value))
               && (f.bio.Null? ==> got.value.bio.None?)
               && (f.bio.Absent? ==> got.value.bio == Existing(profiles, c.id).bio)
               && (f.location.Given? ==> got.value.location == Some(f.location.value))
               && (f.location.Null? ==> got.value.location.None?)
               && (f.location.Absent? ==> got.value.location == Existing(profiles, c.id).location)
  {
  }
}

=== FILE: routes.dfy ===
/** The route tables of `src/routes/blogRoutes.js`, `commentRoutes.js` and
    `profileRoutes.js` as mounted by the application under `/api/blogs` and
    `/api/profile`: which middleware guards each endpoint, first-match
    routing, and the whole request pipeline composing guards and
    controllers. */
module Routes {
  import opened Common
  import opened Users
  import opened Middleware
  import opened Upload
  import opened CommentTree
  import CC = CommentController
  import BC = BlogController
  import PC = ProfileController

  /* ---------------- route tables ---------------- */

  datatype Verb = Get | Post | Put | Delete

  /** A path segment pattern: a literal, or a named parameter (`:name`). */
  datatype Seg = Lit(text: string) | Param(name: string)

  /** The middleware a route runs before its controller: `verifyToken`,
      `authorizeRoles(...)`, and `upload.single('avatar')`. */
  datatype Guard = Authenticate | RequireRoles(allowed: seq<Role>) | AvatarUpload

  /** The controller functions the tables bind. */
  datatype Handler =
    | CreateComment | GetComments | DeleteComment
    | GetPublishedBlogs | SearchBlogs | GetPublishedBlogById
    | CreateBlog | UpdateBlog | DeleteBlog | TogglePublish
    | GetProfile | UpdateProfile | UploadProfileImage

  datatype Route = Route(verb: Verb, path: seq<Seg>, guards: seq<Guard>, handler: Handler)

  /** `verifyToken, authorizeRoles('author', 'admin')`. */
  const Staff: seq<Guard> := [Authenticate, RequireRoles([AuthorRole, AdminRole])]

  /** `commentRoutes.js`, relative to its mount point. */
  const CommentRoutes: seq<Route> := [
    Route(Post, [], [Authenticate], CreateComment),
    Route(Get, [], [], GetComments),
    Route(Delete, [Param("id")], [Authenticate], DeleteComment)
  ]

  /** `blogRoutes.js`: the comment router first, under `/:blogId/comments`,
      then the public reads, then the staff-only writes. The route for
      `getBlogById` is commented out and so absent. */
  const BlogRoutes: seq<Route> :=
    Mount([Param("blogId"), Lit("comments")], CommentRoutes) + [
      Route(Get, [Lit("published")], [], GetPublishedBlogs),
      Route(Get, [Lit("search")], [], SearchBlogs),
      Route(Get, [Lit("published"), Param("id")], [], GetPublishedBlogById),
      Route(Post, [], Staff, CreateBlog),
      Route(Put, [Param("id")], Staff, UpdateBlog),
      Route(Delete, [Param("id")], Staff, DeleteBlog),
      Route(Put, [Param("id"), Lit("publish")], Staff, TogglePublish)
    ]

  /** `profileRoutes.js`. */
  const ProfileRoutes: seq<Route> := [
    Route(Get, [], [Authenticate], GetProfile),
    Route(Get, [Param("userId")], [Authenticate], GetProfile),
    Route(Put, [], [Authenticate], UpdateProfile),
    Route(Put, [Param("userId")], [Authenticate], UpdateProfile),
    Route(Post, [Lit("upload")], [Authenticate, AvatarUpload], UploadProfileImage),
    Route(Post, [Param("userId"), Lit("upload")], [Authenticate, AvatarUpload], UploadProfileImage)
  ]

  /** The routers as the application mounts them. */
  const AppRoutes: seq<Route> :=
    Mount([Lit("api"), Lit("blogs")], BlogRoutes) + Mount([Lit("api"), Lit("profile")], ProfileRoutes)

  /** `router.use(prefix, sub)`: the sub-router's routes, in order, behind
      the prefix. The parameters of the prefix stay visible to the
      sub-router's handlers (`mergeParams: true`), which is what binding
      them in one flat pattern expresses. */
  function Mount(prefix: seq<Seg>, routes: seq<Route>): (r: seq<Route>)
    ensures |r| == |routes|
    ensures forall i :: 0 <= i < |r| ==> r[i] == routes[i].(path := prefix + routes[i].path)
  {
    seq(|routes|, i requires 0 <= i < |routes| => routes[i].(path := prefix + routes[i].path))
  }

  /* ---------------- matching ---------------- */

  /** The names the parameters of a pattern bind. */
  function ParamNames(pattern: seq<Seg>): set<string>
    decreases |pattern|
  {
    if pattern == [] then {}
    else (if pattern[0].Param? then {pattern[0].name} else {}) + ParamNames(pattern[1..])
  }

  /** One segment pattern accepts one path segment: a literal only itself,
      a parameter any non-empty segment. */
  predicate SegMatches(p: Seg, s: string)
  {
    match p
    case Lit(t) => s == t
    case Param(_) => s != ""
  }

  /** Match a path (already split into segments) against a pattern and
      collect the parameters it binds. */
  function MatchPath(pattern: seq<Seg>, path: seq<string>): (r: Option<map<string, string>>)
    ensures r.Some? <==> |pattern| == |path| && forall i :: 0 <= i < |path| ==> SegMatches(pattern[i], path[i])
    ensures r.Some? ==> r.value.Keys == ParamNames(pattern)
    decreases |pattern|
  {
    if |pattern| != |path| then None
    else if pattern == [] then Some(map[])
    else
      var rest := MatchPath(pattern[1..], path[1..]);
      if !SegMatches(pattern[0], path[0]) || rest.None? then None
      else
        match pattern[0]
        case Lit(_) => rest
        case Param(n) => Some(rest.value[n := path[0]])
  }

  /** The route accepts the request's method and path. */
  predicate Matches(r: Route, verb: Verb, path: seq<string>)
  {
    r.verb == verb && MatchPath(r.path, path).Some?
  }

  /** Express tries routes in registration order and runs the first one
      that matches. */
  function FindRoute(routes: seq<Route>, verb: Verb, path: seq<string>): (r: Option<nat>)
    ensures r.Some? ==> r.value < |routes| && Matches(routes[r.value], verb, path)
    ensures r.Some? ==> forall j :: 0 <= j < r.value ==> !Matches(routes[j], verb, path)
    ensures r.None? ==> forall j :: 0 <= j < |routes| ==> !Matches(routes[j], verb, path)
    decreases |routes|
  {
    if routes == [] then None
    else if Matches(routes[0], verb, path) then Some(0)
    else match FindRoute(routes[1..], verb, path)
      case None => None
      case Some(k) => Some(k + 1)
  }

  /** The concrete path a pattern describes for given parameter values. */
  function Fill(pattern: seq<Seg>, args: map<string, string>): (r: seq<string>)
    requires ParamNames(pattern) <= args.Keys
    ensures |r| == |pattern|
    decreases |pattern|
  {
    if pattern == [] then []
    else
      [match pattern[0] case Lit(t) => t case Param(n) => args[n]] + Fill(pattern[1..], args)
  }

  /** Filling a pattern with non-empty values gives a path it matches,
      binding each parameter to its value. */
  lemma {:induction false} MatchFill(pattern: seq<Seg>, args: map<string, string>)
    requires ParamNames(pattern) <= args.Keys
    requires forall n :: n in ParamNames(pattern) ==> args[n] != ""
    ensures MatchPath(pattern, Fill(pattern, args)).Some?
    ensures forall n :: n in ParamNames(pattern) ==> MatchPath(pattern, Fill(pattern, args)).value[n] == args[n]
    decreases |pattern|
  {
    if pattern != [] {
      MatchFill(pattern[1..], args);
      var path := Fill(pattern, args);
      assert path[1..] == Fill(pattern[1..], args);
    }
  }

  /** No parameter name occurs twice in the pattern. */
  predicate UniqueParams(pattern: seq<Seg>)
  {
    forall i, j :: 0 <= i < j < |pattern| && pattern[i].Param? && pattern[j].Param? ==> pattern[i].name != pattern[j].name
  }

  /** Conversely, a matched path is the pattern filled with the parameters
      the match bound, when no name is bound twice. */
  lemma {:induction false} FillMatch(pattern: seq<Seg>, path: seq<string>)
    requires MatchPath(pattern, path).Some? && UniqueParams(pattern)
    ensures Fill(pattern, MatchPath(pattern, path).value) == path
    decreases |pattern|
  {
    if pattern != [] {
      var m := MatchPath(pattern, path).value;
      var m' := MatchPath(pattern[1..], path[1..]).value;
      assert UniqueParams(pattern[1..]) by {
        forall i, j | 0 <= i < j < |pattern[1..]| && pattern[1..][i].Param? && pattern[1..][j].Param?
          ensures pattern[1..][i].name != pattern[1..][j].name
        {
          assert pattern[1..][i] == pattern[i + 1] && pattern[1..][j] == pattern[j + 1];
        }
      }
      FillMatch(pattern[1..], path[1..]);
      if pattern[0].Param? {
        var n := pattern[0].name;
        forall i | 0 <= i < |pattern[1..]|
          ensures pattern[1..][i] != Param(n)
        {
          assert pattern[1..][i] == pattern[i + 1];
        }
        NotBound(pattern[1..], n);
      }
      FillAgrees(pattern[1..], m', m);
      assert Fill(pattern, m) == [Fill(pattern, m)[0]] + Fill(pattern[1..], m);
    }
  }

  /** A name no segment binds is not among the pattern's parameters. */
  lemma {:induction false} NotBound(pattern: seq<Seg>, n: string)
    requires forall i :: 0 <= i < |pattern| ==> pattern[i] != Param(n)
    ensures n !in ParamNames(pattern)
    decreases |pattern|
  {
    if pattern != [] {
      NotBound(pattern[1..], n);
    }
  }

  /** Filling only reads the values of the pattern's own parameters; under
      a `Param(n)` head the rest of the pattern does not bind `n` again. */
  lemma {:induction false} FillAgrees(pattern: seq<Seg>, m1: map<string, string>, m2: map<string, string>)
    requires ParamNames(pattern) <= m1.Keys && ParamNames(pattern) <= m2.Keys
    requires forall n :: n in ParamNames(pattern) ==> m1[n] == m2[n]
    ensures Fill(pattern, m1) == Fill(pattern, m2)
    decreases |pattern|
  {
    if pattern != [] {
      FillAgrees(pattern[1..], m1, m2);
    }
  }

  /** Matching a path against a prefixed pattern is matching its first
      segments against the prefix and the rest against the remaining
      pattern; the bindings are those of both, and a name bound in both
      takes the value from the prefix. */
  lemma {:induction false} MatchPathAppend(prefix: seq<Seg>, p: seq<Seg>, q: seq<string>, rest: seq<string>)
    requires |q| == |prefix|
    ensures MatchPath(prefix + p, q + rest).Some? <==> MatchPath(prefix, q).Some? && MatchPath(p, rest).Some?
    ensures MatchPath(prefix + p, q + rest).Some? ==>
              MatchPath(prefix + p, q + rest).value == MatchPath(p, rest).value + MatchPath(prefix, q).value
    decreases |prefix|
  {
    if prefix == [] {
      assert prefix + p == p && q + rest == rest;
    } else {
      assert (prefix + p)[0] == prefix[0] && (prefix + p)[1..] == prefix[1..] + p;
      assert (q + rest)[0] == q[0] && (q + rest)[1..] == q[1..] + rest;
      MatchPathAppend(prefix[1..], p, q[1..], rest);
    }
  }

  /** Routing among mounted routes: a path that starts with segments the
      prefix matches is routed to the first mounted route whose own
      pattern matches the remaining segments; any other path to none. */
  lemma {:induction false} MountFind(prefix: seq<Seg>, routes: seq<Route>, verb: Verb, q: seq<string>, rest: seq<string>)
    requires |q| == |prefix|
    ensures FindRoute(Mount(prefix, routes), verb, q + rest)
            == if MatchPath(prefix, q).Some? then FindRoute(routes, verb, rest) else None
    decreases |routes|
  {
    if routes != [] {
      var m := Mount(prefix, routes);
      assert m[1..] == Mount(prefix, routes[1..]);
      MatchPathAppend(prefix, routes[0].path, q, rest);
      assert Matches(m[0], verb, q + rest) <==> MatchPath(prefix, q).Some? && Matches(routes[0], verb, rest);
      MountFind(prefix, routes[1..], verb, q, rest);
    }
  }

  /** No pattern of the application binds a name twice, so the order in
      which nested routers merge their parameters never matters. */
  lemma AppRoutesUniqueParams()
    ensures forall i :: 0 <= i < |AppRoutes| ==> UniqueParams(AppRoutes[i].path)
  {
    forall i | 0 <= i < |AppRoutes|
      ensures UniqueParams(AppRoutes[i].path)
    {
      var path := AppRoutes[i].path;
      if i < 3 {
        assert path == [Lit("api"), Lit("blogs"), Param("blogId"), Lit("comments")] + CommentRoutes[i].path;
      } else if i < |BlogRoutes| {
        assert path == [Lit("api"), Lit("blogs")] + BlogRoutes[i].path;
      } else {
        assert path == [Lit("api"), Lit("profile")] + ProfileRoutes[i - |BlogRoutes|].path;
      }
    }
  }

  /* ---------------- the policy the tables encode ---------------- */

  /** The handlers that write the blog collection. */
  predicate WritesBlogs(h: Handler)
  {
    h == CreateBlog || h == UpdateBlog || h == DeleteBlog || h == TogglePublish
  }

  /** The handlers that only read published posts or comments. */
  predicate PublicRead(h: Handler)
  {
    h == GetPublishedBlogs || h == SearchBlogs || h == GetPublishedBlogById || h == GetComments
  }

  /** The profile handlers. */
  predicate OnProfiles(h: Handler)
  {
    h == GetProfile || h == UpdateProfile || h == UploadProfileImage
  }

  /** Every route that writes a post runs `verifyToken` and then
      `authorizeRoles('author', 'admin')`; the public reads run no guard. */
  lemma BlogPolicy()
    ensures forall i :: 0 <= i < |AppRoutes| && WritesBlogs(AppRoutes[i].handler) ==> AppRoutes[i].guards == Staff
    ensures forall i :: 0 <= i < |AppRoutes| && PublicRead(AppRoutes[i].handler) ==> AppRoutes[i].guards == []
  {
  }

  /** Creating and deleting comments need a valid token but no role;
      listing them needs nothing; every profile route needs a valid token and
      none checks a role, and the upload routes store the file right after
      the token check. */
  lemma CommentAndProfilePolicy()
    ensures forall i :: 0 <= i < |AppRoutes| && (AppRoutes[i].handler == CreateComment || AppRoutes[i].handler == DeleteComment) ==>
              AppRoutes[i].guards == [Authenticate]
    ensures forall i :: 0 <= i < |AppRoutes| && (AppRoutes[i].handler == GetProfile || AppRoutes[i].handler == UpdateProfile) ==>
              AppRoutes[i].guards == [Authenticate]
    ensures forall i :: 0 <= i < |AppRoutes| && AppRoutes[i].handler == UploadProfileImage ==>
              AppRoutes[i].guards == [Authenticate, AvatarUpload]
  {
  }

  /** `PUT /api/blogs/<id>/publish` reaches the toggle, binding `id`: the
      comment routes mounted before it do not capture it. */
  lemma PublishRoute(id: string)
    requires id != ""
    ensures var k := FindRoute(AppRoutes, Put, ["api", "blogs", id, "publish"]);
            && k.Some? && AppRoutes[k.value].handler == TogglePublish
            && MatchPath(AppRoutes[k.value].path, ["api", "blogs", id, "publish"]) == Some(map["id" := id])
  {
    var path := ["api", "blogs", id, "publish"];
    var pattern := [Lit("api"), Lit("blogs"), Param("id"), Lit("publish")];
    assert AppRoutes[9] == Route(Put, pattern, Staff, TogglePublish);
    assert MatchPath(pattern[3..], path[3..]) == Some(map[]);
    assert MatchPath(pattern[2..], path[2..]) == Some(map["id" := id]);
    assert MatchPath(pattern, path) == Some(map["id" := id]);
    forall j | 0 <= j < 9
      ensures !Matches(AppRoutes[j], Put, path)
    {
    }
  }

  /** `DELETE /api/blogs/<blogId>/comments/<id>` reaches the comment
      deletion, not the deletion of the post, binding both parameters. */
  lemma DeleteCommentRoute(blogId: string, id: string)
    requires blogId != "" && id != ""
    ensures var path := ["api", "blogs", blogId, "comments", id];
            var k := FindRoute(AppRoutes, Delete, path);
            && k.Some? && AppRoutes[k.value].handler == DeleteComment
            && MatchPath(AppRoutes[k.value].path, path).value == map["blogId" := blogId, "id" := id]
  {
    var path := ["api", "blogs", blogId, "comments", id];
    var pattern := [Lit("api"), Lit("blogs"), Param("blogId"), Lit("comments"), Param("id")];
    assert AppRoutes[2] == Route(Delete, pattern, [Authenticate], DeleteComment);
    assert MatchPath(pattern[4..], path[4..]) == Some(map["id" := id]);
    assert MatchPath(pattern[3..], path[3..]) == Some(map["id" := id]);
    assert MatchPath(pattern[2..], path[2..]) == Some(map["id" := id][ "blogId" := blogId]);
    assert MatchPath(pattern, path) == Some(map["id" := id]["blogId" := blogId]);
    assert map["id" := id]["blogId" := blogId] == map["blogId" := blogId, "id" := id];
  }

  /** A `user`-role account, or a token whose account is gone, is stopped
      by the staff chain with 403; a bad token with 401. */
  lemma StaffChainRefuses(users: UserStore, req: Request, env: Env)
    ensures var gate := VerifyToken(req.authorization, env.decode, env.nowMs, users);
            var pass := RunGuards(Staff, users, req, env, None, NoFile);
            && (gate.Reject? ==> pass == Halted(Unauthorized, NoFile))
            && (gate.Proceed? && (gate.user.None? || gate.user.value.role == UserRole) ==> pass == Halted(Forbidden, NoFile))
            && (pass.Passed? <==> gate.Proceed? && gate.user.Some? && gate.user.value.role != UserRole)
  {
    StaffChain(users, req, env);
  }

  /** On the upload routes the file is stored before the controller checks
      access: a signed-in user sending an acceptable image for somebody
      else's profile gets 403, yet the upload step has already stored it. */
  lemma UploadStoredBeforeAccessCheck(users: UserStore, profiles: PC.ProfileStore, req: Request, env: Env,
                                      c: Caller, target: string)
    requires VerifyToken(req.authorization, env.decode, env.nowMs, users) == Proceed(Some(c))
    requires AvatarStep(req, env).Stored?
    requires target != "" && !PC.MayAccess(c, target)
    ensures var pass := RunGuards([Authenticate, AvatarUpload], users, req, env, None, NoFile);
            && pass == Passed(Some(c), AvatarStep(req, env))
            && PC.UploadProfileImage(profiles, Some(c), Some(target), Some(pass.upload.filename)) == (profiles, Forbidden)
  {
    UploadChain(users, req, env);
    var stored := AvatarStep(req, env);
    assert RunGuards([Authenticate, AvatarUpload], users, req, env, None, NoFile) == Passed(Some(c), stored);
    ForbiddenUpload(profiles, c, target, stored.filename);
  }

  lemma ForbiddenUpload(profiles: PC.ProfileStore, c: Caller, target: string, filename: string)
    requires target != "" && !PC.MayAccess(c, target)
    ensures PC.UploadProfileImage(profiles, Some(c), Some(target), Some(filename)) == (profiles, Forbidden)
  {
    assert OrElse(Some(target), c.id) == target;
  }

  /** The chain `verifyToken, upload.single('avatar')` step by step. */
  lemma UploadChain(users: UserStore, req: Request, env: Env)
    ensures RunGuards([Authenticate, AvatarUpload], users, req, env, None, NoFile)
            == match VerifyToken(req.authorization, env.decode, env.nowMs, users)
               case Reject(st) => Halted(st, NoFile)
               case Proceed(u) => if AvatarStep(req, env).UploadError? then Halted(ServerError, AvatarStep(req, env))
                                  else Passed(u, AvatarStep(req, env))
  {
    var gate := VerifyToken(req.authorization, env.decode, env.nowMs, users);
    assert [Authenticate, AvatarUpload][1..] == [AvatarUpload] && [AvatarUpload][1..] == [];
    if gate.Proceed? {
      assert RunGuards([Authenticate, AvatarUpload], users, req, env, None, NoFile)
             == RunGuards([AvatarUpload], users, req, env, gate.user, NoFile);
    }
  }

  /** The chain `verifyToken, authorizeRoles('author', 'admin')` step by
      step. */
  lemma StaffChain(users: UserStore, req: Request, env: Env)
    ensures RunGuards(Staff, users, req, env, None, NoFile)
            == match VerifyToken(req.authorization, env.decode, env.nowMs, users)
               case Reject(st) => Halted(st, NoFile)
               case Proceed(u) => if AuthorizeRoles([AuthorRole, AdminRole], u) then Passed(u, NoFile)
                                  else Halted(Forbidden, NoFile)
  {
    var gate := VerifyToken(req.authorization, env.decode, env.nowMs, users);
    assert Staff[1..] == [RequireRoles([AuthorRole, AdminRole])] && Staff[1..][1..] == [];
    if gate.Proceed? {
      assert RunGuards(Staff, users, req, env, None, NoFile)
             == RunGuards(Staff[1..], users, req, env, gate.user, NoFile);
    }
  }

  /** Every route runs one of four guard chains, always starting with
      `verifyToken` when it has any guard at all. */
  lemma GuardChains()
    ensures forall i :: 0 <= i < |AppRoutes| ==>
              AppRoutes[i].guards in {[], [Authenticate], Staff, [Authenticate, AvatarUpload]}
  {
  }

  /** The route parameters each controller reads. */
  function Needs(h: Handler): set<string>
  {
    match h
    case CreateComment => {"blogId"}
    case GetComments => {"blogId"}
    case DeleteComment => {"id"}
    case GetPublishedBlogById => {"id"}
    case UpdateBlog => {"id"}
    case DeleteBlog => {"id"}
    case TogglePublish => {"id"}
    case _ => {}
  }

  /** Every route binds the parameters its controller reads; the nested
      comment routes see the parent router's `blogId`. */
  lemma RoutesBindTheirParameters()
    ensures forall i :: 0 <= i < |AppRoutes| ==> Needs(AppRoutes[i].handler) <= ParamNames(AppRoutes[i].path)
  {
    var blogsAt := [Lit("api"), Lit("blogs")];
    forall i | 0 <= i < |AppRoutes|
      ensures Needs(AppRoutes[i].handler) <= ParamNames(AppRoutes[i].path)
    {
      if i < |BlogRoutes| {
        assert AppRoutes[i] == BlogRoutes[i].(path := blogsAt + BlogRoutes[i].path);
        ParamNamesAppend(blogsAt, BlogRoutes[i].path);
        BlogRoutesBind(i);
      } else {
        assert AppRoutes[i].handler == ProfileRoutes[i - |BlogRoutes|].handler;
      }
    }
  }

  /** Within the blog router, each route binds what its controller reads,
      counting the `blogId` of the comment router's mount point. */
  lemma BlogRoutesBind(i: nat)
    requires i < |BlogRoutes|
    ensures Needs(BlogRoutes[i].handler) <= ParamNames(BlogRoutes[i].path)
  {
    var commentsAt := [Param("blogId"), Lit("comments")];
    if i < |CommentRoutes| {
      assert BlogRoutes[i] == CommentRoutes[i].(path := commentsAt + CommentRoutes[i].path);
      ParamNamesAppend(commentsAt, CommentRoutes[i].path);
      assert "blogId" in ParamNames(commentsAt);
    }
  }

  lemma {:induction false} ParamNamesAppend(a: seq<Seg>, b: seq<Seg>)
    ensures ParamNames(a + b) == ParamNames(a) + ParamNames(b)
    decreases |a|
  {
    if a == [] {
      assert a + b == b;
    } else {
      assert (a + b)[0] == a[0] && (a + b)[1..] == a[1..] + b;
      ParamNamesAppend(a[1..], b);
    }
  }

  /* ---------------- the request pipeline ---------------- */

  /** The JSON body fields the controllers read. */
  datatype Body = Body(title: Option<string>, content: Option<string>, author: Option<Id>,
                       tags: Option<seq<string>>, isPublished: Option<bool>, parent: Option<string>,
                       userId: Option<string>, profile: PC.ProfileFields)

  /** A request: method, path split into segments, `Authorization` header,
      body, search query string and the uploaded file part, if any. */
  datatype Request = Request(verb: Verb, path: seq<string>, authorization: Option<string>, body: Body,
                             query: BC.SearchQuery, file: Option<UploadedFile>)

  /** What the outside world supplies: the clock, the token signature
      check, the id the database assigns next, the random file-name suffix,
      whether a mail went out, and the keyword matcher of the search. */
  datatype Env = Env(nowMs: nat, decode: string -> Option<Claims>, newId: Id, rand: RandomSuffix,
                     mailed: bool, matches: (string, string) -> bool)

  /** The collections and the upload directory. */
  datatype Db = Db(users: UserStore, blogs: BC.BlogStore, comments: Store, profiles: PC.ProfileStore,
                   files: set<string>)

  /** The status and the documents a response carries. */
  datatype Reply = Reply(status: Status, blogs: seq<BC.Blog>, comments: seq<Id>, profile: Option<PC.Profile>)

  function Answer(st: Status): Reply
  {
    Reply(st, [], [], None)
  }

  /** What the guard chain leaves: the request stopped with a status, or
      let through to the controller with `req.user`; either way, what the
      upload step did so far. */
  datatype Passage = Halted(status: Status, upload: UploadResult) | Passed(user: Option<Caller>, upload: UploadResult)

  /** The user `verifyToken` sets for this request, if it lets it through
      and the token's user still exists. */
  function SignedIn(users: UserStore, req: Request, env: Env): Option<Caller>
  {
    match VerifyToken(req.authorization, env.decode, env.nowMs, users)
    case Reject(_) => None
    case Proceed(u) => u
  }

  /** What `upload.single('avatar')` does with the request's file. */
  function AvatarStep(req: Request, env: Env): UploadResult
  {
    Single("avatar", req.file, env.nowMs, env.rand)
  }

  /** Run the guards in order: `verifyToken` sets the user or answers 401,
      `authorizeRoles` answers 403 unless the current user has an allowed
      role, and the upload step stores an accepted file or fails with 500. */
  function RunGuards(guards: seq<Guard>, users: UserStore, req: Request, env: Env,
                     user: Option<Caller>, upload: UploadResult): (r: Passage)
    ensures r.Halted? ==> r.status in {Unauthorized, Forbidden, ServerError}
    ensures r.Passed? && Authenticate in guards ==>
              VerifyToken(req.authorization, env.decode, env.nowMs, users).Proceed?
              && r.user == SignedIn(users, req, env)
    ensures r.Passed? && Authenticate !in guards ==> r.user == user
    ensures r.Passed? ==> forall i :: 0 <= i < |guards| && guards[i].RequireRoles? && Authenticate !in guards[i + 1..] ==>
              AuthorizeRoles(guards[i].allowed, r.user)
    ensures AvatarUpload !in guards ==> r.upload == upload
    ensures AvatarUpload in guards && r.Passed? ==> r.upload == AvatarStep(req, env)
                                                    && !r.upload.UploadError?
    decreases |guards|
  {
    if guards == [] then Passed(user, upload)
    else
      var rest := guards[1..];
      assert guards == [guards[0]] + rest;
      match guards[0]
      case Authenticate =>
        (match VerifyToken(req.authorization, env.decode, env.nowMs, users)
         case Reject(st) => Halted(st, upload)
         case Proceed(u) => RunGuards(rest, users, req, env, u, upload))
      case RequireRoles(allowed) =>
        if AuthorizeRoles(allowed, user) then RunGuards(rest, users, req, env, user, upload)
        else Halted(Forbidden, upload)
      case AvatarUpload =>
        var up := AvatarStep(req, env);
        if up.UploadError? then Halted(ServerError, up)
        else RunGuards(rest, users, req, env, user, up)
  }

  /** An entry was added, removed or replaced. */
  ghost predicate Changed<V>(before: map<Id, V>, after: map<Id, V>, k: Id)
  {
    (k in before) != (k in after) || (k in before && k in after && before[k] != after[k])
  }

  /** Every post that changed was one `user` may edit, and every new post
      is theirs. */
  ghost predicate BlogsBacked(before: BC.BlogStore, after: BC.BlogStore, user: Option<Caller>)
  {
    forall id :: Changed(before, after, id) ==>
      && user.Some?
      && (id in before ==> BC.MayEdit(user.value, before[id]))
      && (id !in before ==> id in after && after[id].author == user.value.id)
  }

  /** No stored comment is edited; a new comment is `user`'s; a comment
      disappears only within a thread whose root `user` wrote, or at an
      admin's request. */
  ghost predicate CommentsBacked(before: Store, after: Store, user: Option<Caller>)
  {
    && (forall x :: x in before && x in after ==> after[x] == before[x])
    && (forall x :: x in after && x !in before ==> user.Some? && after[x].author == user.value.id)
    && (forall x :: x in before && x !in after ==>
          user.Some? && (IsAdmin(user.value) || exists a :: Below(before, x, a) && a in before && before[a].author == user.value.id))
  }

  /** Every profile that changed belongs to `user`, or `user` is an admin. */
  ghost predicate ProfilesBacked(before: PC.ProfileStore, after: PC.ProfileStore, user: Option<Caller>)
  {
    forall u :: Changed(before, after, u) ==> user.Some? && PC.MayAccess(user.value, u)
  }

  /** An optional route parameter (`req.params.userId`). */
  function Arg(params: map<string, string>, name: string): Option<string>
  {
    if name in params then Some(params[name]) else None
  }

  /** A route parameter the matched path bound (`""` when unbound; the
      routes bind every parameter their controller reads). */
  function Bound(params: map<string, string>, name: string): string
  {
    if name in params then params[name] else ""
  }

  /** The comment handlers. */
  predicate OnComments(h: Handler)
  {
    h == CreateComment || h == GetComments || h == DeleteComment
  }

  /** `ids` names stored posts, newest first. */
  ghost predicate NewestFirst(blogs: BC.BlogStore, ids: seq<Id>)
  {
    && (forall i :: 0 <= i < |ids| ==> ids[i] in blogs)
    && (forall i, j :: 0 <= i < j < |ids| ==> blogs[ids[i]].createdAt >= blogs[ids[j]].createdAt)
  }

  /** `ids` names every published post once, newest first: what
      `find({ isPublished: true }).sort({ createdAt: -1 })` returns. */
  ghost predicate PublishedListing(blogs: BC.BlogStore, ids: seq<Id>)
  {
    && NewestFirst(blogs, ids)
    && forall id :: multiset(ids)[id] == (if id in blogs && blogs[id].isPublished then 1 else 0)
  }

  /** `ids` names every post the search filter selects once, newest first. */
  ghost predicate SearchListing(blogs: BC.BlogStore, q: BC.SearchQuery, matches: (string, string) -> bool,
                                ids: seq<Id>)
  {
    && NewestFirst(blogs, ids)
    && forall id :: multiset(ids)[id] == (if id in blogs && BC.SearchMatch(q, matches, blogs[id]) then 1 else 0)
  }

  /** `ids` names the comments of the blog, each once, oldest first. */
  ghost predicate OldestFirstOf(s: Store, blogId: Id, ids: seq<Id>)
  {
    && (forall i :: 0 <= i < |ids| ==> ids[i] in s)
    && (forall id :: multiset(ids)[id] == (if id in s && s[id].blog == blogId then 1 else 0))
    && (forall i, j :: 0 <= i < j < |ids| ==> s[ids[i]].createdAt <= s[ids[j]].createdAt)
  }

  /** What `deleteComment` answers and leaves: 404 for a missing comment,
      500 without a caller, 403 for a stranger, each changing nothing;
      otherwise 200 with exactly the comment's thread removed. */
  ghost predicate DeleteOutcome(s: Store, id: Id, user: Option<Caller>, t: Store, st: Status)
  {
    if id !in s then st == NotFound && t == s
    else if user.None? then st == ServerError && t == s
    else if !IsAdmin(user.value) && s[id].author != user.value.id then st == Forbidden && t == s
    else st == Ok && t.Keys == s.Keys - Subtree(s, id) && forall x :: x in t ==> t[x] == s[x]
  }

  /** What the comment controller `h` answers and leaves. */
  ghost predicate CommentsOutcome(h: Handler, s: Store, params: map<string, string>, body: Body, env: Env,
                                  user: Option<Caller>, t: Store, reply: Reply)
    requires OnComments(h)
  {
    match h
    case CreateComment =>
      && env.newId !in s
      && var (t', st) := CC.CreateComment(s, Bound(params, "blogId"), user, body.content, body.parent,
                                          env.newId, env.nowMs, env.mailed);
         t == t' && reply == Answer(st)
    case GetComments =>
      t == s && reply == Reply(Ok, [], reply.comments, None) && OldestFirstOf(s, Bound(params, "blogId"), reply.comments)
    case DeleteComment =>
      reply == Answer(reply.status) && DeleteOutcome(s, Bound(params, "id"), user, t, reply.status)
  }

  /** What the blog controller `h` answers and leaves. */
  ghost predicate BlogsOutcome(h: Handler, blogs: BC.BlogStore, params: map<string, string>, body: Body,
                               query: BC.SearchQuery, env: Env, user: Option<Caller>, t: BC.BlogStore, reply: Reply)
    requires !OnComments(h) && !OnProfiles(h)
  {
    var id := Bound(params, "id");
    match h
    case GetPublishedBlogs =>
      t == blogs && exists ids :: PublishedListing(blogs, ids) && reply == Reply(Ok, Documents(blogs, ids), [], None)
    case SearchBlogs =>
      t == blogs && exists ids :: SearchListing(blogs, query, env.matches, ids)
                                 && reply == Reply(Ok, Documents(blogs, ids), [], None)
    case GetPublishedBlogById =>
      var (st, found) := BC.GetPublishedBlogById(blogs, id);
      t == blogs && reply == Reply(st, if found.Some? then [found.value] else [], [], None)
    case CreateBlog =>
      && env.newId !in blogs
      && var (t', st) := BC.CreateBlog(blogs, user, BC.BlogInput(body.title, body.content, body.tags, body.isPublished),
                                       env.newId, env.nowMs);
         t == t' && reply == Answer(st)
    case UpdateBlog =>
      var (t', st) := BC.UpdateBlog(blogs, id, user, BC.BlogPatch(body.title, body.content, body.author, body.tags,
                                                                  body.isPublished));
      t == t' && reply == Answer(st)
    case DeleteBlog =>
      var (t', st) := BC.DeleteBlog(blogs, id, user);
      t == t' && reply == Answer(st)
    case TogglePublish =>
      var (t', st) := BC.TogglePublish(blogs, id, user);
      t == t' && reply == Answer(st)
  }

  /** What the controller `h` answers and leaves of the whole database:
      it runs on its own collection and leaves every other one, the users
      and the upload directory as they were. */
  ghost predicate ControllerOutcome(h: Handler, db: Db, req: Request, env: Env, params: map<string, string>,
                                    user: Option<Caller>, stored: Option<string>, after: Db, reply: Reply)
  {
    if OnComments(h) then
      after == db.(comments := after.comments)
      && CommentsOutcome(h, db.comments, params, req.body, env, user, after.comments, reply)
    else if OnProfiles(h) then
      after == db.(profiles := after.profiles)
      && (after.profiles, reply) == HandleProfiles(h, db.profiles, db.users, params, req.body, user, stored)
    else
      after == db.(blogs := after.blogs)
      && BlogsOutcome(h, db.blogs, params, req.body, req.query, env, user, after.blogs, reply)
  }

  /** A controller leaves an acyclic reply structure acyclic: a comment
      controller adds one reply to a stored comment or removes whole
      threads, and the other controllers leave the comments alone. */
  lemma OutcomeKeepsAcyclic(h: Handler, db: Db, req: Request, env: Env,
                             params: map<string, string>, user: Option<Caller>,
                             stored: Option<string>, after: Db, reply: Reply)
    requires Acyclic(db.comments)
    requires FreshId(db, req, env.newId)
    requires ControllerOutcome(h, db, req, env, params, user, stored, after, reply)
    ensures Acyclic(after.comments)
  {
    var s, t := db.comments, after.comments;
    if h == CreateComment && t != s {
      assert t == s[env.newId := t[env.newId]];
      InsertKeepsAcyclic(s, env.newId, t[env.newId]);
    } else if h == DeleteComment {
      var rank :| RankedBy(s, rank);
      assert RankedBy(t, rank);
    }
  }

  /** The comment controllers. */
  method HandleComments(h: Handler, s: Store, params: map<string, string>, body: Body, env: Env,
                        user: Option<Caller>) returns (t: Store, reply: Reply)
    requires h == CreateComment || h == GetComments || h == DeleteComment
    requires Needs(h) <= params.Keys
    requires Acyclic(s)
    requires env.newId !in s && body.parent != Some(env.newId)
    requires forall x :: x in s ==> s[x].parent != Some(env.newId)
    ensures Acyclic(t)
    ensures CommentsBacked(s, t, user)
    ensures CommentsOutcome(h, s, params, body, env, user, t, reply)
    ensures reply.blogs == [] && reply.profile.None?
    ensures reply.status != Unauthorized
    ensures reply.status == Forbidden ==> t == s
  {
    match h
    case CreateComment =>
      var (t', st) := CC.CreateComment(s, params["blogId"], user, body.content, body.parent, env.newId,
                                       env.nowMs, env.mailed);
      if t' != s {
        assert t' == s[env.newId := t'[env.newId]];
        InsertKeepsAcyclic(s, env.newId, t'[env.newId]);
      }
      return t', Answer(st);
    case GetComments =>
      var ids := CC.GetComments(s, params["blogId"]);
      return s, Reply(Ok, [], ids, None);
    case DeleteComment =>
      AcyclicNotOwnAncestor(s, params["id"]);
      var t', st := CC.DeleteComment(s, params["id"], user);
      forall x | x in s && x !in t'
        ensures IsAdmin(user.value) || exists a :: Below(s, x, a) && a in s && s[a].author == user.value.id
      {
        assert x in Subtree(s, params["id"]);
      }
      return t', Answer(st);
  }

  /** The blog controllers. */
  method HandleBlogs(h: Handler, blogs: BC.BlogStore, params: map<string, string>, body: Body,
                     query: BC.SearchQuery, env: Env, user: Option<Caller>) returns (t: BC.BlogStore, reply: Reply)
    requires WritesBlogs(h) || h == GetPublishedBlogs || h == SearchBlogs || h == GetPublishedBlogById
    requires Needs(h) <= params.Keys
    requires env.newId !in blogs
    ensures !WritesBlogs(h) ==> t == blogs
    ensures BlogsBacked(blogs, t, user)
    ensures forall b :: b in reply.blogs ==> b.isPublished
    ensures BlogsOutcome(h, blogs, params, body, query, env, user, t, reply)
    ensures reply.comments == [] && reply.profile.None?
    ensures reply.status != Unauthorized
    ensures reply.status == Forbidden ==> t == blogs
  {
    match h
    case GetPublishedBlogs =>
      var ids := BC.GetPublishedBlogs(blogs);
      assert PublishedListing(blogs, ids);
      return blogs, Reply(Ok, Documents(blogs, ids), [], None);
    case SearchBlogs =>
      var ids := BC.SearchBlogs(blogs, query, env.matches);
      assert SearchListing(blogs, query, env.matches, ids);
      return blogs, Reply(Ok, Documents(blogs, ids), [], None);
    case GetPublishedBlogById =>
      var (st, found) := BC.GetPublishedBlogById(blogs, params["id"]);
      return blogs, Reply(st, if found.Some? then [found.value] else [], [], None);
    case CreateBlog =>
      var input := BC.BlogInput(body.title, body.content, body.tags, body.isPublished);
      var (t', st) := BC.CreateBlog(blogs, user, input, env.newId, env.nowMs);
      return t', Answer(st);
    case UpdateBlog =>
      var patch := BC.BlogPatch(body.title, body.content, body.author, body.tags, body.isPublished);
      var (t', st) := BC.UpdateBlog(blogs, params["id"], user, patch);
      return t', Answer(st);
    case DeleteBlog =>
      var (t', st) := BC.DeleteBlog(blogs, params["id"], user);
      return t', Answer(st);
    case TogglePublish =>
      var (t', st) := BC.TogglePublish(blogs, params["id"], user);
      return t', Answer(st);
  }

  /** The documents behind a list of ids, in the same order. */
  function Documents(blogs: BC.BlogStore, ids: seq<Id>): (r: seq<BC.Blog>)
    requires forall i :: 0 <= i < |ids| ==> ids[i] in blogs
    ensures |r| == |ids| && forall i :: 0 <= i < |ids| ==> r[i] == blogs[ids[i]]
  {
    seq(|ids|, i requires 0 <= i < |ids| => blogs[ids[i]])
  }

  /** The profile controllers, with the name under which the upload step
      stored the file. */
  function HandleProfiles(h: Handler, profiles: PC.ProfileStore, users: UserStore, params: map<string, string>,
                          body: Body, user: Option<Caller>, stored: Option<string>): (r: (PC.ProfileStore, Reply))
    requires OnProfiles(h)
    ensures ProfilesBacked(profiles, r.0, user)
    ensures h == GetProfile ==> r.0 == profiles
    ensures r.1.blogs == [] && r.1.comments == []
    ensures r.1.status != Unauthorized
    ensures r.1.status == Forbidden ==> r.0 == profiles
  {
    match h
    case GetProfile =>
      var (st, p) := PC.GetProfile(profiles, users, user, Arg(params, "userId"));
      (profiles, Reply(st, [], [], p))
    case UpdateProfile =>
      var (t, st) := PC.UpdateProfile(profiles, user, Arg(params, "userId"), body.userId, body.profile);
      (t, Answer(st))
    case UploadProfileImage =>
      var (t, st) := PC.UploadProfileImage(profiles, user, Arg(params, "userId"), stored);
      (t, Answer(st))
  }

  /** The id the database assigns next is unused, and no stored comment, nor
      the request, refers to it already. */
  ghost predicate FreshId(db: Db, req: Request, id: Id)
  {
    && id !in db.comments && id !in db.blogs && req.body.parent != Some(id)
    && forall x :: x in db.comments ==> db.comments[x].parent != Some(id)
  }

  /** A post changed only at the request of a signed-in author or admin. */
  ghost predicate StaffOnly(before: BC.BlogStore, after: BC.BlogStore, user: Option<Caller>)
  {
    before != after ==> user.Some? && (user.value.role == AuthorRole || user.value.role == AdminRole)
  }

  /** Every file added to the upload directory is the one the upload step
      made of the request's file, behind a valid token. */
  ghost predicate FilesBacked(db: Db, after: Db, req: Request, env: Env)
  {
    && db.files <= after.files
    && forall f :: f in after.files && f !in db.files ==>
         VerifyToken(req.authorization, env.decode, env.nowMs, db.users).Proceed?
         && AvatarStep(req, env) == Stored(f)
  }

  /** A request to the blog, comment and profile routes: the first
      matching route (404 when none), its guards, then its controller.
      Whatever the request, no account changes, the reply structure stays acyclic, only published
      posts are answered, and every write is backed by the signed-in user:
      posts change only for a signed-in author or admin who wrote them or is
      an admin, comments disappear only within a thread the signed-in user
      started or at an admin's request, profiles change only for their
      owner or an admin. A request turned away with 401 changes nothing; one
      refused with 403 changes nothing but, on the upload routes, the upload
      directory, because the file is stored before the controller checks
      access. */
  method Dispatch(db: Db, req: Request, env: Env) returns (after: Db, reply: Reply)
    requires Acyclic(db.comments)
    requires FreshId(db, req, env.newId)
    ensures FindRoute(AppRoutes, req.verb, req.path).None? ==> after == db && reply == Answer(NotFound)
    ensures after.users == db.users
    ensures Acyclic(after.comments)
    ensures forall b :: b in reply.blogs ==> b.isPublished
    ensures StaffOnly(db.blogs, after.blogs, SignedIn(db.users, req, env))
    ensures BlogsBacked(db.blogs, after.blogs, SignedIn(db.users, req, env))
    ensures CommentsBacked(db.comments, after.comments, SignedIn(db.users, req, env))
    ensures ProfilesBacked(db.profiles, after.profiles, SignedIn(db.users, req, env))
    ensures FilesBacked(db, after, req, env)
    ensures reply.status == Unauthorized ==> after == db
    ensures reply.status == Forbidden ==> after.(files := db.files) == db
    ensures FindRoute(AppRoutes, req.verb, req.path).Some? ==>
              var route := AppRoutes[FindRoute(AppRoutes, req.verb, req.path).value];
              var params := MatchPath(route.path, req.path).value;
              var pass := RunGuards(route.guards, db.users, req, env, None, NoFile);
              && (pass.Halted? ==> after == db && reply == Answer(pass.status))
              && (pass.Passed? ==> ControllerOutcome(route.handler, db.(files := Received(db.files, pass.upload)), req,
                                                     env, params, pass.user, StoredName(pass.upload), after, reply))
  {
    match FindRoute(AppRoutes, req.verb, req.path)
    case None =>
      return db, Answer(NotFound);
    case Some(i) =>
      var route := AppRoutes[i];
      var params := MatchPath(route.path, req.path).value;
      RoutesBindTheirParameters();
      BlogPolicy();
      GuardChains();
      assert Chain(route.guards) && (WritesBlogs(route.handler) ==> route.guards == Staff);
      after, reply := Serve(db, req, env, route, params);
      var pass := RunGuards(route.guards, db.users, req, env, None, NoFile);
      if pass.Passed? {
        OutcomeKeepsAcyclic(route.handler, db.(files := Received(db.files, pass.upload)), req, env, params,
                            pass.user, StoredName(pass.upload), after, reply);
      }
  }

  /** The guard chains the tables use. */
  predicate Chain(guards: seq<Guard>)
  {
    guards == [] || guards == [Authenticate] || guards == Staff || guards == [Authenticate, AvatarUpload]
  }

  /** What the guard chains of the tables guarantee when they let a request
      through: a user is the signed-in one, the staff chain admits authors
      and admins only, and a stored file went through the upload step of a
      signed-in request. */
  lemma ChainOutcome(guards: seq<Guard>, users: UserStore, req: Request, env: Env)
    requires Chain(guards)
    ensures var pass := RunGuards(guards, users, req, env, None, NoFile);
            && (pass.Passed? && pass.user.Some? ==> pass.user == SignedIn(users, req, env))
            && (pass.Passed? && guards == Staff ==>
                  pass.user.Some? && (pass.user.value.role == AuthorRole || pass.user.value.role == AdminRole))
            && (pass.upload.Stored? ==> pass.Passed? && VerifyToken(req.authorization, env.decode, env.nowMs, users).Proceed?
                                        && AvatarStep(req, env) == pass.upload)
  {
    if guards == Staff {
      StaffChain(users, req, env);
    } else if guards == [Authenticate, AvatarUpload] {
      UploadChain(users, req, env);
    } else if guards == [Authenticate] {
      assert guards[1..] == [];
    }
  }

  /** One matched route: its guards, then its controller. */
  method Serve(db: Db, req: Request, env: Env, route: Route, params: map<string, string>)
    returns (after: Db, reply: Reply)
    requires Chain(route.guards) && (WritesBlogs(route.handler) ==> route.guards == Staff)
    requires Needs(route.handler) <= params.Keys
    requires Acyclic(db.comments)
    requires FreshId(db, req, env.newId)
    ensures after.users == db.users
    ensures forall b :: b in reply.blogs ==> b.isPublished
    ensures StaffOnly(db.blogs, after.blogs, SignedIn(db.users, req, env))
    ensures BlogsBacked(db.blogs, after.blogs, SignedIn(db.users, req, env))
    ensures CommentsBacked(db.comments, after.comments, SignedIn(db.users, req, env))
    ensures ProfilesBacked(db.profiles, after.profiles, SignedIn(db.users, req, env))
    ensures FilesBacked(db, after, req, env)
    ensures reply.status == Unauthorized ==> after == db
    ensures reply.status == Forbidden ==> after.(files := db.files) == db
    ensures var pass := RunGuards(route.guards, db.users, req, env, None, NoFile);
            && (pass.Halted? ==> after == db && reply == Answer(pass.status))
            && (pass.Passed? ==> ControllerOutcome(route.handler, db.(files := Received(db.files, pass.upload)), req,
                                                   env, params, pass.user, StoredName(pass.upload), after, reply))
  {
    var pass := RunGuards(route.guards, db.users, req, env, None, NoFile);
    ChainOutcome(route.guards, db.users, req, env);
    if pass.Halted? {
      NothingChanged(db, req, env);
      return db, Answer(pass.status);
    }
    after, reply := Admitted(db, req, env, route.handler, params, pass.user, pass.upload);
  }

  /** A request the guards let through: the file the upload step stored
      joins the upload directory, then the controller runs for `req.user`. */
  method Admitted(db: Db, req: Request, env: Env, h: Handler, params: map<string, string>,
                  user: Option<Caller>, upload: UploadResult) returns (after: Db, reply: Reply)
    requires Needs(h) <= params.Keys
    requires Acyclic(db.comments)
    requires FreshId(db, req, env.newId)
    requires user.Some? ==> user == SignedIn(db.users, req, env)
    requires WritesBlogs(h) ==> user.Some? && (user.value.role == AuthorRole || user.value.role == AdminRole)
    requires upload.Stored? ==> VerifyToken(req.authorization, env.decode, env.nowMs, db.users).Proceed?
                                && AvatarStep(req, env) == upload
    ensures after.users == db.users
    ensures forall b :: b in reply.blogs ==> b.isPublished
    ensures StaffOnly(db.blogs, after.blogs, SignedIn(db.users, req, env))
    ensures BlogsBacked(db.blogs, after.blogs, SignedIn(db.users, req, env))
    ensures CommentsBacked(db.comments, after.comments, SignedIn(db.users, req, env))
    ensures ProfilesBacked(db.profiles, after.profiles, SignedIn(db.users, req, env))
    ensures FilesBacked(db, after, req, env)
    ensures ControllerOutcome(h, db.(files := Received(db.files, upload)), req, env, params, user, StoredName(upload),
                              after, reply)
    ensures reply.status != Unauthorized
    ensures reply.status == Forbidden ==> after.(files := db.files) == db
  {
    var received := db.(files := Received(db.files, upload));
    after, reply := Control(received, req, env, h, params, user, StoredName(upload));
    AdmittedBacked(db, received, after, req, env, h, user, upload, reply.status);
  }

  /** What `Admitted` promises besides the controller's outcome, from what
      `Control` promises on the database with the upload received. */
  lemma AdmittedBacked(db: Db, received: Db, after: Db, req: Request, env: Env, h: Handler,
                       user: Option<Caller>, upload: UploadResult, status: Status)
    requires received == db.(files := Received(db.files, upload))
    requires user.Some? ==> user == SignedIn(db.users, req, env)
    requires WritesBlogs(h) ==> user.Some? && (user.value.role == AuthorRole || user.value.role == AdminRole)
    requires upload.Stored? ==> VerifyToken(req.authorization, env.decode, env.nowMs, db.users).Proceed?
                                && AvatarStep(req, env) == upload
    requires after.users == received.users && after.files == received.files
    requires after.blogs != received.blogs ==> WritesBlogs(h)
    requires BlogsBacked(received.blogs, after.blogs, user)
    requires CommentsBacked(received.comments, after.comments, user)
    requires ProfilesBacked(received.profiles, after.profiles, user)
    requires status == Forbidden ==> after == received
    ensures after.users == db.users
    ensures StaffOnly(db.blogs, after.blogs, SignedIn(db.users, req, env))
    ensures BlogsBacked(db.blogs, after.blogs, SignedIn(db.users, req, env))
    ensures CommentsBacked(db.comments, after.comments, SignedIn(db.users, req, env))
    ensures ProfilesBacked(db.profiles, after.profiles, SignedIn(db.users, req, env))
    ensures FilesBacked(db, after, req, env)
    ensures status == Forbidden ==> after.(files := db.files) == db
  {
    SignedInBacks(db, after, user, SignedIn(db.users, req, env));
  }

  /** The upload directory once the upload step's file is in it. */
  function Received(files: set<string>, upload: UploadResult): set<string>
  {
    if upload.Stored? then files + {upload.filename} else files
  }

  /** The name `req.file.filename` the controller sees. */
  function StoredName(upload: UploadResult): Option<string>
  {
    if upload.Stored? then Some(upload.filename) else None
  }

  /** A request that changes nothing is backed by anybody. */
  lemma NothingChanged(db: Db, req: Request, env: Env)
    ensures StaffOnly(db.blogs, db.blogs, SignedIn(db.users, req, env))
    ensures BlogsBacked(db.blogs, db.blogs, SignedIn(db.users, req, env))
    ensures CommentsBacked(db.comments, db.comments, SignedIn(db.users, req, env))
    ensures ProfilesBacked(db.profiles, db.profiles, SignedIn(db.users, req, env))
    ensures FilesBacked(db, db, req, env)
  {
  }

  /** Collections left as they were are backed by anybody. */
  lemma Untouched(db: Db, user: Option<Caller>)
    ensures BlogsBacked(db.blogs, db.blogs, user)
    ensures CommentsBacked(db.comments, db.comments, user)
    ensures ProfilesBacked(db.profiles, db.profiles, user)
  {
  }

  /** Facts about the writes of a controller run for `user` carry over to
      the signed-in user when they are the same whenever `user` is set. */
  lemma SignedInBacks(db: Db, after: Db, user: Option<Caller>, signedIn: Option<Caller>)
    requires user.Some? ==> user == signedIn
    requires BlogsBacked(db.blogs, after.blogs, user)
    requires CommentsBacked(db.comments, after.comments, user)
    requires ProfilesBacked(db.profiles, after.profiles, user)
    ensures BlogsBacked(db.blogs, after.blogs, signedIn)
    ensures CommentsBacked(db.comments, after.comments, signedIn)
    ensures ProfilesBacked(db.profiles, after.profiles, signedIn)
  {
  }

  /** The controller of a route, given `req.user` and the stored upload. */
  method Control(db: Db, req: Request, env: Env, h: Handler, params: map<string, string>,
                 user: Option<Caller>, stored: Option<string>) returns (after: Db, reply: Reply)
    requires Needs(h) <= params.Keys
    requires Acyclic(db.comments)
    requires FreshId(db, req, env.newId)
    ensures after.users == db.users && after.files == db.files
    ensures forall b :: b in reply.blogs ==> b.isPublished
    ensures after.blogs != db.blogs ==> WritesBlogs(h)
    ensures BlogsBacked(db.blogs, after.blogs, user)
    ensures CommentsBacked(db.comments, after.comments, user)
    ensures ProfilesBacked(db.profiles, after.profiles, user)
    ensures ControllerOutcome(h, db, req, env, params, user, stored, after, reply)
    ensures reply.status != Unauthorized
    ensures reply.status == Forbidden ==> after == db
  {
    if OnComments(h) {
      after, reply := ControlComments(db, req, env, h, params, user, stored);
    } else if OnProfiles(h) {
      after, reply := ControlProfiles(db, req, env, h, params, user, stored);
    } else {
      after, reply := ControlBlogs(db, req, env, h, params, user, stored);
    }
  }

  /** `Control` for the comment controllers. */
  method ControlComments(db: Db, req: Request, env: Env, h: Handler, params: map<string, string>,
                         user: Option<Caller>, stored: Option<string>) returns (after: Db, reply: Reply)
    requires OnComments(h)
    requires Needs(h) <= params.Keys
    requires Acyclic(db.comments)
    requires FreshId(db, req, env.newId)
    ensures after.users == db.users && after.files == db.files
    ensures Acyclic(after.comments)
    ensures forall b :: b in reply.blogs ==> b.isPublished
    ensures after.blogs != db.blogs ==> WritesBlogs(h)
    ensures BlogsBacked(db.blogs, after.blogs, user)
    ensures CommentsBacked(db.comments, after.comments, user)
    ensures ProfilesBacked(db.profiles, after.profiles, user)
    ensures ControllerOutcome(h, db, req, env, params, user, stored, after, reply)
    ensures reply.status != Unauthorized
    ensures reply.status == Forbidden ==> after == db
  {
    Untouched(db, user);
    var t, r := HandleComments(h, db.comments, params, req.body, env, user);
    after, reply := db.(comments := t), r;
    assert after.comments == t;
  }

  /** `Control` for the profile controllers. */
  method ControlProfiles(db: Db, req: Request, env: Env, h: Handler, params: map<string, string>,
                         user: Option<Caller>, stored: Option<string>) returns (after: Db, reply: Reply)
    requires OnProfiles(h)
    requires Needs(h) <= params.Keys
    requires Acyclic(db.comments)
    requires FreshId(db, req, env.newId)
    ensures after.users == db.users && after.files == db.files
    ensures forall b :: b in reply.blogs ==> b.isPublished
    ensures after.blogs != db.blogs ==> WritesBlogs(h)
    ensures BlogsBacked(db.blogs, after.blogs, user)
    ensures CommentsBacked(db.comments, after.comments, user)
    ensures ProfilesBacked(db.profiles, after.profiles, user)
    ensures ControllerOutcome(h, db, req, env, params, user, stored, after, reply)
    ensures reply.status != Unauthorized
    ensures reply.status == Forbidden ==> after == db
  {
    Untouched(db, user);
    var (t, r) := HandleProfiles(h, db.profiles, db.users, params, req.body, user, stored);
    after, reply := db.(profiles := t), r;
    assert after.profiles == t;
  }

  /** `Control` for the blog controllers. */
  method ControlBlogs(db: Db, req: Request, env: Env, h: Handler, params: map<string, string>,
                      user: Option<Caller>, stored: Option<string>) returns (after: Db, reply: Reply)
    requires !OnComments(h) && !OnProfiles(h)
    requires Needs(h) <= params.Keys
    requires Acyclic(db.comments)
    requires FreshId(db, req, env.newId)
    ensures after.users == db.users && after.files == db.files
    ensures forall b :: b in reply.blogs ==> b.isPublished
    ensures after.blogs != db.blogs ==> WritesBlogs(h)
    ensures BlogsBacked(db.blogs, after.blogs, user)
    ensures CommentsBacked(db.comments, after.comments, user)
    ensures ProfilesBacked(db.profiles, after.profiles, user)
    ensures ControllerOutcome(h, db, req, env, params, user, stored, after, reply)
    ensures reply.status != Unauthorized
    ensures reply.status == Forbidden ==> after == db
  {
    Untouched(db, user);
    var t, r := HandleBlogs(h, db.blogs, params, req.body, req.query, env, user);
    after, reply := db.(blogs := t), r;
    assert after.blogs == t;
  }
}

=== FILE: text.dfy ===
/** The string primitives the controllers and middleware rely on, with the
    JavaScript semantics they have in the source: `toLowerCase`, `startsWith`,
    unanchored substring search, `split` on a separator, `trim` and the
    decimal `toString` of a non-negative integer. */
module Text {

  /* ---------------- case ---------------- */

  function LowerChar(c: char): char
  {
    if 'A' <= c <= 'Z' then (c as int + 32) as char else c
  }

  /** `toLowerCase`, restricted to the ASCII letters. */
  function Lower(s: string): (r: string)
    ensures |r| == |s|
    ensures forall i :: 0 <= i < |s| ==> r[i] == LowerChar(s[i])
    ensures forall i :: 0 <= i < |r| ==> !('A' <= r[i] <= 'Z')
  {
    seq(|s|, i requires 0 <= i < |s| => LowerChar(s[i]))
  }

  /* ---------------- prefixes and substrings ---------------- */

  predicate StartsWith(s: string, prefix: string)
  {
    |prefix| <= |s| && s[..|prefix|] == prefix
  }

  /** Unanchored search: does `sub` occur somewhere in `s`? */
  predicate Contains(s: string, sub: string)
    decreases |s|
  {
    StartsWith(s, sub) || (|s| > 0 && Contains(s[1..], sub))
  }

  /** `sub` occurs in `s` exactly when some offset of `s` starts with it. */
  lemma {:induction false} ContainsAt(s: string, sub: string)
    ensures Contains(s, sub) <==> exists i :: 0 <= i <= |s| && StartsWith(s[i..], sub)
    decreases |s|
  {
    if Contains(s, sub) {
      if StartsWith(s, sub) {
        assert s[0..] == s;
      } else {
        ContainsAt(s[1..], sub);
        var i :| 0 <= i <= |s[1..]| && StartsWith(s[1..][i..], sub);
        assert s[1..][i..] == s[i + 1..];
      }
    }
    if exists i :: 0 <= i <= |s| && StartsWith(s[i..], sub) {
      var i :| 0 <= i <= |s| && StartsWith(s[i..], sub);
      if i == 0 {
        assert s[0..] == s;
      } else {
        assert s[1..][i - 1..] == s[i..];
        ContainsAt(s[1..], sub);
      }
    }
  }

  /** A string contains every string occurring inside it. */
  lemma {:induction false} ContainsInfix(pre: string, sub: string, post: string)
    ensures Contains(pre + sub + post, sub)
    decreases |pre|
  {
    var s := pre + sub + post;
    if |pre| == 0 {
      assert s[..|sub|] == sub;
    } else {
      assert s[1..] == pre[1..] + sub + post;
      ContainsInfix(pre[1..], sub, post);
    }
  }

  /* ---------------- split and join ---------------- */

  /** The inverse of `Split`: the pieces glued back with the separator. */
  function Join(pieces: seq<string>, sep: char): string
    requires |pieces| >= 1
    decreases |pieces|
  {
    if |pieces| == 1 then pieces[0] else pieces[0] + [sep] + Join(pieces[1..], sep)
  }

  /** `String.prototype.split` on a one-character separator: always at least
      one piece, no piece holds the separator, and joining the pieces gives
      the string back. */
  function Split(s: string, sep: char): (r: seq<string>)
    ensures |r| >= 1
    ensures forall i :: 0 <= i < |r| ==> sep !in r[i]
    ensures Join(r, sep) == s
    decreases |s|
  {
    if |s| == 0 then [""]
    else if s[0] == sep then
      var rest := Split(s[1..], sep);
      assert ([""] + rest)[1..] == rest;
      [""] + rest
    else
      var rest := Split(s[1..], sep);
      var r := [[s[0]] + rest[0]] + rest[1..];
      assert r[1..] == rest[1..];
      assert |rest| > 1 ==> Join(rest, sep) == rest[0] + [sep] + Join(rest[1..], sep);
      r
  }

  /** A separator-free string is a single piece. */
  lemma {:induction false} SplitSingle(p: string, sep: char)
    requires sep !in p
    ensures Split(p, sep) == [p]
    decreases |p|
  {
    if |p| > 0 {
      SplitSingle(p[1..], sep);
    }
  }

  /** Splitting after a separator-free first piece. */
  lemma {:induction false} SplitCons(p: string, sep: char, t: string)
    requires sep !in p
    ensures Split(p + [sep] + t, sep) == [p] + Split(t, sep)
    decreases |p|
  {
    var s := p + [sep] + t;
    if |p| == 0 {
      assert s[1..] == t;
    } else {
      assert s[1..] == p[1..] + [sep] + t;
      SplitCons(p[1..], sep, t);
      assert [p[0]] + p[1..] == p;
    }
  }

  /** `Split` inverts `Join` on separator-free pieces: the two are a bijection. */
  lemma {:induction false} SplitJoin(pieces: seq<string>, sep: char)
    requires |pieces| >= 1
    requires forall i :: 0 <= i < |pieces| ==> sep !in pieces[i]
    ensures Split(Join(pieces, sep), sep) == pieces
    decreases |pieces|
  {
    if |pieces| == 1 {
      SplitSingle(pieces[0], sep);
    } else {
      SplitJoin(pieces[1..], sep);
      SplitCons(pieces[0], sep, Join(pieces[1..], sep));
      assert [pieces[0]] + pieces[1..] == pieces;
    }
  }

  /* ---------------- trim ---------------- */

  /** The characters `String.prototype.trim` removes (white space and line
      terminators of ECMAScript). */
  predicate IsJsSpace(c: char)
  {
    || c in {' ', '\t', '\n', '\r', '\U{0B}', '\U{0C}', '\U{A0}', '\U{1680}'}
    || c in {'\U{2028}', '\U{2029}', '\U{202F}', '\U{205F}', '\U{3000}', '\U{FEFF}'}
    || '\U{2000}' <= c <= '\U{200A}'
  }

  predicate AllSpace(s: string)
  {
    forall i :: 0 <= i < |s| ==> IsJsSpace(s[i])
  }

  function TrimStart(s: string): (r: string)
    ensures |r| <= |s| && r == s[|s| - |r|..]
    ensures AllSpace(s[..|s| - |r|])
    ensures r == [] || !IsJsSpace(r[0])
    decreases |s|
  {
    if |s| > 0 && IsJsSpace(s[0]) then
      var r := TrimStart(s[1..]);
      assert s[..|s| - |r|] == [s[0]] + s[1..][..|s| - 1 - |r|];
      r
    else s
  }

  function TrimEnd(s: string): (r: string)
    ensures |r| <= |s| && r == s[..|r|]
    ensures AllSpace(s[|r|..])
    ensures r == [] || !IsJsSpace(r[|r| - 1])
    decreases |s|
  {
    if |s| > 0 && IsJsSpace(s[|s| - 1]) then TrimEnd(s[..|s| - 1]) else s
  }

  /** `trim`: the result is a slice of `s` that neither starts nor ends with
      white space, and it is empty exactly when `s` is all white space. */
  function Trim(s: string): (r: string)
    ensures |r| <= |s|
    ensures r == [] || (!IsJsSpace(r[0]) && !IsJsSpace(r[|r| - 1]))
    ensures r == [] <==> AllSpace(s)
    ensures exists i, j :: 0 <= i <= j <= |s| && r == s[i..j] && AllSpace(s[..i]) && AllSpace(s[j..])
  {
    var a := TrimStart(s);
    var r := TrimEnd(a);
    TrimEmpty(s, a, r);
    TrimSlice(s, a, r);
    r
  }

  /** The two trims together cut white space off both ends and keep the
      slice in between. */
  lemma TrimSlice(s: string, a: string, r: string)
    requires |a| <= |s| && a == s[|s| - |a|..] && AllSpace(s[..|s| - |a|])
    requires |r| <= |a| && r == a[..|r|] && AllSpace(a[|r|..])
    ensures exists i, j :: 0 <= i <= j <= |s| && r == s[i..j] && AllSpace(s[..i]) && AllSpace(s[j..])
  {
    var i := |s| - |a|;
    var j := i + |r|;
    assert r == s[i..j];
    assert s[j..] == a[|r|..];
    assert 0 <= i <= j <= |s| && r == s[i..j] && AllSpace(s[..i]) && AllSpace(s[j..]);
  }

  lemma AllSpaceSplit(s: string, k: nat)
    requires k <= |s|
    ensures AllSpace(s) <==> AllSpace(s[..k]) && AllSpace(s[k..])
  {
    if AllSpace(s[..k]) && AllSpace(s[k..]) {
      forall i | 0 <= i < |s|
        ensures IsJsSpace(s[i])
      {
        if i < k {
          assert s[i] == s[..k][i];
        } else {
          assert s[i] == s[k..][i - k];
        }
      }
    }
  }

  lemma TrimEmpty(s: string, a: string, r: string)
    requires a == TrimStart(s) && r == TrimEnd(a)
    ensures r == [] <==> AllSpace(s)
  {
    var k := |s| - |a|;
    assert a == s[k..];
    AllSpaceSplit(s, k);
    if r == [] {
      assert a[|r|..] == a;
    } else {
      assert a[0] == r[0];
    }
  }

  /* ---------------- decimal numerals ---------------- */

  predicate IsDigit(c: char)
  {
    '0' <= c <= '9'
  }

  function DigitChar(d: nat): (c: char)
    requires d < 10
    ensures IsDigit(c)
  {
    ('0' as int + d) as char
  }

  /** The value of a string of decimal digits. */
  function DecimalValue(s: string): nat
    requires forall i :: 0 <= i < |s| ==> IsDigit(s[i])
    decreases |s|
  {
    if |s| == 0 then 0
    else
      assert IsDigit(s[|s| - 1]);
      DecimalValue(s[..|s| - 1]) * 10 + (s[|s| - 1] as int - '0' as int)
  }

  /** `Number.prototype.toString()` of a non-negative integer: a non-empty
      string of digits without leading zero. */
  function Decimal(n: nat): (r: string)
    ensures |r| >= 1
    ensures forall i :: 0 <= i < |r| ==> IsDigit(r[i])
    ensures r[0] == '0' <==> n == 0
    decreases n
  {
    if n < 10 then [DigitChar(n)] else Decimal(n / 10) + [DigitChar(n % 10)]
  }

  /** Reading the numeral back gives the number. */
  lemma {:induction false} DecimalRoundTrip(n: nat)
    ensures DecimalValue(Decimal(n)) == n
    decreases n
  {
    if n >= 10 {
      DecimalRoundTrip(n / 10);
      var r := Decimal(n);
      assert r[..|r| - 1] == Decimal(n / 10);
    }
  }

  function Pow10(k: nat): nat
  {
    if k == 0 then 1 else 10 * Pow10(k - 1)
  }

  /** A number with exactly `k` digits is printed with `k` characters. */
  lemma {:induction false} DecimalLength(n: nat, k: nat)
    requires k >= 1 && Pow10(k - 1) <= n < Pow10(k)
    ensures |Decimal(n)| == k
    decreases k
  {
    if k > 1 {
      assert n >= 10 by {
        assert Pow10(k - 1) == 10 * Pow10(k - 2);
      }
      DecimalLength(n / 10, k - 1);
    } else {
      assert n < 10;
    }
  }
}

=== FILE: upload.dfy ===
/** The avatar upload step (`src/middleware/uploadMiddleware.js`): which
    files are accepted, the size limit, and the name a stored file gets. The
    extension is Node's `path.extname` (POSIX flavour). */
module Upload {
  import opened Common
  import opened Text

  /** `limits.fileSize`: 2 MiB. */
  const MaxFileSize: nat := 2 * 1024 * 1024

  /** `Math.round(Math.random() * 1E9)`. */
  type RandomSuffix = k: int | 0 <= k <= 1_000_000_000

  /* ---------------- path.extname ---------------- */

  /** `p` without its trailing slashes. */
  function StripTrailingSlashes(p: string): (r: string)
    ensures |r| <= |p| && r == p[..|r|]
    ensures r == [] || r[|r| - 1] != '/'
    decreases |p|
  {
    if |p| > 0 && p[|p| - 1] == '/' then StripTrailingSlashes(p[..|p| - 1]) else p
  }

  /** The part of `s` after the last `c` (all of `s` when there is none). */
  function AfterLast(s: string, c: char): (r: string)
    ensures |r| <= |s| && r == s[|s| - |r|..]
    ensures forall i :: 0 <= i < |r| ==> r[i] != c
    ensures |r| < |s| ==> s[|s| - |r| - 1] == c
    decreases |s|
  {
    if |s| == 0 || s[|s| - 1] == c then []
    else AfterLast(s[..|s| - 1], c) + [s[|s| - 1]]
  }

  /** The last path component, ignoring trailing slashes. */
  function Basename(p: string): (r: string)
    ensures forall i :: 0 <= i < |r| ==> r[i] != '/'
  {
    AfterLast(StripTrailingSlashes(p), '/')
  }

  /** `path.extname(p)`: from the last dot of the last component to its
      end; empty when that component has no dot, starts with its only dot
      (`.bashrc`), or is `..`. */
  function Extname(p: string): (r: string)
    ensures r == [] || r[0] == '.'
    ensures forall i :: 1 <= i < |r| ==> r[i] != '.' && r[i] != '/'
  {
    ExtensionOf(Basename(p))
  }

  /** The extension of a single path component. */
  function ExtensionOf(base: string): (r: string)
    requires forall i :: 0 <= i < |base| ==> base[i] != '/'
    ensures r == [] || r[0] == '.'
    ensures forall i :: 1 <= i < |r| ==> r[i] != '.' && r[i] != '/'
  {
    var tail := AfterLast(base, '.');
    if |tail| + 1 >= |base| || base == ".." then [] else ['.'] + tail
  }

  lemma {:induction false} AfterLastAbsent(s: string, c: char)
    requires Free(s, c)
    ensures AfterLast(s, c) == s
    decreases |s|
  {
    if |s| > 0 {
      AfterLastAbsent(s[..|s| - 1], c);
    }
  }

  lemma {:induction false} AfterLastSuffix(pre: string, c: char, e: string)
    requires Free(e, c)
    ensures AfterLast(pre + [c] + e, c) == e
    decreases |e|
  {
    var s := pre + [c] + e;
    if |e| > 0 {
      assert s[..|s| - 1] == pre + [c] + e[..|e| - 1];
      AfterLastSuffix(pre, c, e[..|e| - 1]);
      assert e[..|e| - 1] + [e[|e| - 1]] == e;
    }
  }

  /** A file name `stem.e` with a non-empty, slash-free stem has extension
      `.e` when `e` has no dot or slash (and the name is not `..`). */
  lemma ExtnameOf(stem: string, e: string)
    requires stem != [] && (stem != "." || e != [])
    requires Free(stem, '/') && Free(e, '/') && Free(e, '.')
    ensures Extname(stem + ['.'] + e) == ['.'] + e
  {
    var p := stem + ['.'] + e;
    assert p != ".." by {
      if |p| == 2 {
        assert |stem| == 1 && e == [];
        assert p[0] == stem[0];
      }
    }
    assert p[|p| - 1] != '/' by {
      if |e| > 0 { assert p[|p| - 1] == e[|e| - 1]; }
    }
    assert StripTrailingSlashes(p) == p;
    assert Free(['.'], '/');
    FreeConcat(stem, ['.'], '/');
    FreeConcat(stem + ['.'], e, '/');
    AfterLastAbsent(p, '/');
    assert Basename(p) == p;
    AfterLastSuffix(stem, '.', e);
    assert |p| == |stem| + 1 + |e|;
  }

  /** A name without any dot has no extension. */
  lemma ExtnameNoDot(p: string)
    requires Free(p, '.') && Free(p, '/')
    ensures Extname(p) == []
  {
    assert StripTrailingSlashes(p) == p;
    AfterLastAbsent(p, '/');
    assert Basename(p) == p;
    AfterLastAbsent(p, '.');
  }

  /* ---------------- the file filter ---------------- */

  /** The unanchored pattern `/jpeg|jpg|png|gif/`. */
  predicate ImagePattern(s: string)
  {
    Contains(s, "jpeg") || Contains(s, "jpg") || Contains(s, "png") || Contains(s, "gif")
  }

  /** `fileFilter`: both the lowercased extension of the original name and
      the mimetype, as sent, must match the pattern. */
  predicate FileFilter(originalname: string, mimetype: string)
  {
    ImagePattern(Lower(Extname(originalname))) && ImagePattern(mimetype)
  }

  /** A string lacking some character of `sub` does not contain `sub`. */
  lemma {:induction false} MissingChar(s: string, sub: string, k: nat)
    requires k < |sub| && Free(s, sub[k])
    ensures !Contains(s, sub)
    decreases |s|
  {
    if |sub| <= |s| {
      assert s[..|sub|][k] != sub[k];
    }
    if |s| > 0 {
      MissingChar(s[1..], sub, k);
    }
  }

  /** The pattern is unanchored: any string with `png` inside matches, so
      an extension such as `.apng` passes. */
  lemma HasPng(pre: string, post: string)
    ensures ImagePattern(pre + "png" + post)
  {
    ContainsInfix(pre, "png", post);
  }

  /** Only the last extension of the original name counts: for `stem.e`,
      whatever dots the stem holds (`image.png.php`), the filter looks at
      `.e` alone, lowercased. */
  lemma FilterLooksAtLastExtension(stem: string, e: string, mimetype: string)
    requires stem != [] && (stem != "." || e != [])
    requires Free(stem, '/') && Free(e, '/') && Free(e, '.')
    ensures FileFilter(stem + ['.'] + e, mimetype) <==> ImagePattern(Lower(['.'] + e)) && ImagePattern(mimetype)
  {
    ExtnameOf(stem, e);
  }

  /** The mimetype is matched as sent, without lowercasing: one with no
      lower-case letter (`IMAGE/PNG`) is refused whatever the file is called. */
  lemma MimetypeIsCaseSensitive(originalname: string, mimetype: string)
    requires forall i :: 0 <= i < |mimetype| ==> !('a' <= mimetype[i] <= 'z')
    ensures !FileFilter(originalname, mimetype)
  {
    MissingChar(mimetype, "jpeg", 0);
    MissingChar(mimetype, "jpg", 0);
    MissingChar(mimetype, "png", 0);
    MissingChar(mimetype, "gif", 0);
  }

  /** The extension is lowercased before matching: renaming `x.PNG` to
      `x.png` never changes the verdict. */
  lemma ExtensionCaseIgnored(stem: string, e: string, mimetype: string)
    requires stem != [] && (stem != "." || e != [])
    requires Free(stem, '/') && Free(e, '/') && Free(e, '.')
    ensures FileFilter(stem + ['.'] + e, mimetype) <==> FileFilter(stem + ['.'] + Lower(e), mimetype)
  {
    var le := Lower(e);
    assert Free(le, '/') && Free(le, '.');
    assert le == [] <==> e == [];
    ExtnameOf(stem, e);
    ExtnameOf(stem, le);
    LowerDotted(e);
  }

  lemma LowerDotted(e: string)
    ensures Lower(['.'] + Lower(e)) == Lower(['.'] + e)
  {
    var a, b := Lower(['.'] + Lower(e)), Lower(['.'] + e);
    assert |a| == |b|;
    forall i | 0 <= i < |a|
      ensures a[i] == b[i]
    {
      if i > 0 {
        assert (['.'] + Lower(e))[i] == Lower(e)[i - 1];
        assert (['.'] + e)[i] == e[i - 1];
      }
    }
  }

  /* ---------------- the stored name ---------------- */

  /** The name the disk storage gives a file: field name, timestamp and
      random suffix joined by dashes, then the original extension. */
  function StoredFilename(fieldname: string, originalname: string, nowMs: nat, rand: RandomSuffix): string
  {
    DashJoin(fieldname, Decimal(nowMs), Decimal(rand) + Extname(originalname))
  }

  /** `a + '-' + b + '-' + c`. */
  function DashJoin(a: string, b: string, c: string): string
  {
    a + "-" + b + "-" + c
  }

  /** No character of `s` is `c`. */
  predicate Free(s: string, c: char)
  {
    forall i :: 0 <= i < |s| ==> s[i] != c
  }

  lemma FreeConcat(a: string, b: string, c: char)
    requires Free(a, c) && Free(b, c)
    ensures Free(a + b, c)
  {
    forall i | 0 <= i < |a + b|
      ensures (a + b)[i] != c
    {
      if i >= |a| { assert (a + b)[i] == b[i - |a|]; }
    }
  }

  lemma FreeNotIn(s: string, c: char)
    requires Free(s, c)
    ensures c !in s
  {
  }

  lemma DigitsHaveNo(n: nat, c: char)
    requires !IsDigit(c)
    ensures c !in Decimal(n) && Free(Decimal(n), c)
  {
  }

  /** Three dash-free pieces joined by dashes split back into themselves. */
  lemma DashSplit(a: string, b: string, c: string)
    requires '-' !in a && '-' !in b && '-' !in c
    ensures Split(DashJoin(a, b, c), '-') == [a, b, c]
  {
    SplitSingle(c, '-');
    SplitCons(b, '-', c);
    assert a + "-" + b + "-" + c == a + ['-'] + (b + ['-'] + c);
    SplitCons(a, '-', b + ['-'] + c);
  }

  /** The stored name splits back on its dashes into the field name, the
      timestamp and the suffix with the extension, when neither the field
      name nor the extension holds a dash; the timestamp reads back. */
  lemma StoredFilenameParts(fieldname: string, originalname: string, nowMs: nat, rand: RandomSuffix)
    requires Free(fieldname, '-') && Free(Extname(originalname), '-')
    ensures Split(StoredFilename(fieldname, originalname, nowMs, rand), '-')
              == [fieldname, Decimal(nowMs), Decimal(rand) + Extname(originalname)]
    ensures DecimalValue(Decimal(nowMs)) == nowMs
  {
    var ext := Extname(originalname);
    DigitsHaveNo(nowMs, '-');
    DigitsHaveNo(rand, '-');
    FreeConcat(Decimal(rand), ext, '-');
    FreeNotIn(fieldname, '-');
    FreeNotIn(Decimal(rand) + ext, '-');
    DashSplit(fieldname, Decimal(nowMs), Decimal(rand) + ext);
    DecimalRoundTrip(nowMs);
  }

  /** The stored file keeps the extension of the original name (for a field
      name without dots or slashes, such as `avatar`). */
  lemma StoredKeepsExtension(fieldname: string, originalname: string, nowMs: nat, rand: RandomSuffix)
    requires Free(fieldname, '.') && Free(fieldname, '/')
    ensures Extname(StoredFilename(fieldname, originalname, nowMs, rand)) == Extname(originalname)
  {
    var ext := Extname(originalname);
    var stem := DashJoin(fieldname, Decimal(nowMs), Decimal(rand));
    DashJoinFree(fieldname, Decimal(nowMs), Decimal(rand), nowMs, rand, '.');
    DashJoinFree(fieldname, Decimal(nowMs), Decimal(rand), nowMs, rand, '/');
    DashJoinAppend(fieldname, Decimal(nowMs), Decimal(rand), ext);
    StemKeepsExtension(stem, ext);
  }

  /** Appending an extension to a dot-free, slash-free, non-empty stem gives
      a name with that extension. */
  lemma StemKeepsExtension(stem: string, ext: string)
    requires stem != [] && Free(stem, '.') && Free(stem, '/')
    requires ext == [] || ext[0] == '.'
    requires forall i :: 1 <= i < |ext| ==> ext[i] != '.' && ext[i] != '/'
    ensures Extname(stem + ext) == ext
  {
    if ext == [] {
      assert stem + ext == stem;
      ExtnameNoDot(stem);
    } else {
      var e := ext[1..];
      TailFree(ext);
      assert ext == ['.'] + e;
      assert stem + ext == stem + ['.'] + e;
      assert stem != "." by { assert stem[0] != '.'; }
      ExtnameOf(stem, e);
    }
  }

  /** Past its leading dot, an extension holds no dot and no slash. */
  lemma TailFree(ext: string)
    requires ext != []
    requires forall i :: 1 <= i < |ext| ==> ext[i] != '.' && ext[i] != '/'
    ensures Free(ext[1..], '.') && Free(ext[1..], '/')
  {
    var e := ext[1..];
    forall i | 0 <= i < |e|
      ensures e[i] != '.' && e[i] != '/'
    {
      assert e[i] == ext[i + 1];
    }
  }

  lemma DashJoinAppend(a: string, b: string, c: string, d: string)
    ensures DashJoin(a, b, c + d) == DashJoin(a, b, c) + d
  {
  }

  /** The field name, two numerals and the dashes between them avoid any
      character the field name avoids, other than a digit or a dash. */
  lemma DashJoinFree(f: string, d1: string, d2: string, n1: nat, n2: nat, c: char)
    requires d1 == Decimal(n1) && d2 == Decimal(n2)
    requires Free(f, c) && !IsDigit(c) && c != '-'
    ensures Free(DashJoin(f, d1, d2), c) && DashJoin(f, d1, d2) != []
  {
    DigitsHaveNo(n1, c);
    DigitsHaveNo(n2, c);
    assert Free("-", c);
    FreeConcat(f, "-", c);
    FreeConcat(f + "-", d1, c);
    FreeConcat(f + "-" + d1, "-", c);
    FreeConcat(f + "-" + d1 + "-", d2, c);
  }

  /* ---------------- the upload step ---------------- */

  /** A file part of a multipart request. */
  datatype UploadedFile = UploadedFile(fieldname: string, originalname: string, mimetype: string, size: nat)

  /** What `upload.single(field)` leaves for the next handler: no file, an
      error (answered 500), or the name the file was stored under. */
  datatype UploadResult = NoFile | UploadError | Stored(filename: string)

  /** `upload.single(field)`: a file under another field name, a file the
      filter refuses, or one larger than the limit is an error; an accepted
      file is stored under a fresh name. */
  function Single(field: string, file: Option<UploadedFile>, nowMs: nat, rand: RandomSuffix): (r: UploadResult)
    ensures r == NoFile <==> file.None?
    ensures r.Stored? <==> file.Some? && file.value.fieldname == field
                           && FileFilter(file.value.originalname, file.value.mimetype)
                           && file.value.size <= MaxFileSize
    ensures r.Stored? ==> r.filename == StoredFilename(field, file.value.originalname, nowMs, rand)
  {
    match file
    case None => NoFile
    case Some(f) =>
      if f.fieldname != field || !FileFilter(f.originalname, f.mimetype) || f.size > MaxFileSize then UploadError
      else Stored(StoredFilename(f.fieldname, f.originalname, nowMs, rand))
  }
}

=== FILE: users.dfy ===
/** The user record of `src/models/User.js`: its fields, defaults and
    validators, the lowercased unique email, the password hashing pre-save
    hook and `matchPassword`, and the password-free view of a user that the
    authentication middleware attaches to a request. */
module Users {
  import opened Common
  import opened Text
  import opened Encoding

  /** The schema's `minlength` for passwords, in UTF-16 code units as
      JavaScript counts them. */
  const MinPasswordLength: nat := 6

  /** The Blowfish key schedule of bcrypt reads exactly this many bytes. */
  const BcryptMaxBytes: nat := 72

  /** The buffer bcryptjs keys Blowfish with: the UTF-8 encoding of the
      password followed by a NUL byte, which it appends for salts of
      version `2a` and later (the only kind `genSalt` makes). */
  function KeyBuffer(password: string): (b: seq<Byte>)
    ensures |b| == |Utf8(password)| + 1 && b[|b| - 1] == 0 && b[..|b| - 1] == Utf8(password)
  {
    Utf8(password) + [0]
  }

  /** `n` bytes read from `b` from its start, going back to its start
      whenever it runs out. */
  function Cycle(b: seq<Byte>, n: nat): (r: seq<Byte>)
    requires |b| > 0
    ensures |r| == n
    ensures n <= |b| ==> r == b[..n]
    ensures n >= |b| ==> r[..|b|] == b
    decreases n
  {
    if n <= |b| then b[..n] else b + Cycle(b, n - |b|)
  }

  /** Cycling through a buffer written twice is cycling through it once. */
  lemma {:induction false} CycleDouble(b: seq<Byte>, n: nat)
    requires |b| > 0
    ensures Cycle(b + b, n) == Cycle(b, n)
    decreases n
  {
    if n <= |b| {
      assert (b + b)[..n] == b[..n];
    } else if n <= 2 * |b| {
      assert (b + b)[..n] == b + b[..n - |b|];
    } else {
      CycleDouble(b, n - 2 * |b|);
      assert Cycle(b, n - |b|) == b + Cycle(b, n - 2 * |b|);
    }
  }

  /** What bcrypt reads of a password: 72 bytes of the key buffer, cycling
      back to its start whenever it runs out. A password of 71 bytes or more
      is read up to its first 72 bytes (terminator included); a shorter one
      is read whole with its terminator, then again from its start. */
  function BcryptKey(password: string): (r: seq<Byte>)
    ensures |r| == BcryptMaxBytes
    ensures |KeyBuffer(password)| >= BcryptMaxBytes ==> r == KeyBuffer(password)[..BcryptMaxBytes]
    ensures |KeyBuffer(password)| <= BcryptMaxBytes ==> r[..|KeyBuffer(password)|] == KeyBuffer(password)
  {
    Cycle(KeyBuffer(password), BcryptMaxBytes)
  }

  /** A bcrypt digest, idealised: bcrypt is treated as collision free on
      what it reads, so a digest is determined by its salt and the key of
      the password it was made from. */
  datatype Digest = Digest(salt: nat, key: seq<Byte>)

  /** A stored user document. `otp`/`otpExpires` (milliseconds since the
      epoch) are both null once the account is verified. */
  datatype User = User(name: string, email: string, password: Digest, role: Role,
                       otp: Option<string>, otpExpires: Option<int>)

  /** The user collection, by document id. */
  type UserStore = map<Id, User>

  /** The unique index on `email`. */
  ghost predicate UniqueEmails(users: UserStore)
  {
    forall a, b :: a in users && b in users && users[a].email == users[b].email ==> a == b
  }

  /** `userSchema.methods.matchPassword`: `bcrypt.compare` succeeds when
      the entered password has the key the digest was made from. */
  predicate MatchPassword(u: User, entered: string)
  {
    u.password.key == BcryptKey(entered)
  }

  /** The digest of a password. */
  function Hash(password: string, salt: nat): (d: Digest)
    ensures forall u: User, entered :: u.password == d ==>
              (MatchPassword(u, entered) <==> BcryptKey(entered) == BcryptKey(password))
  {
    Digest(salt, BcryptKey(password))
  }

  /** A password of fewer than 72 bytes and without U+0000 is matched by
      itself only, among passwords without U+0000: its terminator is the
      only zero byte of its key, which pins down its length. */
  lemma ShortPasswordExact(password: string, entered: string)
    requires |Utf8(password)| < BcryptMaxBytes
    requires NulFree(password) && NulFree(entered)
    ensures BcryptKey(entered) == BcryptKey(password) <==> entered == password
  {
    if BcryptKey(entered) == BcryptKey(password) {
      var p, e, k := KeyBuffer(password), KeyBuffer(entered), BcryptKey(password);
      Utf8NoZero(password);
      Utf8NoZero(entered);
      assert k[|p| - 1] == 0;
      assert |e| == |p|;
      assert p == k[..|p|] == e;
      Utf8Injective(entered, password);
    }
  }

  /** Two passwords that agree on their first 72 bytes are matched by each
      other: whatever follows is never read. */
  lemma LongPasswordsCollide(a: string, b: string, c: string)
    requires |Utf8(a)| >= BcryptMaxBytes
    ensures BcryptKey(a + b) == BcryptKey(a + c)
  {
    Utf8Append(a, b);
    Utf8Append(a, c);
    SharedPrefix(Utf8(a), Utf8(b) + [0], Utf8(c) + [0], BcryptMaxBytes);
  }

  lemma SharedPrefix(x: seq<Byte>, y: seq<Byte>, z: seq<Byte>, n: nat)
    requires n <= |x|
    ensures (x + y)[..n] == (x + z)[..n] == x[..n]
  {
  }

  /** A password of 71 bytes is matched by itself followed by U+0000 and
      anything after it: the appended character encodes to the very byte
      bcryptjs uses as a terminator, and nothing after it is read. */
  lemma NulAfter71Bytes(password: string, rest: string)
    requires |Utf8(password)| == BcryptMaxBytes - 1
    ensures BcryptKey(password + "\0" + rest) == BcryptKey(password)
  {
    var entered := password + "\0" + rest;
    assert Utf8("\0") == [0];
    Utf8Append(password, "\0");
    Utf8Append(password + "\0", rest);
    assert KeyBuffer(entered) == KeyBuffer(password) + Utf8(rest) + [0];
    SharedPrefix(KeyBuffer(password), Utf8(rest) + [0], [], BcryptMaxBytes);
  }

  /** A password and the same password written twice around U+0000 have
      key buffers of which one is the other repeated, and the cycling key
      schedule cannot tell them apart: "a" and "a\u0000a" match each
      other. */
  lemma NulRepetitionCollides(password: string)
    ensures BcryptKey(password + "\0" + password) == BcryptKey(password)
  {
    assert Utf8("\0") == [0];
    Utf8Append(password, "\0");
    Utf8Append(password + "\0", password);
    assert KeyBuffer(password + "\0" + password) == KeyBuffer(password) + KeyBuffer(password);
    CycleDouble(KeyBuffer(password), BcryptMaxBytes);
  }

  /** `User.findOne({ email })`. The filter value goes through the schema's
      `lowercase` setter, so the lookup is by the lowercased address. */
  function FindByEmail(users: UserStore, email: string): (r: Option<Id>)
    requires UniqueEmails(users)
    ensures r.Some? <==> exists id :: id in users && users[id].email == Lower(email)
    ensures r.Some? ==> r.value in users && users[r.value].email == Lower(email)
  {
    var e := Lower(email);
    if exists id :: id in users && users[id].email == e then
      var id :| id in users && users[id].email == e; Some(id)
    else None
  }

  /** Three emoji are six UTF-16 code units, enough for the schema's
      `minlength`, though only three characters. */
  lemma AstralPasswordAccepted(name: string, email: string, salt: nat)
    requires !AllSpace(name) && email != ""
    ensures var pw := "\U{1F600}\U{1F600}\U{1F600}";
            |pw| == 3 && Create(name, email, pw, None, None, None, salt).Some?
  {
    var pw := "\U{1F600}\U{1F600}\U{1F600}";
    assert pw[1..] == "\U{1F600}\U{1F600}" && pw[1..][1..] == "\U{1F600}";
    assert Utf16Length(pw) == 6;
  }

  /** `User.create(...)`: casting, defaults and validation of the schema
      (`name` trimmed and required, `email` lowercased and required,
      `password` at least six UTF-16 code units long, `role` one of the
      enum values and `user` when not given), then the pre-save hook, which
      hashes the new password with the given salt. `None` is a validation
      error. The stored digest is matched by every password with the same
      bcrypt key. */
  function Create(name: string, email: string, password: string, role: Option<string>,
                  otp: Option<string>, otpExpires: Option<int>, salt: nat): (r: Option<User>)
    ensures r.Some? <==> !AllSpace(name) && email != "" && Utf16Length(password) >= MinPasswordLength
                         && (role.None? || ParseRole(role.value).Some?)
    ensures r.Some? ==> && r.value.name == Trim(name)
                        && r.value.email == Lower(email)
                        && (forall entered :: MatchPassword(r.value, entered) <==> BcryptKey(entered) == BcryptKey(password))
                        && (role.None? ==> r.value.role == UserRole)
                        && (role.Some? ==> RoleName(r.value.role) == role.value)
                        && r.value.otp == otp && r.value.otpExpires == otpExpires
  {
    var n := Trim(name);
    var e := Lower(email);
    var rl := if role.None? then Some(UserRole) else ParseRole(role.value);
    if n == "" || e == "" || Utf16Length(password) < MinPasswordLength || rl.None? then None
    else Some(User(n, e, Hash(password, salt), rl.value, otp, otpExpires))
  }

  /** A save of a loaded document: the pre-save hook hashes the password
      only when the save sets a new one (`isModified('password')`); a save
      that only touches other fields keeps the stored digest. */
  function Save(u: User, newPassword: Option<string>, salt: nat): (r: User)
    ensures r.(password := u.password) == u
    ensures newPassword.None? ==> r.password == u.password
    ensures newPassword.Some? ==> forall entered :: MatchPassword(r, entered) <==> BcryptKey(entered) == BcryptKey(newPassword.value)
  {
    match newPassword
    case None => u
    case Some(p) => u.(password := Hash(p, salt))
  }

  /** The user attached to a request: the stored record without its
      password (`select('-password')`). */
  datatype Caller = Caller(id: Id, name: string, email: string, role: Role)

  /** `User.findById(id).select('-password')`. */
  function FindCaller(users: UserStore, id: Id): (r: Option<Caller>)
    ensures r.Some? <==> id in users
    ensures r.Some? ==> r.value.id == id && r.value.role == users[id].role
                        && r.value.name == users[id].name && r.value.email == users[id].email
  {
    if id in users then Some(Caller(id, users[id].name, users[id].email, users[id].role)) else None
  }

  /** A caller with the `admin` role. */
  predicate IsAdmin(c: Caller)
  {
    c.role == AdminRole
  }

  /** Adding a user under a fresh id keeps emails unique when no stored
      user has the new email. */
  lemma InsertKeepsUnique(users: UserStore, id: Id, u: User)
    requires UniqueEmails(users) && id !in users
    requires forall x :: x in users ==> users[x].email != u.email
    ensures UniqueEmails(users[id := u])
  {
  }

  /** Changing fields other than `email` keeps emails unique. */
  lemma UpdateKeepsUnique(users: UserStore, id: Id, u: User)
    requires UniqueEmails(users) && id in users && u.email == users[id].email
    ensures UniqueEmails(users[id := u])
  {
  }
}
